=== FILE: README.md ===
# TaskManager kernels in Dafny

TaskManager is a BeOS task manager. It lists the running teams, sets their
priorities, and draws performance graphs fed by counter plug-ins. It is
almost entirely GUI, kernel and messaging code. This project models the
small sequential kernels inside it. Each is a pure function over sequences,
integers and records, and each is proved against a partner: an inverse, an
invariant it keeps, or an independent reference definition.

- `Stylesheet`: the help pages' stylesheet choice (`search`, `set_stylesheet`).
- `CommandLine`: `CCommandLineParser::Escape`, `Unescape` and `SplitCommandLine`.
- `Localization`: the language file's `trim` and `replace`, `CLocalizedString::operator<<`, the line parse of `Load`, and `String`.
- `UrlText`: `CURLInfo::URLType` and the word scan of `CURLTextView::InsertText`.
- `Mru`: the most-recently-used list of `CMRUSelectFileView`.
- `Color`: `CColor`'s saturating `+`, `-`, `+=` and `-=`.
- `PerformanceView`: the colour menu of `CPerformanceAddView`. This covers `IndexOfColor`, `SelectedColor`, `SelectColor`, `SelectAutomatic` and `AddToUserdefinedColors`.
- `GraphView`: `CDataInfo`'s ring buffer and `CGraphView`.
  - `AddDataProvider`, the auto-scaling and grid step of `Pulse`, and the property checks.
  - The specifier iteration `GetNextDataInfoIndex`.
- `Process`: `CTeam::GetBasePriority` and `SetBasePriority` over the priorities of a team's threads.
- `TeamModel`: `CTeamModel`.
  - `AddTeam`, `RemoveEntryAt`, `RemoveTeam` and the snapshot reconciliation of `Update`.
  - Team resolution in `ResolveSpecifier`, and the priority property check.
- `ProcessView`: the priority menu buckets, `CProcessItem::Compare`, `SetHideSystemTeams` and the alert-closed dispatch.
- `ColumnListView`: `CLVTextPainter::SetText`, and the `CColumnListViewEx` members.
  - The type-ahead search of `KeyDown`, `GetColumnIndex`, and the sort-mode property.
- `ClvColumn`: the `CLVColumn` constructor, `SetWidth`, `IsShown`/`SetShown`, `SetSortMode` and `SortingChanged`.
- `Blur`: `CBlur`'s argument checks, pixel writers, clipping and one output pixel.
- `Plugin` and `CounterNamespace`: counter paths, the lazy child enumeration, and `DataProvider`'s path split and tree walk.
- `Singleton`: `CSingleton`'s registry and `CreateSingleton`.
- `TaskManager`: `IncludesOption` and the option handling of `ArgvReceived`.
- `Common`: `Option`, the `status_t` codes the model uses, and C's truncating division. It also holds the string helpers: prefix, occurrence and first occurrence.

## Model

| member | source | states |
|---|---|---|
| Stylesheet.Search | doc/common/stylesheet.js:7-23 | a result other than -1 is a position where the pattern occurs; an empty text or an empty pattern gives -1 |
| Stylesheet.EmptyPatternNeverMatches | doc/common/stylesheet.js:11-22 | with an empty pattern no position ever matches, so the scan runs to the end and gives -1 |
| Stylesheet.SearchFindsOccurrence | doc/common/stylesheet.js:14-16 | whenever `search` reports a position, the text contains the pattern |
| Stylesheet.SearchFirst | doc/common/stylesheet.js:3-4 | the documented search: -1 exactly when the pattern is empty or absent, otherwise the first position where it occurs |
| Stylesheet.SearchAgrees | doc/common/stylesheet.js:7-23 | whatever `search` finds, the documented search also finds, at the same or an earlier position |
| Stylesheet.SearchMissesOverlappingStart | doc/common/stylesheet.js:12-19 | "ab" occurs in "aab" at 1, yet `search` gives -1, because a mismatch resets without re-reading the current character |
| Stylesheet.SelectStylesheet | doc/common/stylesheet.js:25-40 | "ie.css" exactly for Internet Explorer; for Netscape, "opera.css" exactly when "Opera" and "BeOS" both occur in the user agent, else "netscape.css"; any other browser keeps "opera.css" |
| Stylesheet.SelectStylesheetAsWritten | doc/common/stylesheet.js:25-40 | the script as written: "ie.css" exactly for Internet Explorer; for Netscape, "opera.css" only when "Opera" and "BeOS" both occur in the user agent; any other browser keeps "opera.css" |
| Stylesheet.SelectStylesheetAgrees | doc/common/stylesheet.js:25-40 | the script as written and the documented decision differ only for Netscape, where the script picks "netscape.css" and the documented decision "opera.css" |
| Stylesheet.SelectStylesheetAsWrittenMissesOpera | doc/common/stylesheet.js:32-33 | for the user agent "OOpera BeOS", `search` misses "Opera", so the script as written picks "netscape.css" where the documented decision is "opera.css" |
| Stylesheet.StylesheetLink | doc/common/stylesheet.js:42 | the written text is the LINK element with the stylesheet's name between `common/` and the closing quote |
| CommandLine.Escape | source/CommandLineParser.cpp:154-174 | the output grows by one character per space and per backslash, and escaping adds no quote |
| CommandLine.Unescape | source/CommandLineParser.cpp:116-150 | unescaping never lengthens a string |
| CommandLine.UnescapeKeepsPlainChars | source/CommandLineParser.cpp:142-145 | every character other than a space or a backslash survives unescaping, in order |
| CommandLine.UnescapeDropsUnescapedSpaces | source/CommandLineParser.cpp:133-141 | without backslashes, unescaping just drops the spaces |
| CommandLine.UnescapeEscapeFailsForTwoSpaces | source/CommandLineParser.cpp:133-136 | `Unescape(Escape("  "))` is " \\" rather than "  ", because the escape flag stays set after an escaped space |
| CommandLine.UnescapeFixed | source/CommandLineParser.cpp:114-115 | the documented unescape never lengthens a string |
| CommandLine.UnescapeFixedInvertsEscape | source/CommandLineParser.cpp:114-115 | the documented unescape inverts `Escape` on every string |
| CommandLine.Step | source/CommandLineParser.cpp:259-296 | one character of the split: a quote toggles quoting; an unquoted, unescaped backslash starts an escape; inside quotes or after a backslash a space or backslash is appended literally and ends the escape; an unquoted, unescaped space closes the component unless the previous character was such a space; any other character is appended and clears the escape and last-space flags |
| CommandLine.SplitCommandLine | source/CommandLineParser.cpp:248-303 | the split always succeeds and no component holds a quote |
| CommandLine.NoQuoteAfterRun | source/CommandLineParser.cpp:260-262 | quotes only toggle the quoting state, so none reaches a component |
| CommandLine.RunAppend | source/CommandLineParser.cpp:258-297 | splitting a concatenation is splitting the second part from the state the first part leaves |
| CommandLine.LeadingSpaceGivesEmptyComponent | source/CommandLineParser.cpp:276-281 | a command line that starts with a space yields an empty first component |
| CommandLine.ComponentsOnlyGrow | source/CommandLineParser.cpp:276-279 | components once closed are never changed or removed |
| CommandLine.RunEscaped | source/CommandLineParser.cpp:263-295 | an escaped, quote-free argument is appended verbatim to the current component |
| CommandLine.SplitEscapedPath | source/CommandLineParser.cpp:248-303 | an escaped, non-empty, quote-free path splits back into exactly that path |
| CommandLine.SplitCommandLineFixed | source/CommandLineParser.cpp:248-303 | the corrected split also always succeeds and yields no quotes |
| CommandLine.RunArgument | source/CommandLineParser.cpp:263-284 | with the corrected split, an escaped argument followed by a space closes a component equal to the argument |
| CommandLine.RunJoined | source/CommandLineParser.cpp:258-297 | with the corrected split, escaped arguments joined by spaces yield all but the last as components and leave the last as the current component |
| CommandLine.SplitFixedInvertsJoin | source/CommandLineParser.cpp:246-247 | the corrected split gives back exactly the arguments that were escaped and joined by spaces |
| CommandLine.SplitMergesEscapedComponent | source/CommandLineParser.cpp:263-284 | the escaped arguments "a", "\\", "b" joined by spaces split as written into "a" and "\\b", because a backslash does not clear the last-space flag |
| CommandLine.SplitFixedKeepsEscapedComponent | source/CommandLineParser.cpp:263-284 | the corrected split gives "a", "\\", "b" for the same line |
| Localization.FirstNonBlank | source/LocalizationHelper.cpp:33 | the first character that is neither space nor tab, or none exactly when the string is all blanks |
| Localization.LastNonBlank | source/LocalizationHelper.cpp:38 | the last character that is neither space nor tab, or none exactly when the string is all blanks |
| Localization.TrimAsWritten | source/LocalizationHelper.cpp:27-41 | the result is a slice of the input after leading blanks only; an all-blank string trims to ""; without leading blanks the result is the properly trimmed string |
| Localization.Trim | source/LocalizationHelper.cpp:27-41 | the trimmed string is a slice of the input with only blanks cut from both ends, and it neither starts nor ends with a blank |
| Localization.TrimAsWrittenKeepsTrailingBlanks | source/LocalizationHelper.cpp:40 | "  a  " trims to "a  " as written, because `substr` is given the end index as a length |
| Localization.TrimIdempotent | source/LocalizationHelper.cpp:27-41 | trimming twice is trimming once |
| Localization.Replace | source/LocalizationHelper.cpp:43-51 | the in-place loop computes the left-to-right replacement of every occurrence |
| Localization.ReplaceDoesNotRescan | source/LocalizationHelper.cpp:49 | replacing "\\\\" by "\\" in four backslashes gives two; inserted text is never searched again |
| Localization.ReplaceSelfIsIdentity | source/LocalizationHelper.cpp:43-51 | replacing a string by itself changes nothing |
| Localization.ReplaceFirst | source/LocalizationHelper.cpp:70 | the replacement takes the place of the target at its earliest occurrence and nowhere else; without an occurrence the text is unchanged |
| Localization.Placeholder | source/LocalizationHelper.cpp:68-69 | a placeholder is a backslash followed by one or more decimal digits |
| Localization.Shift | source/LocalizationHelper.cpp:66-72 | each `<<` advances the placeholder index by one |
| Localization.ShiftFillsFirstPlaceholder | source/LocalizationHelper.cpp:66-72 | `<<` puts its argument in place of the first occurrence of the placeholder for the current index, and leaves the text alone when there is none |
| Localization.ShiftFillsPlaceholdersInOrder | source/LocalizationHelper.cpp:66-72 | "x\\0y\\1" shifted by "A" and then "B" reads "xAyB" |
| Localization.ParseLine | source/LocalizationHelper.cpp:166-181 | the corrected line parse: a line without '=' is ignored; otherwise it splits at the first '=' into a properly trimmed key and a properly trimmed, unescaped value |
| Localization.ParseLineAsWritten | source/LocalizationHelper.cpp:166-181 | the line parse as written: a line without '=' is ignored; otherwise it splits at the first '=' and passes both halves through the `trim` as written |
| Localization.ParseLineAsWrittenKeepsBlanks | source/LocalizationHelper.cpp:174-175 | the line " k =v" sets the key "k " as written, where the corrected parse sets "k" |
| Localization.TrimExamples | source/LocalizationHelper.cpp:27-41 | " k " trims to "k " as written and to "k" corrected, and "v" is left alone by both |
| Localization.UnescapePlain | source/LocalizationHelper.cpp:177-179 | a value without backslashes is not changed by the unescaping |
| Localization.LoadWith | source/LocalizationHelper.cpp:162-183 | the map built from the file (`LoadAsWritten` with the line parse as written, `Load` with the corrected one) has exactly the keys that some line sets |
| Localization.LoadLastSetterWins | source/LocalizationHelper.cpp:181 | the line that sets a key last, whichever it is, decides the key's value |
| Localization.LoadIgnoresLineWithoutEquals | source/LocalizationHelper.cpp:170 | a line without '=' leaves the map unchanged, for both line parses |
| Localization.LookupString | source/LocalizationHelper.cpp:194-203 | an unknown key gives "", a known key its value |
| Localization.LookupStringMeaning | source/LocalizationHelper.cpp:194-203 | looked up in the loaded file, a key no line sets gives "", and any other key gives the value of the last line that sets it |
| UrlText.UrlTypeOfMeaning | source/URLTextView.cpp:295-346 | a word is an HTTP, FILE or MAIL URL exactly when it strictly extends "http://", "file://" or "mailto:" respectively and every character is alphanumeric or one of `/_-.%@?=:` |
| UrlText.Emit | source/URLTextView.cpp:238-252 | a non-empty word yields at most one URL, with its range and its type, and one exactly when it has a type |
| UrlText.EmitWellFormed | source/URLTextView.cpp:238-252 | a URL emitted for a word without boundary characters is genuine |
| UrlText.ScanFromWellFormed | source/URLTextView.cpp:224-258 | every URL the scan records lies in the text, contains no boundary character and has the type of its text |
| UrlText.ScanFromOrdered | source/URLTextView.cpp:224-258 | the recorded URLs are in order, and each ends before the next starts |
| UrlText.FindUrlsAsWritten | source/URLTextView.cpp:221-258 | the scan as written records only genuine URLs, in order |
| UrlText.FindUrls | source/URLTextView.cpp:221-258 | the corrected scan records only genuine URLs, in order |
| UrlText.FindUrlsFindsEveryUrlWord | source/URLTextView.cpp:225-256 | every whole word between boundaries (space, tab, CR, LF, parentheses) that is a URL is recorded by the corrected scan with its range and type |
| UrlText.FindUrlsAsWrittenDropsLastChar | source/URLTextView.cpp:235-239 | as written, a URL that ends the text loses its last character ("http://ab" is recorded as "http://a"), and "http://a" is not recognised at all |
| UrlText.AsWrittenSingleWord | source/URLTextView.cpp:235-239 | as written, a text that is one word is judged without its last character |
| UrlText.UrlRuns | source/URLTextView.cpp:245-248 | each URL contributes a URL run at its start and a plain run at its end |
| UrlText.UrlRunsAlternate | source/URLTextView.cpp:245-248 | the runs alternate between URL style and plain style |
| UrlText.UrlRunsIncrease | source/URLTextView.cpp:224-258 | for genuine URLs in order, run offsets strictly increase |
| UrlText.InsertText | source/URLTextView.cpp:191-267 | as written: the recorded URL ranges are the as-written scan's ranges shifted by the insertion offset, each a genuine URL of the inserted text; the runs are the first run followed, for each URL in order, by the URL style at its start and the plain style at its end; without caller runs the first run is plain at offset 0, and a caller run not at offset 0 is dropped |
| UrlText.InsertTextFixed | source/URLTextView.cpp:191-267 | the corrected insertion: the same ranges and runs, over the corrected scan |
| UrlText.InsertTextFixedRecordsEveryUrlWord | source/URLTextView.cpp:191-267 | every whole word of the inserted text that is a URL is recorded, shifted by the insertion offset |
| UrlText.InsertTextDropsLastChar | source/URLTextView.cpp:235-239 | inserting "http://ab" at 10 records [10, 18) as written, one character short of the corrected [10, 19) |
| Mru.MoveToFront | source/MRUSelectFileView.cpp:311-313 | the chosen entry comes first and the others keep their relative order |
| Mru.AddToMruList | source/MRUSelectFileView.cpp:303-331 | the path ends up at the head; an existing path is moved there and the other entries keep their order; a new path is pushed in front, dropping the last entry when the list already has 7 |
| Mru.AddToMruListBounded | source/MRUSelectFileView.cpp:325-329 | the list never holds more than 7 entries and grows by one exactly when the path is new and there is room |
| Mru.AddToMruListNoDuplicates | source/MRUSelectFileView.cpp:303-331 | a list without duplicates keeps none |
| Mru.AddToMruListIdempotent | source/MRUSelectFileView.cpp:303-331 | adding the same path twice is adding it once |
| Mru.AddToMruListKeepsEntries | source/MRUSelectFileView.cpp:303-331 | an old entry survives unless it was the last of a full list and the path is new |
| Mru.MruEntrySelected | source/MRUSelectFileView.cpp:347-364 | a negative index adds the path; an index in the list moves that entry to the head, the other entries keeping their order |
| Mru.FileSelected | source/MRUSelectFileView.cpp:333-345 | a file chosen in the panel enters the list escaped, at the head |
| Color.SatAdd | source/Color.cpp:159-161 | the result is at least either operand, equals the sum when that fits a channel, and is 255 when it does not |
| Color.SatSub | source/Color.cpp:170-172 | the result is at most the left operand, equals the difference when that is not negative, and is 0 when it is |
| Color.Add | source/Color.cpp:145-166 | red, green and blue are each the exact sum where it fits and 255 otherwise, never below either operand's channel; alpha is opaque |
| Color.Sub | source/Color.cpp:151-177 | red, green and blue are each the exact difference where it is not negative and 0 otherwise, never above the left operand's channel; alpha is opaque |
| Color.SatAddIsLeastCover | source/Color.cpp:159-161 | the capped sum is the smallest channel value that covers the true sum or is full |
| Color.SatSubUndoesSatAdd | source/Color.cpp:157-177 | subtracting what was added to a channel restores it exactly when the sum did not saturate |
| Color.AddCommutes | source/Color.cpp:157-166 | adding colours commutes |
| Color.SubUndoesAdd | source/Color.cpp:157-177 | subtracting what was added without saturating restores an opaque colour |
| Color.BlackLaws | source/Color.cpp:59-63 | a colour minus itself is the default black, and adding black to an opaque colour keeps it |
| Color.AddSaturated | source/Color.cpp:159 | a saturated channel stays saturated |
| PerformanceView.IndexOfColor | source/PerformanceView.cpp:394-407 | the menu index (from 3 on) of the first item showing the colour, or -1 exactly when none does |
| PerformanceView.ProbeIndex | source/PerformanceView.cpp:316-320 | every probed index falls on a colour item, cycling from the one after the current selection |
| PerformanceView.Probe | source/PerformanceView.cpp:316-345 | a colour found is a menu colour not in use; none found means every probed colour is in use |
| PerformanceView.StartOffset | source/PerformanceView.cpp:302-310 | the probe starts after the selected colour, or at the first colour item when the selection is not in the menu |
| PerformanceView.Fallback | source/PerformanceView.cpp:347-360 | when every probed colour is in use, a menu colour is still taken: the first one when the selection is not in the menu |
| PerformanceView.SelectedColorAsWritten | source/PerformanceView.cpp:299-364 | only the selected colour changes; in manual mode nothing changes; in automatic mode the selected colour becomes a menu colour, which the next call starts from |
| PerformanceView.SelectedColor | source/PerformanceView.cpp:299-364 | the corrected choice: only the selected colour changes; in manual mode nothing changes; in automatic mode it becomes a menu colour |
| PerformanceView.ProbesCoverColors | source/PerformanceView.cpp:316-320 | the corrected probe visits every colour item other than the selected one |
| PerformanceView.SelectedColorPrefersUnused | source/PerformanceView.cpp:337-341 | in automatic mode, whenever some other menu colour is free, the corrected choice is a free colour |
| PerformanceView.SelectedColorStartsAfterSelected | source/PerformanceView.cpp:302-320 | when the colour item after the selected one is free, both versions select it, so repeated calls walk the menu |
| PerformanceView.SelectedColorAsWrittenMissesLastColor | source/PerformanceView.cpp:307-316 | with colours [red, blue], red in use and no selection, the code as written returns red although blue is free |
| PerformanceView.AddToUserdefinedColors | source/PerformanceView.cpp:440-451 | the colour is pushed in front and the list is cut back to 5 |
| PerformanceView.UserdefinedColorsBounded | source/PerformanceView.cpp:57 | the user colour list grows by one up to 5 entries and never beyond |
| PerformanceView.SelectColor | source/PerformanceView.cpp:475-502 | manual mode with the colour selected; a listed colour is marked; an absent colour is appended and remembered only when asked to, and otherwise neither list changes |
| PerformanceView.SelectAutomatic | source/PerformanceView.cpp:504-512 | automatic mode, with the "Automatic" item marked and the colours, the user's colours and the stored selection unchanged |
| PerformanceView.SelectColorThenSelected | source/PerformanceView.cpp:475-502 | after choosing a colour, the view reports that colour, and an added colour is the marked item |
| GraphView.NewDataInfo | source/GraphView.cpp:1338-1399 | a new counter has a zeroed history of the requested length and a maximum of 0 |
| GraphView.ProcessSample | source/GraphView.cpp:1681-1689 | a relative sample is divided by the pulse rate, a percentage is scaled and clamped to [0, 100], any other sample is kept |
| GraphView.Update | source/GraphView.cpp:1677-1710 | the ring buffer keeps its length and a valid insert point; a delivered sample becomes `Value(0)` and raises the maximum to the larger of it and the old one; without a provider or sample `Value(0)` is 0 and the maximum is unchanged; colour, scale and provider are untouched |
| GraphView.UpdateShiftsHistory | source/GraphView.cpp:1664-1708 | after an update, delivered or not, every older sample moves one place back, and a delivered sample is the new `Value(0)` |
| GraphView.RingSlot | source/GraphView.cpp:1667 | a history index is read from the slot after the insert point, modulo the buffer length, and never from the insert point itself |
| GraphView.AddDataProvider | source/GraphView.cpp:464-501 | no provider gives -1 and the graph unchanged; a provider already shown keeps its entry (history, maximum, insert point) with only colour and scale replaced; a new one is appended as a fresh zeroed entry; nothing but the entry list changes |
| GraphView.AddDataProviderTwice | source/GraphView.cpp:473-488 | adding the same provider twice returns the same index and does not grow the list |
| GraphView.DoubleUntil | source/GraphView.cpp:630-632 | the axis maximum is doubled until it covers the current value, and no further |
| GraphView.HalveWhile | source/GraphView.cpp:635-641 | halving stops at 1 or once the maximum is at most ten times the current value |
| GraphView.AutoScale | source/GraphView.cpp:630-644 | the maximum stays at least 1; it grows to cover a larger value and shrinks exactly when the value is under a tenth of it; otherwise it is kept and nothing is redrawn |
| GraphView.AutoScaleFits | source/GraphView.cpp:630-641 | after auto-scaling, the current value fits and the maximum is within a factor of 20 of it (or 1, or unchanged) |
| GraphView.HalveWhileBound | source/GraphView.cpp:635-641 | halving never goes below the current value |
| GraphView.HalveWhileStops | source/GraphView.cpp:636 | if halving leaves the maximum unchanged, the current value was at least a tenth of it |
| GraphView.NextGridOffset | source/GraphView.cpp:650-654 | the grid offset steps by one and wraps to 0, staying in [0, gridSpace) |
| GraphView.CurrentMax | source/GraphView.cpp:619-628 | the current maximum bounds every counter's scaled maximum, is not negative, and is either 0 or the scaled maximum of some counter |
| GraphView.Pulse | source/GraphView.cpp:617-655 | every counter takes its sample, the axis is auto-scaled from the largest new scaled maximum, the grid moves on, and nothing else in the view changes |
| GraphView.SetPositiveProperty | source/GraphView.cpp:1206-1229 | a point distance or grid space of 0 or less is refused with B_BAD_VALUE and the old value kept |
| GraphView.SetMaxValueProperty | source/GraphView.cpp:1237-1254 | a maximum that rounds to 0 is refused with B_BAD_VALUE and the old value kept; otherwise it is the rounded value |
| GraphView.SetMaxValuePropertyFixed | source/GraphView.cpp:1237-1254 | the corrected setter: a maximum that rounds below 1 is refused with B_BAD_VALUE and the old value kept; an accepted maximum is at least 1 and within 0.5 of the value given |
| GraphView.SetPositivePropertyRoundTrip | source/GraphView.cpp:1128-1133 | writing back the value a get of `PointDistance` or `GridSpace` returned is accepted and changes nothing, and writing the same data twice is writing it once |
| GraphView.SetMaxValuePropertyRoundTrip | source/GraphView.cpp:1137-1140 | writing back the maximum a get returned is accepted and changes nothing, in both versions |
| GraphView.SetMaxValuePropertyAgrees | source/GraphView.cpp:1237-1254 | for values of 0.5 and more the two setters behave the same |
| GraphView.SetMaxValueAcceptsNegative | source/GraphView.cpp:1243-1245 | as written, -1.6 is rounded to -1 and accepted as the maximum |
| GraphView.DoublingStaysNegative | source/GraphView.cpp:631-632 | doubling a negative maximum any number of times leaves it negative |
| GraphView.PulseDoublingNeverEnds | source/GraphView.cpp:630-632 | with a negative maximum, after any number of doublings the current value still exceeds the maximum, so the loop goes on |
| GraphView.SetMaxValuePropertyFixedKeepsValid | source/GraphView.cpp:1237-1254 | the corrected setter keeps the maximum at least 1, which `Pulse` relies on |
| GraphView.GetNextDataInfoIndex | source/GraphView.cpp:769-831 | an index or reverse index yields once, a range yields index+c, a reverse range (count-index-1)-c, and any other specifier fails with B_BAD_VALUE |
| GraphView.VisitDataInfos | source/GraphView.cpp:1097-1125 | the iteration visits exactly the addressed counters in order and stops with B_BAD_INDEX at the first index that names none; otherwise it ends with the iterator's status: B_BAD_VALUE visiting nothing for an unknown specifier, B_NAME_NOT_FOUND visiting nothing for a range without "index" or "range", and B_NAME_NOT_FOUND after visiting the uninitialised index for an index specifier without "index" |
| Process.Clamp | source/Process.cpp:86-87 | a timesharing priority is forced into [0, 99] |
| Process.GetBasePriority | source/Process.cpp:38-58 | a team without threads gives 0 and B_BAD_VALUE; otherwise the truncated mean of its thread priorities |
| Process.Rebase | source/Process.cpp:80-88 | a real-time priority is kept; any other moves by the change of base, clamped to [0, 99] |
| Process.SetBasePriority | source/Process.cpp:71-94 | fails as the base lookup fails, and otherwise rebases every thread |
| Process.SetBasePriorityRanges | source/Process.cpp:80-88 | real-time threads are untouched and every other thread ends in [0, 99] |
| Process.SetBasePriorityKeepsOrder | source/Process.cpp:61-70 | the relative order of the timesharing threads is kept |
| Process.SetThenGetBasePriority | source/Process.cpp:38-94 | when no clamping happens, setting the base and reading it back gives the new base |
| TeamModel.FindEntry | source/TeamModel.cpp:550-551 | the first entry with the team id, or none exactly when no entry has it |
| TeamModel.AddTeam | source/TeamModel.cpp:499-524 | a team whose info is valid is appended and announced at index count-1; an invalid one changes nothing |
| TeamModel.RemoveEntryAt | source/TeamModel.cpp:526-546 | the entry is removed, the rest keep their order, and the removal is announced with its index |
| TeamModel.RemoveTeam | source/TeamModel.cpp:548-556 | only the first entry with the id is removed; without one nothing changes |
| TeamModel.RemoveTeamUndoesAddTeam | source/TeamModel.cpp:499-556 | removing a team just added restores the list |
| TeamModel.AddNewAppendsFresh | source/TeamModel.cpp:613-619 | the add loop appends the snapshot's unconsumed valid teams, in snapshot order |
| TeamModel.ReconcileMeaning | source/TeamModel.cpp:586-610 | the reconcile loop keeps exactly the entries still in the snapshot, in order, and marks their snapshot items consumed |
| TeamModel.UpdateMatchesReference | source/TeamModel.cpp:568-620 | after `Update` the list is the surviving old entries in order, followed by the new valid teams in snapshot order |
| TeamModel.KeptMembers | source/TeamModel.cpp:586-610 | a team survives reconciliation exactly when it was listed and is in the snapshot |
| TeamModel.FreshMembers | source/TeamModel.cpp:613-619 | a team is added exactly when it is a valid, unconsumed snapshot item |
| TeamModel.UpdateMembers | source/TeamModel.cpp:568-620 | after `Update` a team is listed exactly when it is in the snapshot and was either listed before or is valid; nothing absent from the snapshot remains |
| TeamModel.FreshNoConsumed | source/TeamModel.cpp:616 | the consumed marker INT_MAX never becomes an entry |
| TeamModel.ResolveTeam | source/TeamModel.cpp:709-771 | names and ids resolve to the first matching entry or fail with B_BAD_VALUE; an index or reverse index in range resolves, out of range gives B_BAD_INDEX |
| TeamModel.ResolveTeamConsistent | source/TeamModel.cpp:724-771 | a team resolves by its own id, and reverse index i names the same entry as index count-1-i |
| TeamModel.SetPriorityProperty | source/TeamModel.cpp:359-371 | a priority outside [0, 120] gives B_BAD_VALUE; otherwise the team's base priority is set |
| TeamModel.SetPriorityPropertySetsBase | source/TeamModel.cpp:359-371 | a valid priority set by script is read back as the team's base priority when no thread is clamped |
| ProcessView.PriorityItem | source/ProcessView.cpp:520-535 | 0-5, 6-10, 11-15, 16-99 and 100-120 mark items 0 to 4 in order; other values mark none |
| ProcessView.PriorityMenuFor | source/ProcessView.cpp:513-544 | a failed lookup or a real-time base priority disables the menu; otherwise the bucket's item is marked |
| ProcessView.PriorityItemRoundTrip | source/ProcessView.cpp:489-535 | each menu priority marks its own item, and the buckets are monotone |
| ProcessView.StrCaseCmpLaws | source/ProcessView.cpp:586 | the case-insensitive comparison is antisymmetric in sign and zero exactly for strings equal up to case |
| ProcessView.Compare | source/ProcessView.cpp:570-620 | team ids compare by sign of their difference; a missing text sorts after a present one; unknown columns compare equal |
| ProcessView.CompareAntisymmetric | source/ProcessView.cpp:570-620 | swapping the items negates the comparison on every column where both texts exist |
| ProcessView.CompareTwoNullTexts | source/ProcessView.cpp:580-581 | two items without names each sort after the other |
| ProcessView.Shown | source/ProcessView.cpp:908-913 | the rows are exactly the entries that are not hidden system teams, in model order |
| ProcessView.ShownConcat | source/ProcessView.cpp:908-913 | the rows for two runs of entries are the rows of the first run followed by those of the second, so the model order is kept |
| ProcessView.ShownSingle | source/ProcessView.cpp:910-911 | one entry is listed exactly when it is not a hidden system team |
| ProcessView.SetHideSystemTeams | source/ProcessView.cpp:895-917 | an unchanged setting is a no-op; a changed one relists exactly the visible entries |
| ProcessView.HideThenShowListsAll | source/ProcessView.cpp:895-917 | hiding lists no system team, and showing again lists every entry |
| ProcessView.AlertClosed | source/ProcessView.cpp:1197-1232 | a missing field does nothing, the team acted on is the one in the message, and an unknown button on the kill alert is flagged |
| ProcessView.AlertClosedKillsOnlyOnKill | source/ProcessView.cpp:1211-1229 | a kill happens exactly on "Kill" (button 0 of the kill alert, button 1 of the quit alert), and a quit exactly on "Retry" |
| ColumnListView.SetText | source/ColumnListViewEx.cpp:110-120 | the painter holds the new text and must truncate it again |
| ColumnListView.FirstTextColumn | source/ColumnListViewEx.cpp:350-355 | the first column of the first row that has text, or none when no column does |
| ColumnListView.FirstMatch | source/ColumnListViewEx.cpp:369-383 | the first probed row whose text starts with the typed character, ignoring case |
| ColumnListView.StartRow | source/ColumnListViewEx.cpp:365-367 | the search starts after the selection, or at 0 without one |
| ColumnListView.TypeAhead | source/ColumnListViewEx.cpp:333-388 | a non-alphanumeric key is passed on; a selected row is the first row, probing cyclically from the one after the selection, whose first text column starts with the typed character |
| ColumnListView.KeyDownAsWritten | source/ColumnListViewEx.cpp:333-388 | as written, a non-alphanumeric key is passed on; the selected row is the first match among count-1 cyclic probes, and when nothing is selected none of those probes matched, so without a selection the last row is never selected |
| ColumnListView.KeyDown | source/ColumnListViewEx.cpp:333-388 | the corrected search passes on non-alphanumeric keys; the selected row is the first match in cyclic order after the current one, and nothing is selected only when no other row matches |
| ColumnListView.TypeAheadSkipsSelection | source/ColumnListViewEx.cpp:369-370 | the current row is never selected again |
| ColumnListView.KeyDownComplete | source/ColumnListViewEx.cpp:362-384 | whenever some other row matches, the corrected search selects a row |
| ColumnListView.KeyDownAsWrittenMissesLastRow | source/ColumnListViewEx.cpp:365-369 | with rows "x", "y", no selection and key 'y', the code as written selects nothing |
| ColumnListView.GetColumnIndex | source/ColumnListViewEx.cpp:476-514 | an index is taken as given, a reverse index maps to count-index-1, a name gives the first column with that label or B_BAD_INDEX, a missing name gives the lookup error, and anything else gives B_BAD_VALUE |
| ColumnListView.TypeAheadCoversOtherRows | source/ColumnListViewEx.cpp:365-383 | starting after a selection, the probes reach every other row, so a search that selects nothing saw no other matching row |
| ColumnListView.GetColumnIndexConsistent | source/ColumnListViewEx.cpp:476-514 | reverse index i and index count-1-i agree, and a label names its first column |
| ColumnListView.SortModeOf | source/ColumnListViewEx.cpp:602-605 | 0 means ascending, 1 descending and 2 no sort, each the only number for its mode |
| ColumnListView.SetSortModeProperty | source/ColumnListViewEx.cpp:596-623 | a mode outside 0..2 gives B_BAD_VALUE, a missing column B_BAD_INDEX; otherwise the mode is set, with a sort key unless it is "no sort" |
| ColumnListView.SortModeNumber | source/ColumnListViewEx.cpp:703-712 | the number a get replies with is in 0..2 and stands for the column's mode |
| ColumnListView.SortModeNumberOf | source/ColumnListViewEx.cpp:602-605 | each of the numbers 0..2 names a different mode |
| ColumnListView.SetSortModePropertyRoundTrip | source/ColumnListViewEx.cpp:596-623 | writing back the number a get replied with stores the mode the column had, and a get after a successful set replies with the number written |
| ClvColumn.NewColumn | source/ColumnListView/CLVColumn.cpp:34-75 | a new column is at least 4 wide and no narrower than its minimum, and it is unsorted; an expander is 20 wide, has no label and keeps only its position and visibility flags |
| ClvColumn.SetWidth | source/ColumnListView/CLVColumn.cpp:99-105 | the width is raised to the minimum and nothing else changes |
| ClvColumn.SetShown | source/ColumnListView/CLVColumn.cpp:292-302 | the column is shown as asked, and only the hidden flag changes |
| ClvColumn.SetSortMode | source/ColumnListView/CLVColumn.cpp:333-342 | without a parent view the mode is stored and nothing else changes |
| ClvColumn.SortingChanged | source/ColumnListView/CLVColumn.cpp:344-358 | the label is re-truncated exactly when the arrow is shown and the mode crosses between sorted and unsorted |
| ClvColumn.OperationsKeepValid | source/ColumnListView/CLVColumn.cpp:44-47 | every column operation keeps the width limits |
| ClvColumn.SetShownRoundTrip | source/ColumnListView/CLVColumn.cpp:283-302 | hiding and showing again restores the column |
| ClvColumn.SetWidthIdempotent | source/ColumnListView/CLVColumn.cpp:99-105 | setting the current width changes nothing, and setting a width twice is setting it once |
| Blur.PixelFunc | source/Blur.cpp:275-308 | a pixel writer exists exactly for the formats `SupportedOutputColorSpace` accepts |
| Blur.PackRgb32 | source/Blur.cpp:446-449 | red, green and blue fill the low three bytes and alpha is opaque |
| Blur.PackRgb15 | source/Blur.cpp:451-458 | the top five bits of each channel, with the high bit set |
| Blur.PackRgb16 | source/Blur.cpp:460-467 | the top five, six and five bits of red, green and blue |
| Blur.BigEndianIsByteSwapped | source/Blur.cpp:469-494 | each big-endian writer stores its little-endian pixel with the bytes swapped |
| Blur.KernelFor | source/Blur.cpp:93-129 | a kernel exists exactly for the formats `SupportedInputColorSpace` accepts, and one-bit grey gets its own |
| Blur.BlurArea | source/Blur.cpp:64-78 | the first area column's kernel window starts at column 0 and the last one's ends at the bitmap's last column, and likewise for rows |
| Blur.BlurWindowsInBounds | source/Blur.cpp:333-347 | every kernel window `[x - mx/2, x - mx/2 + mx)` of an area pixel lies inside the bitmap, in both directions |
| Blur.BlurAreaLastColumn | source/Blur.cpp:64-78 | the last blurred column is `width - mx/2` for an odd matrix width and one further for an even one, so the comment's rectangle is exceeded by one column (row) for an even size |
| Blur.BlurBitmap | source/Blur.cpp:69-130 | a non-positive matrix or an unsupported format gives B_BAD_VALUE; otherwise the source's kernel runs with the destination's writer |
| Blur.ClipRects | source/Blur.cpp:224-270 | at most one valid rectangle per input, each inside both the blur area and some visible rectangle |
| Blur.ClipRectsComplete | source/Blur.cpp:243-259 | every visible pixel inside the blur area is covered by some output rectangle |
| Blur.RectArea | source/Blur.cpp:179-184 | a clipping rectangle becomes the kernel area of the same size, relative to the destination |
| Blur.BlurDirectAsWritten | source/Blur.cpp:137-213 | as written: one call per visible rectangle, or B_BAD_VALUE for bad arguments |
| Blur.BlurDirect | source/Blur.cpp:137-213 | the corrected dispatch: one call per visible rectangle with the source's own kernel |
| Blur.BlurDirectAsWrittenMisreadsGray1 | source/Blur.cpp:171-186 | as written, a one-bit grey source is blurred by the 32-bit kernel, unlike the whole-bitmap blur |
| Blur.SumBounds | source/Blur.cpp:346-353 | the sum of n channel values lies between 0 and 255·n |
| Blur.BlurChannelAsWritten | source/Blur.cpp:329-367 | the divisor is the matrix size modulo 256; a size that is a multiple of 256 divides by zero, and the result is capped at 255 |
| Blur.BlurChannel | source/Blur.cpp:329-367 | the corrected average of a window of channel values is a channel value |
| Blur.BlurChannelUniform | source/Blur.cpp:358-363 | averaging a uniform window gives its value back |
| Blur.BlurChannelAsWrittenWraps | source/Blur.cpp:329 | a 16×16 matrix divides by zero, and a 17×16 matrix turns a uniform 10 into 170 |
| Blur.GrayLevelAsWritten | source/Blur.cpp:408-435 | the same wrapped divisor for one-bit grey |
| Blur.GrayLevel | source/Blur.cpp:408-435 | the corrected grey level lies in [0, 255], white for a window of clear bits and black for one of set bits |
| Plugin.CounterPath | source/add_ons/common/Plugin.cpp:33-38 | the parent path, a single '/', and the name |
| Plugin.JoinPath | source/add_ons/common/Plugin.cpp:33-38 | every counter path starts with '/' |
| Plugin.JoinPathIsSlashed | source/add_ons/common/Plugin.cpp:33-38 | below the root, a counter's path is its names each preceded by '/' |
| Plugin.NewCounter | source/add_ons/common/Plugin.cpp:25-45 | a new counter has its path built from its parent's, its own name, and no children yet |
| Plugin.Name | source/add_ons/common/Plugin.cpp:74-82 | a counter is shown under its internal name |
| Plugin.InitChildren | source/add_ons/common/Plugin.cpp:84-91 | the first call asks the namespace for the children of the counter's path, and later calls change nothing |
| Plugin.ChildAt | source/add_ons/common/Plugin.cpp:52-62 | children are enumerated before they are counted or indexed, and an index out of range gives null |
| Plugin.InitChildrenOnce | source/add_ons/common/Plugin.cpp:84-91 | the namespace is asked at most once |
| CounterNamespace.Root | source/CounterNamespaceImpl.h:35-38 | the root is named "Root" and has no data provider |
| CounterNamespace.FindObject | source/CounterNamespaceImpl.cpp:157-166 | the first child with the name, or null exactly when no child has it |
| CounterNamespace.Components | source/CounterNamespaceImpl.cpp:129-143 | the path's components contain no '/' |
| CounterNamespace.ComponentsOfJoinPath | source/CounterNamespaceImpl.cpp:129-143 | splitting a counter path gives back the names it was built from |
| CounterNamespace.SampleMemory | source/CounterNamespaceImpl.cpp:129-143 | "/Total/Memory Usage" splits into "Total" and "Memory Usage" |
| CounterNamespace.WalkAppend | source/CounterNamespaceImpl.cpp:145-152 | walking a concatenation of names is walking the second part from where the first part ends |
| CounterNamespace.WalkEndsAtName | source/CounterNamespaceImpl.cpp:148-152 | a successful walk ends at a node named by the last component |
| CounterNamespace.DataProviderAsWritten | source/CounterNamespaceImpl.cpp:123-155 | a missing component gives null; a node found without a provider is dereferenced |
| CounterNamespace.DataProvider | source/CounterNamespaceImpl.cpp:123-155 | the corrected lookup gives the provider of the node the path names, or null when there is none |
| CounterNamespace.DataProviderAgrees | source/CounterNamespaceImpl.cpp:123-155 | wherever the code as written finds a provider, the corrected lookup finds the same one, and it gives null elsewhere |
| CounterNamespace.DataProviderOfCounterPath | source/CounterNamespaceImpl.cpp:123-155 | looking up a counter's path finds that counter's provider |
| CounterNamespace.DataProviderAsWrittenCallsThroughNull | source/CounterNamespaceImpl.cpp:154 | "/Total" and "/" name nodes without a provider, which the code as written dereferences |
| CounterNamespace.EnumChildren | source/CounterNamespaceImpl.cpp:110-121 | succeeds exactly when every plug-in succeeds, with all their children; otherwise returns the first failing plug-in's error, with the children added up to it |
| CounterNamespace.EnumChildrenConcat | source/CounterNamespaceImpl.cpp:110-121 | asking two groups of plug-ins in turn: when the first group all succeed, the second is asked and its children follow; otherwise the second group is never asked |
| Singleton.Position | source/Singleton.cpp:38-42 | the first registered instance with the class name, or none exactly when there is none |
| Singleton.AddToList | source/Singleton.cpp:31-34 | the instance is registered last |
| Singleton.Find | source/Singleton.cpp:47-56 | the first instance with the class name, or null exactly when there is none |
| Singleton.RemoveFromList | source/Singleton.cpp:36-45 | the first instance with the class name is removed and returned; without one the registry is unchanged |
| Singleton.CreateSingleton | source/add_ons/common/Singleton.h:77-93 | an instance of the right class is reactivated; otherwise a new one is registered |
| Singleton.CreateSingletonTwice | source/add_ons/common/Singleton.h:77-93 | a second creation returns the first instance and leaves the registry as it was |
| Singleton.RemoveUndoesCreate | source/Singleton.cpp:36-45 | removing a freshly created singleton restores the registry |
| TaskManager.NamesOptionMeans | source/TaskManager.cpp:362-365 | an argument names an option exactly when it is "--" followed by the option |
| TaskManager.IncludesOption | source/TaskManager.cpp:359-372 | true exactly when some argument after the program name is "--" followed by the option |
| TaskManager.ArgvReceived | source/TaskManager.cpp:67-139 | "--help" overrides every other option and quits only during launch; each deskbar option posts its message; the quit request is posted exactly when a deskbar option is given during launch, and last; messages are posted show, hide, tweak, quit, each at most once; "--install" replaces the main window |
| TaskManager.Posted | source/TaskManager.cpp:91-137 | each option's message is posted exactly when the option is set, the quit request exactly during launch with some option, last, and all in the fixed order |
| TaskManager.PostInOrder | source/TaskManager.cpp:91-137 | posting a message ranked after all earlier ones keeps the posting order |
| TaskManager.HelpOverridesAll | source/TaskManager.cpp:71-87 | with "--help" given, the other arguments make no difference |
| TaskManager.DeskbarOptionQuitsOnlyWhileLaunching | source/TaskManager.cpp:91-137 | any of the three deskbar options posts its message, and the application quits, after the last message, exactly when it is launching |
| TaskManager.ProgramNameIgnored | source/TaskManager.cpp:361 | the program name is never read as an option |
| Common.FindFrom | source/LocalizationHelper.cpp:47 | the first occurrence of the pattern at the given index or later, and none exactly when there is no such occurrence |

## Left out

- Input and output are not modelled: files, the settings store, the language file on disk, bitmaps in memory, and the screen. The model takes their contents as parameters (a list of lines, a team snapshot, a thread priority list, the children a plug-in reports).
- The OS queries `get_next_team_info`, `get_next_thread_info`, `IsSystemTeam` and `InitCheck` become parameters or fields.
- `set_thread_priority` failing part way through `SetBasePriority` is not modelled.
- Messaging (BMessage, notices, listeners, `send_script_reply`) is reduced to returned status values and notice lists.
- Integer widths: int32 overflow is not modelled (team ids, priorities, graph maxima, rectangle coordinates). The unsigned wrap of `num_pixel` is modelled, because the code depends on it.
- Blur.SumBounds: the uint32 channel sums in the blur kernels are treated as unbounded, because they cannot overflow for the matrix sizes the callers use.
- Floating point: CLV widths and graph samples are `real`; `CDataInfo`'s running average, font metrics and drawing are left out.
- GraphView.Update: the average kept beside the maximum is not modelled.
- GraphView.VisitDataInfos: the uninitialised `dataInfoIndex` that an index specifier without "index" leaves in place is a parameter, since its value is whatever the stack holds.
- GraphView.Pulse: requires a maximum of at least 1. As written, `MaxValue` accepts a negative maximum, and then the doubling loop never ends (see Findings). A loop that does not end cannot be a Dafny function, so `Pulse` is stated only for a positive maximum.
- GraphView.AutoScale: requires a maximum of at least 1, for the same reason as `Pulse`.
- Stylesheet.StylesheetLink: `writeln` also ends the line with a newline, which the model does not include.
- Singleton.CreateSingleton: the `dynamic_cast` is read as an exact class test. The cast also accepts an instance of a subclass of the requested class, and class hierarchies are not represented.
- `CColor`'s tint constructors call `tint_color`, which is not part of this model.
- `SetSortModeProperty` and `SetSortMode` stop at the stored mode; the parent view's re-sorting and redraw are left out.
- `SetHideSystemTeams` does not model the `SortItems` call after relisting.
- CLVColumn.h is not part of this model, so the column flags are a set of named flags rather than bits.
- Mru.MruEntrySelected: an index past the end of the list makes the code dereference null; the model returns no list for it.
- The language file reader's 1024-byte line limit is not modelled.
- Localization.Replace: with an empty search string the source never leaves its loop, so the model requires a non-empty one; every caller passes a non-empty literal.
- Plug-in loading is not modelled, and neither is the lazy child enumeration inside the namespace tree. `DataProvider` walks a fixed tree, and `InitChildren` is modelled on one counter.
- The help text printed by `--help` and the windows `ArgvReceived` opens are left out; only the posted messages and the main-window flag are kept.
- The kernels' per-pixel loops over bitmap memory are left out; one output pixel is modelled from its window of channel values.
- The colour menu's items, names and hex labels are left out; the menu is its list of colours and the marked index.
- `CTextRun` fonts and colours are reduced to a flag saying whether the run shows a URL.
- TeamModel.Update: it has no contract of its own; UpdateMatchesReference and UpdateMembers state its meaning, under distinct ids and no team id equal to INT_MAX.

## Findings

| source | as written | input that shows it | evidently intended | confidence | as-written member | corrected member |
|---|---|---|---|---|---|---|
| doc/common/stylesheet.js:12-19 | after a partial match fails, the current character is not compared with the pattern's start again | `search("aab", "ab")` gives -1; the user agent "OOpera BeOS" gets "netscape.css" | the first occurrence, as the comment above the function says | high, not executed | Stylesheet.SearchMissesOverlappingStart | Stylesheet.SearchAgrees |
| doc/common/stylesheet.js:32-33 | the choice uses the `search` above, which misses some occurrences | the Netscape user agent "OOpera BeOS" gets "netscape.css" | "opera.css", since the user agent contains "Opera" and "BeOS" | high, not executed | Stylesheet.SelectStylesheetAsWrittenMissesOpera | Stylesheet.SelectStylesheet |
| source/CommandLineParser.cpp:133-136 | the escape flag is not cleared after an escaped space | `Unescape(Escape("  "))` is " \\" | `Unescape` inverts `Escape` | high, not executed | CommandLine.UnescapeEscapeFailsForTwoSpaces | CommandLine.UnescapeFixedInvertsEscape |
| source/CommandLineParser.cpp:263-284 | appending an escaped or quoted character leaves `last_space` set | "a \\\\ b" (the arguments "a", "\\", "b" escaped and joined) splits into "a" and "\\b" | a space after any appended character closes the component | high, not executed | CommandLine.SplitMergesEscapedComponent | CommandLine.SplitFixedInvertsJoin |
| source/LocalizationHelper.cpp:40 | `substr(i1, i2+1)` passes the end index as a length | `trim("  a  ")` is "a  " | "a" | high, not executed | Localization.TrimAsWrittenKeepsTrailingBlanks | Localization.Trim |
| source/LocalizationHelper.cpp:174-175 | the language file's keys and values go through the `trim` above | the line " k =v" sets the key "k ", so a lookup of "k" finds nothing | the key "k" | high, not executed | Localization.ParseLineAsWrittenKeepsBlanks | Localization.ParseLine |
| source/URLTextView.cpp:235-239 | at the last character the word is taken as `[wordStart, i)` and loses that character | "http://ab" is recorded as "http://a"; "http://a" is not recognised | the word includes the last character | high, not executed | UrlText.FindUrlsAsWrittenDropsLastChar | UrlText.FindUrlsFindsEveryUrlWord |
| source/URLTextView.cpp:191-267 | `InsertText` records the URLs of the scan above | inserting "http://ab" at 10 records [10, 18) | [10, 19) | high, not executed | UrlText.InsertTextDropsLastChar | UrlText.InsertTextFixedRecordsEveryUrlWord |
| source/PerformanceView.cpp:307-316 | with no current colour the offset 2 plus `i` from 1 to colorCount-1 never probes the last colour | colours [red, blue], red in use: red is chosen | an unused colour when there is one | medium, not executed | PerformanceView.SelectedColorAsWrittenMissesLastColor | PerformanceView.SelectedColorPrefersUnused |
| source/ColumnListViewEx.cpp:365-369 | with no selection the loop probes only count-1 rows from row 0 | rows "x", "y", no selection, key 'y': nothing is selected | the last row is reachable | high, not executed | ColumnListView.KeyDownAsWrittenMissesLastRow | ColumnListView.KeyDownComplete |
| source/Blur.cpp:329 | `num_pixel` is a uchar, so the matrix size wraps modulo 256 | a 16×16 matrix divides by zero; 17×16 turns a uniform 10 into 170 | divide by the full matrix size | high, not executed | Blur.BlurChannelAsWrittenWraps | Blur.BlurChannelUniform |
| source/Blur.cpp:171-186 | a one-bit grey source is passed to `BlurRGB32` | any `Blur (2)` call with a B_GRAY1 source | `BlurGray1`, as `Blur (1)` does | high, not executed | Blur.BlurDirectAsWrittenMisreadsGray1 | Blur.BlurDirect |
| source/CounterNamespaceImpl.cpp:154 | a node found without a data provider is dereferenced | `DataProvider("/Total")` or `DataProvider("/")` | null for a node without a provider | high, not executed | CounterNamespace.DataProviderAsWrittenCallsThroughNull | CounterNamespace.DataProviderAgrees |
| source/GraphView.cpp:1243-1245 | only a rounded maximum of 0 is refused, so a negative one is stored; `Pulse` then doubles it while the current value exceeds it (630-632), which never ends in the model's unbounded integers; in int32 the doubled -1 overflows after 31 steps, which is undefined behaviour, and under the usual wrap it becomes 0, after which the loop goes on while some maximum is positive, and otherwise exits with a maximum of 0, the divisor the setter refuses | setting `MaxValue` to -1.6 stores -1, and the next pulse with auto-scaling on does not return | a maximum below 1 refused like 0 | medium, not executed | GraphView.PulseDoublingNeverEnds | GraphView.SetMaxValuePropertyFixedKeepsValid |

=== FILE: blur.dfy ===
/** `CBlur`: a box blur from a source bitmap into a destination buffer in
    one of several pixel formats. Modelled are the argument checks, the
    choice of pixel writer and blur kernel, the clipping of the destination
    region, the averaging of one output pixel and the packing of a pixel
    into each destination format. Walking the bitmaps' memory is left out. */
module Blur {
  import opened Common

  // ---- colour spaces ----

  datatype ColorSpace =
    | Gray1
    | Rgb32 | Rgba32 | Rgb15 | Rgba15 | Rgb16
    | Rgb32Big | Rgba32Big | Rgb15Big | Rgba15Big | Rgb16Big
    | OtherSpace(code: int)

  /** `SupportedInputColorSpace`: a source is one bit grey or 32-bit RGB. */
  predicate SupportedInput(cs: ColorSpace) {
    cs == Gray1 || cs == Rgb32
  }

  /** `SupportedOutputColorSpace`: the 15, 16 and 32 bit RGB formats, in
      either byte order. */
  predicate SupportedOutput(cs: ColorSpace) {
    !cs.Gray1? && !cs.OtherSpace?
  }

  /** The six pixel writers `SetPixelRGB32` … `SetPixelRGB16_Big`. */
  datatype PixelWriter = Write32 | Write15 | Write16 | Write32Big | Write15Big | Write16Big

  /** `PixelFunc`: the writer for a destination format; an alpha format is
      written like the format without alpha. */
  function PixelFunc(cs: ColorSpace): (r: Option<PixelWriter>)
    ensures r.Some? <==> SupportedOutput(cs)
  {
    match cs
    case Rgb32 | Rgba32 => Some(Write32)
    case Rgb15 | Rgba15 => Some(Write15)
    case Rgb16 => Some(Write16)
    case Rgb32Big | Rgba32Big => Some(Write32Big)
    case Rgb15Big | Rgba15Big => Some(Write15Big)
    case Rgb16Big => Some(Write16Big)
    case _ => None
  }

  // ---- packing a pixel ----

  /** `SetPixelRGB32`: opaque alpha, then blue, green and red from the high byte down. */
  function PackRgb32(r: bv8, g: bv8, b: bv8): (p: bv32)
    ensures p & 0xFF == r as bv32
    ensures (p >> 8) & 0xFF == g as bv32
    ensures (p >> 16) & 0xFF == b as bv32
    ensures p >> 24 == 0xFF
  {
    0xFF00_0000 | (b as bv32 << 16) | (g as bv32 << 8) | r as bv32
  }

  /** `SetPixelRGB15`: the top five bits of each channel, with the high bit set. */
  function PackRgb15(r: bv8, g: bv8, b: bv8): (p: bv16)
    ensures p & 0x1F == (r >> 3) as bv16
    ensures (p >> 5) & 0x1F == (g >> 3) as bv16
    ensures (p >> 10) & 0x1F == (b >> 3) as bv16
    ensures p >> 15 == 1
  {
    var r5, g5, b5 := r >> 3, g >> 3, b >> 3;
    0x8000 | (b5 as bv16 << 10) | (g5 as bv16 << 5) | r5 as bv16
  }

  /** `SetPixelRGB16`: the top five bits of red and blue and six of green. */
  function PackRgb16(r: bv8, g: bv8, b: bv8): (p: bv16)
    ensures p & 0x1F == (r >> 3) as bv16
    ensures (p >> 5) & 0x3F == (g >> 2) as bv16
    ensures p >> 11 == (b >> 3) as bv16
  {
    var r5, g6, b5 := r >> 3, g >> 2, b >> 3;
    (b5 as bv16 << 11) | (g6 as bv16 << 5) | r5 as bv16
  }

  function PackRgb32Big(r: bv8, g: bv8, b: bv8): (p: bv32)
    ensures p & 0xFF == 0xFF && p >> 24 == r as bv32
  {
    0x0000_00FF | (r as bv32 << 24) | (g as bv32 << 16) | (b as bv32 << 8)
  }

  function PackRgb15Big(r: bv8, g: bv8, b: bv8): (p: bv16)
    ensures p & 0x80 == 0x80
  {
    var r5, g5, b5 := r >> 3, g >> 3, b >> 3;
    0x0080 | ((g5 & 0x07) as bv16 << 13) | (r5 as bv16 << 8) | (b5 as bv16 << 2) | (g5 >> 3) as bv16
  }

  function PackRgb16Big(r: bv8, g: bv8, b: bv8): (p: bv16)
    ensures (p >> 8) & 0x1F == (r >> 3) as bv16
  {
    var r5, g6, b5 := r >> 3, g >> 2, b >> 3;
    ((g6 & 0x07) as bv16 << 13) | (r5 as bv16 << 8) | (b5 as bv16 << 3) | (g6 >> 3) as bv16
  }

  function ByteSwap16(x: bv16): bv16 {
    (x << 8) | (x >> 8)
  }

  function ByteSwap32(x: bv32): bv32 {
    (x << 24) | ((x & 0xFF00) << 8) | ((x >> 8) & 0xFF00) | (x >> 24)
  }

  /** Each big-endian writer stores the little-endian pixel with its bytes
      swapped. */
  lemma {:induction false} BigEndianIsByteSwapped(r: bv8, g: bv8, b: bv8)
    ensures PackRgb32Big(r, g, b) == ByteSwap32(PackRgb32(r, g, b))
    ensures PackRgb15Big(r, g, b) == ByteSwap16(PackRgb15(r, g, b))
    ensures PackRgb16Big(r, g, b) == ByteSwap16(PackRgb16(r, g, b))
  {
  }

  // ---- argument checks and the kernel chosen ----

  /** The blur kernels: `BlurGray1` reads one bit per pixel, `BlurRGB32` four bytes. */
  datatype Kernel = Gray1Kernel | Rgb32Kernel

  /** The rectangle of destination pixels a kernel call computes:
      `[sx, ex) × [sy, ey)` relative to the destination origin. */
  datatype Area = Area(sx: int, sy: int, ex: int, ey: int)

  /** The blur's verdict: an error, or the kernel called with its writer and area. */
  datatype BlurCall = Rejected(status: Status) | Call(kernel: Kernel, writer: PixelWriter, area: Area)

  /** The kernel for a source format, as `Blur (1)` dispatches it. */
  function KernelFor(source: ColorSpace): (k: Option<Kernel>)
    ensures k.Some? <==> SupportedInput(source)
    ensures k == Some(Gray1Kernel) <==> source == Gray1
  {
    if source == Gray1 then Some(Gray1Kernel)
    else if source == Rgb32 then Some(Rgb32Kernel)
    else None
  }

  /** The area `Blur (1)` blurs: the pixels whose whole `mx × my` kernel
      window lies inside the bitmap. `width` and `height` are those of
      `Bounds()`, one less than the pixel counts, so the last pixel column
      is `width`. A window for column `x` covers `[x - mx/2, x - mx/2 + mx)`:
      the first area column's window starts at column 0 and the last one's
      ends just after column `width`, and likewise for rows. */
  function BlurArea(width: int, height: int, mx: int, my: int): (a: Area)
    requires mx > 0 && my > 0
    ensures WindowStart(a.sx, mx) == 0 && WindowStart(a.sy, my) == 0
    ensures WindowStart(a.ex - 1, mx) + mx == width + 1
    ensures WindowStart(a.ey - 1, my) + my == height + 1
  {
    var sx, sy := mx / 2, my / 2;
    Area(sx, sy, width - sx + (if mx % 2 == 0 then 2 else 1), height - sy + (if my % 2 == 0 then 2 else 1))
  }

  /** The first column (or row) of the kernel window the loops of
      `BlurRGB32` and `BlurGray1` read for column `x`. */
  function WindowStart(x: int, m: int): int { x - m / 2 }

  /** Every kernel window of the blur area lies inside the bitmap. */
  lemma {:induction false} BlurWindowsInBounds(width: int, height: int, mx: int, my: int, x: int, y: int)
    requires mx > 0 && my > 0
    requires var a := BlurArea(width, height, mx, my); a.sx <= x < a.ex && a.sy <= y < a.ey
    ensures 0 <= WindowStart(x, mx) && WindowStart(x, mx) + mx <= width + 1
    ensures 0 <= WindowStart(y, my) && WindowStart(y, my) + my <= height + 1
  {
  }

  /** The last column the blur writes, against the edge `width - mx/2` that
      the comment of `Blur (1)` gives: the same for an odd matrix width, one
      column further for an even one. So `mx/2` columns are left out on the
      right for an odd `mx` and `mx/2 - 1` for an even one; likewise for rows. */
  lemma {:induction false} BlurAreaLastColumn(width: int, height: int, mx: int, my: int)
    requires mx > 0 && my > 0
    ensures var a := BlurArea(width, height, mx, my);
      a.ex - 1 == width - mx / 2 + (if mx % 2 == 0 then 1 else 0)
      && a.ey - 1 == height - my / 2 + (if my % 2 == 0 then 1 else 0)
    ensures var a := BlurArea(width, height, mx, my);
      width - (a.ex - 1) == (if mx % 2 == 0 then mx / 2 - 1 else mx / 2)
  {
  }

  /** `Blur (1)`: a matrix of non-positive size or an unsupported
      destination or source format gives B_BAD_VALUE; otherwise the kernel
      of the source format blurs the whole bitmap but its edges. */
  function BlurBitmap(source: ColorSpace, dest: ColorSpace, width: int, height: int, mx: int, my: int): (r: BlurCall)
    ensures r.Rejected? ==> r.status == BadValue
    ensures r.Call? <==> mx > 0 && my > 0 && SupportedOutput(dest) && SupportedInput(source)
    ensures r.Call? ==>
      Some(r.kernel) == KernelFor(source) && Some(r.writer) == PixelFunc(dest)
      && r.area == BlurArea(width, height, mx, my)
  {
    if mx <= 0 || my <= 0 then Rejected(BadValue)
    else match PixelFunc(dest)
      case None => Rejected(BadValue)
      case Some(writer) =>
        match KernelFor(source)
        case None => Rejected(BadValue)
        case Some(kernel) => Call(kernel, writer, BlurArea(width, height, mx, my))
  }

  // ---- clipping ----

  /** A `clipping_rect`, inclusive at both ends. */
  datatype Rect = Rect(left: int, top: int, right: int, bottom: int)

  predicate IsValid(r: Rect) { r.left <= r.right && r.top <= r.bottom }

  predicate InRect(r: Rect, x: int, y: int) {
    r.left <= x <= r.right && r.top <= y <= r.bottom
  }

  /** `BRect::operator&`. */
  function Intersect(a: Rect, b: Rect): (r: Rect)
    ensures forall x, y :: InRect(r, x, y) <==> InRect(a, x, y) && InRect(b, x, y)
  {
    Rect(Max(a.left, b.left), Max(a.top, b.top), Min(a.right, b.right), Min(a.bottom, b.bottom))
  }

  /** The part of `dest` a matrix of `mx` × `my` can blur. */
  function ClipRect(dest: Rect, mx: int, my: int): (c: Rect)
    requires mx > 0 && my > 0
  {
    var a := BlurArea(dest.right - dest.left, dest.bottom - dest.top, mx, my);
    Rect(dest.left + a.sx, dest.top + a.sy, dest.left + a.ex, dest.top + a.ey)
  }

  /** Some rectangle of `rects` holds the pixel `(x, y)`. */
  predicate Covers(rects: seq<Rect>, x: int, y: int) {
    exists j | 0 <= j < |rects| :: InRect(rects[j], x, y)
  }

  lemma {:induction false} CoversPrefix(rects: seq<Rect>, n: nat, x: int, y: int)
    requires n <= |rects| && Covers(rects[..n], x, y)
    ensures Covers(rects, x, y)
  {
    var j :| 0 <= j < n && InRect(rects[..n][j], x, y);
    assert rects[..n][j] == rects[j];
  }

  /** `ClipRects`: every visible rectangle cut down to the blurrable part
      of `dest`; rectangles that vanish are dropped. */
  function ClipRects(rects: seq<Rect>, dest: Rect, mx: int, my: int): (r: seq<Rect>)
    requires mx > 0 && my > 0
    ensures |r| <= |rects|
    ensures forall i | 0 <= i < |r| :: IsValid(r[i])
    ensures forall i, x, y | 0 <= i < |r| && InRect(r[i], x, y) ::
      InRect(ClipRect(dest, mx, my), x, y) && Covers(rects, x, y)
  {
    if rects == [] then []
    else
      var cut := Intersect(rects[|rects| - 1], ClipRect(dest, mx, my));
      var front := ClipRects(rects[..|rects| - 1], dest, mx, my);
      assert forall i, x, y | 0 <= i < |front| && InRect(front[i], x, y) :: Covers(rects, x, y) by {
        forall i, x, y | 0 <= i < |front| && InRect(front[i], x, y)
          ensures Covers(rects, x, y)
        {
          CoversPrefix(rects, |rects| - 1, x, y);
        }
      }
      if IsValid(cut) then front + [cut] else front
  }

  /** No visible pixel that can be blurred is lost by the clipping. */
  lemma {:induction false} ClipRectsComplete(rects: seq<Rect>, dest: Rect, mx: int, my: int, j: nat, x: int, y: int)
    requires mx > 0 && my > 0
    requires j < |rects| && InRect(rects[j], x, y) && InRect(ClipRect(dest, mx, my), x, y)
    ensures exists i | 0 <= i < |ClipRects(rects, dest, mx, my)| :: InRect(ClipRects(rects, dest, mx, my)[i], x, y)
  {
    var r := ClipRects(rects, dest, mx, my);
    var cut := Intersect(rects[|rects| - 1], ClipRect(dest, mx, my));
    var front := ClipRects(rects[..|rects| - 1], dest, mx, my);
    if j == |rects| - 1 {
      assert InRect(cut, x, y);
      assert r[|r| - 1] == cut;
    } else {
      assert rects[..|rects| - 1][j] == rects[j];
      ClipRectsComplete(rects[..|rects| - 1], dest, mx, my, j, x, y);
      var i :| 0 <= i < |front| && InRect(front[i], x, y);
      assert r[i] == front[i];
    }
  }

  /** The kernel call `Blur (2)` makes for one clipping rectangle, in
      coordinates relative to the destination rectangle. */
  function RectArea(dest: Rect, clip: Rect): (a: Area)
    ensures a.ex - a.sx == clip.right - clip.left + 1
    ensures a.ey - a.sy == clip.bottom - clip.top + 1
    ensures a.sx + dest.left == clip.left && a.sy + dest.top == clip.top
  {
    Area(clip.left - dest.left, clip.top - dest.top, clip.right - dest.left + 1, clip.bottom - dest.top + 1)
  }

  /** `Blur (2)` as written: after the same checks as `Blur (1)` it blurs
      every clipping rectangle, but a one bit grey source is handed to the
      32-bit kernel, which reads its bits as 32-bit pixels. */
  function BlurDirectAsWritten(source: ColorSpace, dest: ColorSpace, destRect: Rect, rects: seq<Rect>, mx: int, my: int): (r: seq<BlurCall>)
    ensures |r| == 1 || |r| == |rects|
    ensures !(mx > 0 && my > 0 && SupportedOutput(dest) && SupportedInput(source)) ==> r == [Rejected(BadValue)]
    ensures mx > 0 && my > 0 && SupportedOutput(dest) && SupportedInput(source) ==>
      forall i | 0 <= i < |r| :: r[i].Call? && r[i].kernel == Rgb32Kernel
  {
    if mx <= 0 || my <= 0 then [Rejected(BadValue)]
    else match PixelFunc(dest)
      case None => [Rejected(BadValue)]
      case Some(writer) =>
        if !SupportedInput(source) then [Rejected(BadValue)]
        else seq(|rects|, i requires 0 <= i < |rects| => Call(Rgb32Kernel, writer, RectArea(destRect, rects[i])))
  }

  /** `Blur (2)` with the kernel chosen by the source format, as in `Blur (1)`. */
  function BlurDirect(source: ColorSpace, dest: ColorSpace, destRect: Rect, rects: seq<Rect>, mx: int, my: int): (r: seq<BlurCall>)
    ensures |r| == 1 || |r| == |rects|
    ensures !(mx > 0 && my > 0 && SupportedOutput(dest) && SupportedInput(source)) ==> r == [Rejected(BadValue)]
    ensures mx > 0 && my > 0 && SupportedOutput(dest) && SupportedInput(source) ==>
      |r| == |rects| && forall i | 0 <= i < |r| ::
        r[i] == Call(BlurBitmap(source, dest, 0, 0, mx, my).kernel, BlurBitmap(source, dest, 0, 0, mx, my).writer,
                     RectArea(destRect, rects[i]))
  {
    if mx <= 0 || my <= 0 then [Rejected(BadValue)]
    else match PixelFunc(dest)
      case None => [Rejected(BadValue)]
      case Some(writer) =>
        match KernelFor(source)
        case None => [Rejected(BadValue)]
        case Some(kernel) => seq(|rects|, i requires 0 <= i < |rects| => Call(kernel, writer, RectArea(destRect, rects[i])))
  }

  /** For a one bit grey source, the direct blur as written calls the
      32-bit kernel while the bitmap blur calls the grey kernel; the
      corrected direct blur agrees with the bitmap blur. */
  lemma {:induction false} BlurDirectAsWrittenMisreadsGray1(dest: ColorSpace, destRect: Rect, clip: Rect)
    requires SupportedOutput(dest)
    ensures BlurDirectAsWritten(Gray1, dest, destRect, [clip], 1, 1)[0].kernel == Rgb32Kernel
    ensures BlurBitmap(Gray1, dest, 0, 0, 1, 1).kernel == Gray1Kernel
    ensures BlurDirect(Gray1, dest, destRect, [clip], 1, 1)[0].kernel == Gray1Kernel
  {
  }

  // ---- averaging one output pixel ----

  function Sum(values: seq<int>): int {
    if values == [] then 0 else Sum(values[..|values| - 1]) + values[|values| - 1]
  }

  predicate AllChannels(values: seq<int>) {
    forall i | 0 <= i < |values| :: 0 <= values[i] <= 255
  }

  lemma {:induction false} SumBounds(values: seq<int>)
    requires AllChannels(values)
    ensures 0 <= Sum(values) <= 255 * |values|
  {
    if values != [] {
      SumBounds(values[..|values| - 1]);
    }
  }

  lemma {:induction false} SumConstant(n: nat, v: int)
    ensures Sum(seq(n, _ => v)) == n * v
  {
    if n > 0 {
      var s := seq(n, _ => v);
      assert s[..n - 1] == seq(n - 1, _ => v);
      SumConstant(n - 1, v);
    }
  }

  /** One channel of a `BlurRGB32` output pixel as written: the sum of the
      window's values divided by `num_pixel`, capped at 255. `num_pixel` is
      a `uchar`, so the matrix size wraps modulo 256; when it wraps to 0 the
      division has no result (`None`). */
  function BlurChannelAsWritten(window: seq<int>, mx: int, my: int): (r: Option<int>)
    requires mx > 0 && my > 0
    ensures r.None? <==> (mx * my) % 256 == 0
    ensures r.Some? ==> r.value <= 255
  {
    var numPixel := (mx * my) % 256;
    if numPixel == 0 then None
    else var avg := Sum(window) / numPixel; Some(if avg > 255 then 255 else avg)
  }

  /** One channel of an output pixel divided by the full matrix size. */
  function BlurChannel(window: seq<int>, mx: int, my: int): (r: int)
    requires mx > 0 && my > 0
    requires |window| == mx * my && AllChannels(window)
    ensures 0 <= r <= 255
  {
    SumBounds(window);
    DivAtMost(Sum(window), mx * my, 255);
    Sum(window) / (mx * my)
  }

  /** A window of one colour blurs to that colour. */
  lemma {:induction false} BlurChannelUniform(mx: int, my: int, v: int)
    requires mx > 0 && my > 0 && 0 <= v <= 255
    ensures BlurChannel(seq(mx * my, _ => v), mx, my) == v
  {
    SumConstant(mx * my, v);
    DivOfMultiplePlusRemainder(mx * my, v, 0);
  }

  /** As written, a 16 × 16 matrix divides by zero, and a 17 × 16 matrix of
      value 10 blurs to 170, since 272 wraps to 16; the corrected average
      gives 10 in both cases. */
  lemma {:induction false} BlurChannelAsWrittenWraps()
    ensures BlurChannelAsWritten(seq(256, _ => 10), 16, 16).None?
    ensures BlurChannelAsWritten(seq(272, _ => 10), 17, 16) == Some(170)
    ensures BlurChannel(seq(256, _ => 10), 16, 16) == 10
    ensures BlurChannel(seq(272, _ => 10), 17, 16) == 10
  {
    SumConstant(272, 10);
    BlurChannelUniform(16, 16, 10);
    BlurChannelUniform(17, 16, 10);
  }

  /** `BlurGray1` as written: the share of clear bits among the window's
      `mx * my` pixels, scaled to 255 and divided by the wrapped `num_pixel`. */
  function GrayLevelAsWritten(clearBits: nat, mx: int, my: int): (r: Option<int>)
    requires mx > 0 && my > 0
    ensures r.None? <==> (mx * my) % 256 == 0
    ensures r.Some? ==> r.value <= 255
  {
    var numPixel := (mx * my) % 256;
    if numPixel == 0 then None
    else var level := (255 * clearBits) / numPixel; Some(if level > 255 then 255 else level)
  }

  /** The grey level divided by the full matrix size. */
  function GrayLevel(clearBits: nat, mx: int, my: int): (r: int)
    requires mx > 0 && my > 0 && clearBits <= mx * my
    ensures 0 <= r <= 255
    ensures clearBits == mx * my ==> r == 255
    ensures clearBits == 0 ==> r == 0
  {
    GrayLevelBounds(clearBits, mx * my);
    (255 * clearBits) / (mx * my)
  }

  lemma {:induction false} GrayLevelBounds(clearBits: nat, n: int)
    requires n > 0 && clearBits <= n
    ensures 0 <= (255 * clearBits) / n <= 255
    ensures clearBits == n ==> (255 * clearBits) / n == 255
  {
    DivAtMost(255 * clearBits, n, 255);
    if clearBits == n {
      DivOfMultiplePlusRemainder(n, 255, 0);
    }
  }
}

=== FILE: clv_column.dfy ===
/** `CLVColumn`: one column of a column list view, with its width limits,
    its flags and its sort mode. The flag bit values live in CLVColumn.h,
    which is not part of this model, so the flags are a set. Layout and
    redraw after a change are left out. */
module ClvColumn {
  import opened Common

  /** The column flags the modelled code reads or writes; `OtherFlag`
      stands for any other bit. */
  datatype Flag =
    | Expander | NotMovable | LockAtBeginning | Hidden | LockWithRight
    | NotResizable | MergeWithRight | HeaderTruncate | NotShowArrow
    | OtherFlag(bit: nat)

  /** `CLVSortMode`, with the numbering the scripting interface uses. */
  datatype SortMode = Ascending | Descending | NoSort

  /** The narrowest any column may be. */
  const MIN_COLUMN_WIDTH: real := 4.0

  /** The fixed width of the expander column. */
  const EXPANDER_WIDTH: real := 20.0

  /** The flags of an expander column that survive its construction. */
  const EXPANDER_KEPT_FLAGS: set<Flag> := {NotMovable, LockAtBeginning, Hidden, LockWithRight}

  datatype Column = Column(
    heading: Option<string>,
    width: real,
    minWidth: real,
    flags: set<Flag>,
    sortMode: SortMode,
    needsTruncate: bool)

  /** The invariant every column keeps: at least four wide, and never
      narrower than its own minimum. */
  predicate Valid(c: Column) {
    c.minWidth >= MIN_COLUMN_WIDTH && c.width >= c.minWidth
  }

  /** The constructor: an expander column loses its heading, is 20 wide and
      keeps only its position and visibility flags; then the minimum is
      raised to 4 and the width to the minimum. A new column is unsorted. */
  function NewColumn(heading: Option<string>, width: real, flags: set<Flag>, minWidth: real): (c: Column)
    ensures Valid(c)
    ensures c.sortMode == NoSort && !c.needsTruncate
    ensures Expander in flags ==>
      c.heading.None? && c.width == EXPANDER_WIDTH && c.minWidth == EXPANDER_WIDTH
      && c.flags == flags * EXPANDER_KEPT_FLAGS + {Expander, NotResizable, MergeWithRight}
    ensures Expander !in flags ==>
      c.heading == heading && c.flags == flags
      && c.minWidth == (if minWidth < MIN_COLUMN_WIDTH then MIN_COLUMN_WIDTH else minWidth)
      && c.width == (if width < c.minWidth then c.minWidth else width)
  {
    var isExpander := Expander in flags;
    var heading0 := if isExpander then None else heading;
    var width' := if isExpander then EXPANDER_WIDTH else width;
    var min' := if isExpander then EXPANDER_WIDTH else minWidth;
    var flags' := if isExpander then flags * EXPANDER_KEPT_FLAGS + {Expander, NotResizable, MergeWithRight} else flags;
    var min'' := if min' < MIN_COLUMN_WIDTH then MIN_COLUMN_WIDTH else min';
    var width'' := if width' < min'' then min'' else width';
    Column(heading0, width'', min'', flags', NoSort, false)
  }

  /** `SetWidth`: the width is raised to the minimum; nothing else changes. */
  function SetWidth(c: Column, width: real): (r: Column)
    ensures r.width >= c.minWidth
    ensures width >= c.minWidth ==> r.width == width
    ensures width < c.minWidth ==> r.width == c.minWidth
    ensures r.(width := c.width) == c
  {
    var w := if width < c.minWidth then c.minWidth else width;
    if w != c.width then c.(width := w) else c
  }

  /** `IsShown`: a column is shown unless it is hidden. */
  predicate IsShown(c: Column) {
    Hidden !in c.flags
  }

  /** `SetShown`: only the hidden flag changes. */
  function SetShown(c: Column, shown: bool): (r: Column)
    ensures IsShown(r) == shown
    ensures r.flags - {Hidden} == c.flags - {Hidden}
    ensures r.(flags := c.flags) == c
  {
    if IsShown(c) != shown then
      if shown then c.(flags := c.flags - {Hidden}) else c.(flags := c.flags + {Hidden})
    else c
  }

  /** `SetSortMode` of a column not yet in a view: the mode is stored. */
  function SetSortMode(c: Column, mode: SortMode): (r: Column)
    ensures r.sortMode == mode && r.(sortMode := c.sortMode) == c
  {
    c.(sortMode := mode)
  }

  /** `SortingChanged`: the heading must be truncated again when the sort
      arrow appears or disappears, which happens only when the arrow is
      shown and the mode crosses between sorted and unsorted. */
  function SortingChanged(c: Column, mode: SortMode): (r: Column)
    ensures r.sortMode == mode
    ensures r.needsTruncate <==>
      c.needsTruncate || (NotShowArrow !in c.flags && ((c.sortMode == NoSort) != (mode == NoSort)))
    ensures r.(sortMode := c.sortMode, needsTruncate := c.needsTruncate) == c
  {
    var crosses := (c.sortMode == NoSort && mode != NoSort) || (c.sortMode != NoSort && mode == NoSort);
    var c' := if NotShowArrow !in c.flags && crosses then c.(needsTruncate := true) else c;
    c'.(sortMode := mode)
  }

  /** Every operation keeps the width invariant. */
  lemma {:induction false} OperationsKeepValid(c: Column, width: real, shown: bool, mode: SortMode)
    requires Valid(c)
    ensures Valid(SetWidth(c, width))
    ensures Valid(SetShown(c, shown))
    ensures Valid(SetSortMode(c, mode))
    ensures Valid(SortingChanged(c, mode))
  {
  }

  /** Showing a column and hiding it again gives it back, as does hiding
      and showing again. */
  lemma {:induction false} SetShownRoundTrip(c: Column)
    ensures IsShown(c) ==> SetShown(SetShown(c, false), true) == c
    ensures !IsShown(c) ==> SetShown(SetShown(c, true), false) == c
  {
  }

  /** Setting a width that is already in force changes nothing, and
      setting a width twice is the same as setting it once. */
  lemma {:induction false} SetWidthIdempotent(c: Column, width: real)
    requires Valid(c)
    ensures SetWidth(c, c.width) == c
    ensures SetWidth(SetWidth(c, width), width) == SetWidth(c, width)
  {
  }
}

=== FILE: color.dfy ===
/** `CColor`: an `rgb_color` with saturating addition and subtraction. */
module Color {

  newtype byte = x: int | 0 <= x < 256

  datatype Rgb = Rgb(red: byte, green: byte, blue: byte, alpha: byte)

  /** The default colour: opaque black. */
  const BLACK := Rgb(0, 0, 0, 255)

  /** `r` is the sum of `x` and `y` where that fits a channel, and the full
      channel 255 where it does not. */
  predicate IsCappedSum(x: byte, y: byte, r: byte) {
    r >= x && r >= y
    && (x as int + y as int <= 255 ==> r as int == x as int + y as int)
    && (x as int + y as int > 255 ==> r == 255)
  }

  /** `r` is `x` less `y` where that is not negative, and 0 where it is. */
  predicate IsFlooredDifference(x: byte, y: byte, r: byte) {
    r <= x
    && (x >= y ==> r as int == x as int - y as int)
    && (x < y ==> r == 0)
  }

  /** `MIN(x + y, 255)` on one channel. */
  function SatAdd(a: byte, b: byte): (r: byte)
    ensures IsCappedSum(a, b, r)
  {
    if a as int + b as int > 255 then 255 else a + b
  }

  /** `MAX(x - y, 0)` on one channel. */
  function SatSub(a: byte, b: byte): (r: byte)
    ensures IsFlooredDifference(a, b, r)
  {
    if a < b then 0 else a - b
  }

  /** `operator +` and `+=`: each channel added and capped at 255; the result is opaque. */
  function Add(a: Rgb, b: Rgb): (r: Rgb)
    ensures r.alpha == 255
    ensures IsCappedSum(a.red, b.red, r.red)
    ensures IsCappedSum(a.green, b.green, r.green)
    ensures IsCappedSum(a.blue, b.blue, r.blue)
  {
    Rgb(SatAdd(a.red, b.red), SatAdd(a.green, b.green), SatAdd(a.blue, b.blue), 255)
  }

  /** `operator -` and `-=`: each channel subtracted and floored at 0; the result is opaque. */
  function Sub(a: Rgb, b: Rgb): (r: Rgb)
    ensures r.alpha == 255
    ensures IsFlooredDifference(a.red, b.red, r.red)
    ensures IsFlooredDifference(a.green, b.green, r.green)
    ensures IsFlooredDifference(a.blue, b.blue, r.blue)
  {
    Rgb(SatSub(a.red, b.red), SatSub(a.green, b.green), SatSub(a.blue, b.blue), 255)
  }

  /** The capped sum is the least channel value that is at least the true
      sum or full: no other channel value fits that description better. */
  lemma {:induction false} SatAddIsLeastCover(a: byte, b: byte, c: byte)
    requires c as int >= a as int + b as int || c == 255
    ensures SatAdd(a, b) <= c
  {
  }

  /** Adding and subtracting a channel: the capped sum less the same amount
      is the original channel exactly when the sum did not saturate. */
  lemma {:induction false} SatSubUndoesSatAdd(a: byte, b: byte)
    ensures SatSub(SatAdd(a, b), b) == a <==> a as int + b as int <= 255
  {
  }

  /** Addition is commutative. */
  lemma {:induction false} AddCommutes(a: Rgb, b: Rgb)
    ensures Add(a, b) == Add(b, a)
  {
  }

  /** Subtracting what was added gives the colour back when no channel saturated. */
  lemma {:induction false} SubUndoesAdd(a: Rgb, b: Rgb)
    requires a.alpha == 255
    requires a.red as int + b.red as int <= 255
    requires a.green as int + b.green as int <= 255
    requires a.blue as int + b.blue as int <= 255
    ensures Sub(Add(a, b), b) == a
  {
  }

  /** A colour minus itself is black, and black is the identity of addition
      for opaque colours. */
  lemma {:induction false} BlackLaws(a: Rgb)
    ensures Sub(a, a) == BLACK
    ensures a.alpha == 255 ==> Add(a, BLACK) == a
  {
  }

  /** Once a channel saturates, adding more leaves it at 255. */
  lemma {:induction false} AddSaturated(a: Rgb, b: Rgb)
    requires a.red == 255
    ensures Add(a, b).red == 255
  {
  }
}

=== FILE: column_list_view.dfy ===
/** `CColumnListViewEx`: the column list view of the task manager, with
    type-ahead selection and the scripting access to its columns. */
module ColumnListView {
  import opened Common
  import ClvColumn

  // ---- text cells ----

  /** `CLVTextPainter`: the text of a cell and whether it must be truncated
      again before drawing. */
  datatype TextPainter = TextPainter(text: string, mustTruncate: bool)

  /** `SetText`: the painter keeps its own copy of the text and truncates it anew. */
  function SetText(p: TextPainter, t: string): (r: TextPainter)
    ensures r.text == t && r.mustTruncate
  {
    TextPainter(t, true)
  }

  // ---- type-ahead ----

  /** A row of the list: whether it is a `CLVEasyItem`, and the text of each
      of its columns (`None` for a column without text). */
  datatype Row = Row(easy: bool, texts: seq<Option<string>>)

  /** `GetColumnContentText` of a row, NULL for rows that are not easy items. */
  function TextAt(row: Row, column: nat): (r: Option<string>)
    ensures r.Some? ==> row.easy && column < |row.texts|
  {
    if row.easy && column < |row.texts| then row.texts[column] else None
  }

  /** The first column, below `columnCount`, in which `row` has text. */
  function FirstTextColumn(row: Row, columnCount: nat, i: nat): (r: Option<nat>)
    ensures r.Some? ==> i <= r.value < columnCount && TextAt(row, r.value).Some?
    ensures r.Some? ==> forall j | i <= j < r.value :: TextAt(row, j).None?
    ensures r.None? ==> forall j | i <= j < columnCount :: TextAt(row, j).None?
    decreases columnCount - i
  {
    if i >= columnCount then None
    else if TextAt(row, i).Some? then Some(i)
    else FirstTextColumn(row, columnCount, i + 1)
  }

  /** The row's text in `column` starts with `findChar`, ignoring case. */
  predicate Matches(row: Row, column: nat, findChar: char) {
    var t := TextAt(row, column);
    t.Some? && |t.value| > 0 && ToUpper(t.value[0]) == findChar
  }

  /** The row `i` steps after `start`, going round the list: `(i + start) % n`,
      which wraps at most once since both are at most `n`. */
  function Probed(n: nat, start: nat, i: nat): (pos: nat)
    requires start <= n && i < n
    ensures pos < n
    ensures pos == if i + start < n then i + start else i + start - n
  {
    if i + start < n then i + start else i + start - n
  }

  /** The search loop of `KeyDown` from step `i` up to, excluding, step
      `bound`: the first row probed whose text matches. */
  function FirstMatch(rows: seq<Row>, column: nat, findChar: char, start: nat, i: nat, bound: nat): (r: Option<nat>)
    requires start <= |rows| && bound <= |rows|
    ensures r.Some? ==> r.value < |rows| && Matches(rows[r.value], column, findChar)
    ensures r.Some? ==>
      exists k | i <= k < bound :: r.value == Probed(|rows|, start, k)
        && forall k' | i <= k' < k :: !Matches(rows[Probed(|rows|, start, k')], column, findChar)
    ensures r.None? ==> forall k | i <= k < bound :: !Matches(rows[Probed(|rows|, start, k)], column, findChar)
    decreases bound - i
  {
    if i >= bound then None
    else
      var pos := Probed(|rows|, start, i);
      if Matches(rows[pos], column, findChar) then Some(pos)
      else FirstMatch(rows, column, findChar, start, i + 1, bound)
  }

  /** What a key press does to the list. */
  datatype KeyOutcome = PassedOn | Unchanged | Selected(row: nat)

  /** The first text column type-ahead searches: that of the first row. */
  function SearchColumn(rows: seq<Row>, columnCount: nat): (r: Option<nat>)
    ensures r.Some? ==> |rows| > 0 && rows[0].easy
  {
    if |rows| == 0 || !rows[0].easy then None else FirstTextColumn(rows[0], columnCount, 0)
  }

  /** The row the search starts from: the one after the selection, or the first. */
  function StartRow(selection: int): (start: nat)
    ensures selection >= 0 ==> start == selection + 1
    ensures selection < 0 ==> start == 0
  {
    if selection + 1 < 0 then 0 else selection + 1
  }

  /** `row` is the first row, within `steps` steps from the row after
      `selection` going round the list, whose text in `column` starts with
      `findChar`: it matches, and every row probed before it does not. */
  predicate FirstMatchWithin(rows: seq<Row>, column: nat, findChar: char, selection: int, steps: nat, row: nat)
    requires -1 <= selection < |rows| && steps <= |rows|
  {
    exists k | 0 <= k < steps :: row == Probed(|rows|, StartRow(selection), k)
      && Matches(rows[row], column, findChar)
      && forall k' | 0 <= k' < k :: !Matches(rows[Probed(|rows|, StartRow(selection), k')], column, findChar)
  }

  /** The number of steps `KeyDown` makes as written: one fewer than there are rows. */
  function AsWrittenSteps(n: nat): (steps: nat)
    ensures n > 0 ==> steps == n - 1
    ensures steps <= n
  {
    if n == 0 then 0 else n - 1
  }

  /** The number of steps the corrected `KeyDown` makes: every row when
      nothing is selected, every row but the selected one otherwise. */
  function KeyDownSteps(n: nat, selection: int): (steps: nat)
    ensures steps <= n && (selection >= 0 && n > 0 ==> steps == n - 1)
  {
    if n == 0 then 0 else if selection < 0 then n else n - 1
  }

  /** The type-ahead search of `KeyDown` making `steps` steps from the row
      after the current selection (`-1` for none). */
  function TypeAhead(rows: seq<Row>, columnCount: nat, selection: int, key: char, steps: nat): (r: KeyOutcome)
    requires -1 <= selection < |rows|
    requires steps <= |rows|
    ensures !IsAlnum(key) <==> r == PassedOn
    ensures r.Selected? ==>
      r.row < |rows| && SearchColumn(rows, columnCount).Some?
      && Matches(rows[r.row], SearchColumn(rows, columnCount).value, ToUpper(key))
    ensures r.Selected? ==>
      FirstMatchWithin(rows, SearchColumn(rows, columnCount).value, ToUpper(key), selection, steps, r.row)
    ensures r == Unchanged && SearchColumn(rows, columnCount).Some? ==> forall k | 0 <= k < steps ::
      !Matches(rows[Probed(|rows|, StartRow(selection), k)], SearchColumn(rows, columnCount).value, ToUpper(key))
  {
    if !IsAlnum(key) then PassedOn
    else match SearchColumn(rows, columnCount)
      case None => Unchanged
      case Some(column) =>
        match FirstMatch(rows, column, ToUpper(key), StartRow(selection), 0, steps)
        case None => Unchanged
        case Some(pos) => Selected(pos)
  }

  /** `KeyDown` as written: an alphanumeric key selects the next row, in
      cyclic order after the current selection, whose text in the first
      text column of the first row starts with that character, ignoring
      case. The loop makes one step fewer than there are rows, which skips
      the selected row, but with nothing selected it also never reaches the
      last row. Any other key goes to the base class. */
  function KeyDownAsWritten(rows: seq<Row>, columnCount: nat, selection: int, key: char): (r: KeyOutcome)
    requires -1 <= selection < |rows|
    ensures !IsAlnum(key) <==> r == PassedOn
    ensures selection < 0 && |rows| > 0 ==> r != Selected(|rows| - 1)
    ensures r.Selected? ==>
      r.row < |rows| && SearchColumn(rows, columnCount).Some?
      && FirstMatchWithin(rows, SearchColumn(rows, columnCount).value, ToUpper(key), selection,
                          AsWrittenSteps(|rows|), r.row)
    ensures r == Unchanged && SearchColumn(rows, columnCount).Some? ==>
      forall k | 0 <= k < |rows| - 1 ::
        !Matches(rows[Probed(|rows|, StartRow(selection), k)], SearchColumn(rows, columnCount).value, ToUpper(key))
  {
    var r := TypeAhead(rows, columnCount, selection, key, AsWrittenSteps(|rows|));
    assert selection < 0 && r.Selected? ==> r.row < |rows| - 1;
    r
  }

  /** `KeyDown` with every row searched when nothing is selected. */
  function KeyDown(rows: seq<Row>, columnCount: nat, selection: int, key: char): (r: KeyOutcome)
    requires -1 <= selection < |rows|
    ensures !IsAlnum(key) <==> r == PassedOn
    ensures r.Selected? ==>
      r.row < |rows| && r.row != selection && SearchColumn(rows, columnCount).Some?
      && FirstMatchWithin(rows, SearchColumn(rows, columnCount).value, ToUpper(key), selection,
                          KeyDownSteps(|rows|, selection), r.row)
    ensures r == Unchanged && SearchColumn(rows, columnCount).Some? ==>
      forall row | 0 <= row < |rows| && row != selection ::
        !Matches(rows[row], SearchColumn(rows, columnCount).value, ToUpper(key))
  {
    var steps := KeyDownSteps(|rows|, selection);
    var r := TypeAhead(rows, columnCount, selection, key, steps);
    TypeAheadSkipsSelection(rows, columnCount, selection, key, steps);
    TypeAheadCoversOtherRows(rows, columnCount, selection, key);
    r
  }

  /** A corrected search that selects nothing saw no matching row other
      than the selected one. */
  lemma {:induction false} TypeAheadCoversOtherRows(rows: seq<Row>, columnCount: nat, selection: int, key: char)
    requires -1 <= selection < |rows|
    ensures (TypeAhead(rows, columnCount, selection, key, KeyDownSteps(|rows|, selection)) == Unchanged
             && SearchColumn(rows, columnCount).Some?) ==>
      forall row | 0 <= row < |rows| && row != selection ::
        !Matches(rows[row], SearchColumn(rows, columnCount).value, ToUpper(key))
  {
    if TypeAhead(rows, columnCount, selection, key, KeyDownSteps(|rows|, selection)) == Unchanged
      && SearchColumn(rows, columnCount).Some?
    {
      forall row | 0 <= row < |rows| && row != selection
        ensures !Matches(rows[row], SearchColumn(rows, columnCount).value, ToUpper(key))
      {
        var k := ProbedReaches(|rows|, selection, row);
      }
    }
  }

  /** Fewer steps than rows never come back to the selected row. */
  lemma {:induction false} TypeAheadSkipsSelection(rows: seq<Row>, columnCount: nat, selection: int, key: char, steps: nat)
    requires -1 <= selection < |rows|
    requires steps <= |rows| && (selection >= 0 ==> steps < |rows|)
    ensures TypeAhead(rows, columnCount, selection, key, steps).Selected? ==>
      TypeAhead(rows, columnCount, selection, key, steps).row != selection
  {
    var r := TypeAhead(rows, columnCount, selection, key, steps);
    if r.Selected? && selection >= 0 {
      var n := |rows|;
      var k :| 0 <= k < steps && r.row == Probed(n, StartRow(selection), k);
    }
  }

  /** The step at which the search from the row after `selection` reaches `row`. */
  lemma {:induction false} ProbedReaches(n: nat, selection: int, row: nat) returns (k: nat)
    requires -1 <= selection < n && row < n && row != selection
    ensures k < (if selection < 0 then n else n - 1)
    ensures Probed(n, StartRow(selection), k) == row
  {
    if selection < 0 {
      k := row;
    } else if row > selection {
      k := row - selection - 1;
    } else {
      k := row + n - selection - 1;
    }
  }

  /** The corrected search always finds a matching row other than the
      selected one when there is one. */
  lemma {:induction false} KeyDownComplete(rows: seq<Row>, columnCount: nat, selection: int, key: char, row: nat)
    requires -1 <= selection < |rows|
    requires IsAlnum(key) && SearchColumn(rows, columnCount).Some?
    requires row < |rows| && row != selection
    requires Matches(rows[row], SearchColumn(rows, columnCount).value, ToUpper(key))
    ensures KeyDown(rows, columnCount, selection, key).Selected?
  {
    var k := ProbedReaches(|rows|, selection, row);
    assert KeyDownSteps(|rows|, selection) == (if selection < 0 then |rows| else |rows| - 1);
  }

  /** With two rows, nothing selected and the key of the second row's text,
      the search as written selects nothing; the corrected one selects that row. */
  lemma {:induction false} KeyDownAsWrittenMissesLastRow()
    ensures var rows := [Row(true, [Some("x")]), Row(true, [Some("y")])];
      KeyDownAsWritten(rows, 1, -1, 'y') == Unchanged && KeyDown(rows, 1, -1, 'y') == Selected(1)
  {
    var rows := [Row(true, [Some("x")]), Row(true, [Some("y")])];
    assert FirstTextColumn(rows[0], 1, 0) == Some(0);
    assert ToUpper('y') == 'Y' && ToUpper('x') == 'X';
    assert !Matches(rows[0], 0, 'Y');
    assert Matches(rows[1], 0, 'Y');
    assert FirstMatch(rows, 0, 'Y', 0, 0, 1) == None;
    assert FirstMatch(rows, 0, 'Y', 0, 0, 2) == Some(1);
  }

  // ---- scripting ----

  /** The column specifiers `GetColumnIndex` reads, with the message field
      each reads (`None` when missing). */
  datatype ColumnSpecifier =
    | IndexSpecifier(index: Option<int>)
    | ReverseIndexSpecifier(index: Option<int>)
    | NameSpecifier(name: Option<string>)
    | OtherSpecifier

  datatype ColumnIndex = IndexOk(index: int) | IndexError(status: Status)

  /** `GetColumnIndex`: an index is passed on unchecked, a reverse index is
      counted from the back, a name gives the first column with that label
      or B_BAD_INDEX; a missing field gives the lookup's error and any other
      specifier B_BAD_VALUE. `labels` holds each column's label, `None` for
      a column without one. */
  function GetColumnIndex(labels: seq<Option<string>>, spec: ColumnSpecifier): (r: ColumnIndex)
    ensures spec.IndexSpecifier? && spec.index.Some? ==> r == IndexOk(spec.index.value)
    ensures spec.ReverseIndexSpecifier? && spec.index.Some? ==> r == IndexOk(|labels| - spec.index.value - 1)
    ensures (spec.IndexSpecifier? || spec.ReverseIndexSpecifier?) && spec.index.None? ==> r == IndexError(NameNotFound)
    ensures spec.NameSpecifier? && r.IndexOk? ==>
      0 <= r.index < |labels| && labels[r.index] == spec.name
      && forall j | 0 <= j < r.index :: labels[j] != spec.name
    ensures spec.NameSpecifier? && spec.name.None? ==> r == IndexError(NameNotFound)
    ensures spec.NameSpecifier? && spec.name.Some? && r.IndexError? ==>
      r.status == BadIndex && Some(spec.name.value) !in labels
    ensures spec.OtherSpecifier? ==> r == IndexError(BadValue)
  {
    match spec
    case IndexSpecifier(index) =>
      if index.None? then IndexError(NameNotFound) else IndexOk(index.value)
    case ReverseIndexSpecifier(index) =>
      if index.None? then IndexError(NameNotFound) else IndexOk(|labels| - index.value - 1)
    case NameSpecifier(name) =>
      if name.None? then IndexError(NameNotFound)
      else (match IndexOf(labels, Some(name.value))
        case Some(i) => IndexOk(i)
        case None => IndexError(BadIndex))
    case OtherSpecifier => IndexError(BadValue)
  }

  /** A reverse index and the index counted from the front name the same
      column, and a column is found by its own label unless an earlier
      column has the same label. */
  lemma {:induction false} GetColumnIndexConsistent(labels: seq<Option<string>>, i: nat)
    requires i < |labels| && labels[i].Some?
    requires forall j | 0 <= j < i :: labels[j] != labels[i]
    ensures GetColumnIndex(labels, ReverseIndexSpecifier(Some(i))) == GetColumnIndex(labels, IndexSpecifier(Some(|labels| - 1 - i)))
    ensures GetColumnIndex(labels, NameSpecifier(labels[i])) == IndexOk(i)
  {
  }

  /** What setting a column's "SortMode" property does: the status, and
      on success the column, its new mode and whether it became a sort key. */
  datatype SortModeChange = SortModeChange(column: nat, mode: ClvColumn.SortMode, addsSortKey: bool)

  /** The scripting numbering of sort modes: 0 ascending, 1 descending, 2 none. */
  function SortModeOf(n: int): (m: ClvColumn.SortMode)
    requires 0 <= n < 3
    ensures n == 0 <==> m == ClvColumn.Ascending
    ensures n == 1 <==> m == ClvColumn.Descending
    ensures n == 2 <==> m == ClvColumn.NoSort
  {
    if n == 0 then ClvColumn.Ascending else if n == 1 then ClvColumn.Descending else ClvColumn.NoSort
  }

  /** The number a get of "SortMode" replies with for a column's mode. */
  function SortModeNumber(m: ClvColumn.SortMode): (n: int)
    ensures 0 <= n < 3 && SortModeOf(n) == m
  {
    match m
    case Ascending => 0
    case Descending => 1
    case NoSort => 2
  }

  /** The scripting numbering is one-to-one: a number read back from its mode is the number. */
  lemma {:induction false} SortModeNumberOf(n: int)
    requires 0 <= n < 3
    ensures SortModeNumber(SortModeOf(n)) == n
  {
  }

  /** Setting "SortMode" of column `columnIndex` out of `columnCount`:
      the "data" field must hold 0, 1 or 2, else B_BAD_VALUE; a column that
      does not exist gives B_BAD_INDEX; a mode other than no-sort also makes
      the column a sort key. */
  function SetSortModeProperty(columnCount: nat, columnIndex: int, data: Option<int>): (r: (Status, Option<SortModeChange>))
    ensures r.0 == Ok <==> r.1.Some?
    ensures data.None? ==> r == (NameNotFound, None)
    ensures data.Some? && !(0 <= data.value < 3) ==> r == (BadValue, None)
    ensures data.Some? && 0 <= data.value < 3 && !(0 <= columnIndex < columnCount) ==> r == (BadIndex, None)
    ensures r.1.Some? ==>
      r.1.value.column == columnIndex && r.1.value.mode == SortModeOf(data.value)
      && (r.1.value.addsSortKey <==> data.value != 2)
  {
    match data
    case None => (NameNotFound, None)
    case Some(mode) =>
      if 0 <= mode < 3 then
        if 0 <= columnIndex < columnCount then
          (Ok, Some(SortModeChange(columnIndex, SortModeOf(mode), SortModeOf(mode) != ClvColumn.NoSort)))
        else (BadIndex, None)
      else (BadValue, None)
  }

  /** Setting "SortMode" and getting it again: writing back the number a get
      replied with is accepted and stores the mode the column had, and a
      successful set followed by a get replies with the number written. */
  lemma {:induction false} SetSortModePropertyRoundTrip(columnCount: nat, columnIndex: int, c: ClvColumn.Column, data: Option<int>)
    requires 0 <= columnIndex < columnCount
    ensures SetSortModeProperty(columnCount, columnIndex, Some(SortModeNumber(c.sortMode)))
      == (Ok, Some(SortModeChange(columnIndex, c.sortMode, c.sortMode != ClvColumn.NoSort)))
    ensures var r := SetSortModeProperty(columnCount, columnIndex, data);
      r.1.Some? ==> SortModeNumber(ClvColumn.SetSortMode(c, r.1.value.mode).sortMode) == data.value
  {
    var r := SetSortModeProperty(columnCount, columnIndex, data);
    if r.1.Some? {
      SortModeNumberOf(data.value);
    }
  }
}

=== FILE: command_line.dfy ===
/** `CCommandLineParser`: shell-like splitting of a command line into
    components, and the escaping of spaces and backslashes used when a path is
    put into a command line. */
module CommandLine {
  import opened Common

  const SPACE := ' '
  const BACKSLASH := '\\'
  const QUOTE := '"'

  // ---- Escape ----

  function EscapeChar(c: char): (e: string)
  {
    if c == SPACE then [BACKSLASH, SPACE]
    else if c == BACKSLASH then [BACKSLASH, BACKSLASH]
    else [c]
  }

  /** Number of characters `Escape` doubles. */
  function CountSpecial(s: string): nat
  {
    if |s| == 0 then 0
    else (if s[0] == SPACE || s[0] == BACKSLASH then 1 else 0) + CountSpecial(s[1..])
  }

  /** `Escape`: every space becomes "\ " and every backslash "\\"; every
      other character is copied. */
  function Escape(s: string): (r: string)
    ensures |r| == |s| + CountSpecial(s)
    ensures QUOTE !in s ==> QUOTE !in r
  {
    if |s| == 0 then []
    else EscapeChar(s[0]) + Escape(s[1..])
  }

  // ---- Unescape ----

  /** `Unescape` as written: after an escaped space the `escaped` flag stays
      set, so the character after it is also treated as escaped. */
  function UnescapeFrom(s: string, escaped: bool): (r: string)
    ensures |r| <= |s|
  {
    if |s| == 0 then []
    else if s[0] == BACKSLASH then
      if escaped then [BACKSLASH] + UnescapeFrom(s[1..], false) else UnescapeFrom(s[1..], true)
    else if s[0] == SPACE then
      if escaped then [SPACE] + UnescapeFrom(s[1..], escaped) else UnescapeFrom(s[1..], false)
    else [s[0]] + UnescapeFrom(s[1..], false)
  }

  function Unescape(s: string): (r: string)
    ensures |r| <= |s|
  {
    UnescapeFrom(s, false)
  }

  /** The characters of `s` other than spaces and backslashes, in order. */
  function Plain(s: string): (r: string)
    ensures |r| <= |s|
  {
    if |s| == 0 then []
    else if s[0] == SPACE || s[0] == BACKSLASH then Plain(s[1..])
    else [s[0]] + Plain(s[1..])
  }

  /** `Unescape` keeps every character that is neither a space nor a
      backslash, in order, whatever the escape state. */
  lemma {:induction false} UnescapeKeepsPlainChars(s: string, escaped: bool)
    ensures Plain(UnescapeFrom(s, escaped)) == Plain(s)
  {
    if |s| > 0 {
      if s[0] == BACKSLASH {
        UnescapeKeepsPlainChars(s[1..], !escaped);
        if escaped {
          assert ([BACKSLASH] + UnescapeFrom(s[1..], false))[1..] == UnescapeFrom(s[1..], false);
        }
      } else if s[0] == SPACE {
        UnescapeKeepsPlainChars(s[1..], escaped);
        if escaped {
          assert ([SPACE] + UnescapeFrom(s[1..], escaped))[1..] == UnescapeFrom(s[1..], escaped);
        }
      } else {
        UnescapeKeepsPlainChars(s[1..], false);
        assert ([s[0]] + UnescapeFrom(s[1..], false))[1..] == UnescapeFrom(s[1..], false);
      }
    }
  }

  /** Without a backslash in the input, `Unescape` drops exactly the spaces. */
  lemma {:induction false} UnescapeDropsUnescapedSpaces(s: string)
    requires BACKSLASH !in s
    ensures Unescape(s) == Plain(s)
  {
    if |s| > 0 {
      assert BACKSLASH !in s[1..];
      UnescapeDropsUnescapedSpaces(s[1..]);
    }
  }

  /** The header comment calls `Unescape` the inverse of `Escape`, but two
      spaces do not survive the round trip. */
  lemma {:induction false} UnescapeEscapeFailsForTwoSpaces()
    ensures Escape("  ") == "\\ \\ "
    ensures Unescape(Escape("  ")) == " \\"
  {
    assert Escape("  ") == "\\ \\ ";
    assert UnescapeFrom(" ", false) == [];
    assert UnescapeFrom("\\ ", true) == "\\";
    assert UnescapeFrom(" \\ ", true) == " \\";
  }

  /** `Unescape` with the flag cleared after an escaped space, as the comment
      "Replaces '\ ' by ' '" intends. */
  function UnescapeFixedFrom(s: string, escaped: bool): (r: string)
    ensures |r| <= |s|
  {
    if |s| == 0 then []
    else if s[0] == BACKSLASH then
      if escaped then [BACKSLASH] + UnescapeFixedFrom(s[1..], false) else UnescapeFixedFrom(s[1..], true)
    else if s[0] == SPACE then
      if escaped then [SPACE] + UnescapeFixedFrom(s[1..], false) else UnescapeFixedFrom(s[1..], false)
    else [s[0]] + UnescapeFixedFrom(s[1..], false)
  }

  function UnescapeFixed(s: string): (r: string)
    ensures |r| <= |s|
  {
    UnescapeFixedFrom(s, false)
  }

  /** The corrected `Unescape` undoes `Escape` for every string. */
  lemma {:induction false} UnescapeFixedInvertsEscape(s: string)
    ensures UnescapeFixed(Escape(s)) == s
  {
    if |s| > 0 {
      UnescapeFixedInvertsEscape(s[1..]);
      var t := Escape(s[1..]);
      var e := Escape(s);
      assert e == EscapeChar(s[0]) + t;
      if s[0] == SPACE || s[0] == BACKSLASH {
        assert e[0] == BACKSLASH && e[1..] == [s[0]] + t;
        assert ([s[0]] + t)[1..] == t;
        assert UnescapeFixedFrom(e, false) == UnescapeFixedFrom(e[1..], true);
        assert UnescapeFixedFrom(e[1..], true) == [s[0]] + UnescapeFixedFrom(t, false);
      } else {
        assert e[0] == s[0] && e[1..] == t;
        assert UnescapeFixedFrom(e, false) == [s[0]] + UnescapeFixedFrom(t, false);
      }
    }
  }

  // ---- SplitCommandLine ----

  /** The scanner state of `SplitCommandLine`. */
  datatype SplitState = SplitState(
    quoted: bool,         // inside a '"' ... '"' range
    escaped: bool,        // the previous character was an unconsumed '\'
    lastSpace: bool,      // the last separator closed a component
    current: string,      // the component being collected
    components: seq<string>)

  const START := SplitState(false, false, false, [], [])

  /** One character of `SplitCommandLine`. With `resetLastSpace` false this is
      the loop body as written, where only an ordinary character clears
      `lastSpace`; with it true every appended character clears it. */
  function Step(st: SplitState, c: char, resetLastSpace: bool): (st': SplitState)
    ensures c == QUOTE ==> st' == st.(quoted := !st.quoted)
    ensures c == BACKSLASH && !st.quoted && !st.escaped ==> st' == st.(escaped := true)
    ensures (c == SPACE || c == BACKSLASH) && (st.quoted || st.escaped) ==>
      st'.current == st.current + [c] && st'.components == st.components
      && st'.quoted == st.quoted && !st'.escaped
      && (resetLastSpace ==> !st'.lastSpace) && (!resetLastSpace ==> st'.lastSpace == st.lastSpace)
    ensures c == SPACE && !st.quoted && !st.escaped ==>
      st'.lastSpace &&
      (if st.lastSpace then st'.current == st.current && st'.components == st.components
       else st'.current == [] && st'.components == st.components + [st.current])
    ensures c != QUOTE && c != SPACE && c != BACKSLASH ==>
      st'.current == st.current + [c] && !st'.escaped && !st'.lastSpace && st'.components == st.components
  {
    if c == QUOTE then st.(quoted := !st.quoted)
    else if c == BACKSLASH then
      if st.escaped || st.quoted then
        st.(current := st.current + [c], escaped := false,
            lastSpace := if resetLastSpace then false else st.lastSpace)
      else st.(escaped := true)
    else if c == SPACE then
      if st.escaped || st.quoted then
        st.(current := st.current + [c], escaped := false,
            lastSpace := if resetLastSpace then false else st.lastSpace)
      else if !st.lastSpace then
        st.(components := st.components + [st.current], current := [], lastSpace := true)
      else st.(lastSpace := true)
    else st.(current := st.current + [c], escaped := false, lastSpace := false)
  }

  function Run(st: SplitState, s: string, resetLastSpace: bool): (st': SplitState)
    decreases |s|
  {
    if |s| == 0 then st else Run(Step(st, s[0], resetLastSpace), s[1..], resetLastSpace)
  }

  /** After the loop a non-empty last component is added. */
  function Finish(st: SplitState): seq<string>
  {
    if st.current != [] then st.components + [st.current] else st.components
  }

  /** `SplitCommandLine` as written: the success flag and the components. */
  function SplitCommandLine(cmdLine: string): (r: (bool, seq<string>))
    ensures r.0
    ensures forall k | 0 <= k < |r.1| :: QUOTE !in r.1[k]
  {
    NoQuoteAfterRun(START, cmdLine, false);
    (true, Finish(Run(START, cmdLine, false)))
  }

  /** `SplitCommandLine` with `lastSpace` cleared by every appended character. */
  function SplitCommandLineFixed(cmdLine: string): (r: (bool, seq<string>))
    ensures r.0
    ensures forall k | 0 <= k < |r.1| :: QUOTE !in r.1[k]
  {
    NoQuoteAfterRun(START, cmdLine, true);
    (true, Finish(Run(START, cmdLine, true)))
  }

  ghost predicate QuoteFree(st: SplitState) {
    QUOTE !in st.current && forall k | 0 <= k < |st.components| :: QUOTE !in st.components[k]
  }

  lemma {:induction false} NoQuoteAfterRun(st: SplitState, s: string, resetLastSpace: bool)
    requires QuoteFree(st)
    ensures QuoteFree(Run(st, s, resetLastSpace))
    ensures var f := Finish(Run(st, s, resetLastSpace)); forall k | 0 <= k < |f| :: QUOTE !in f[k]
    decreases |s|
  {
    if |s| > 0 {
      var st1 := Step(st, s[0], resetLastSpace);
      assert QuoteFree(st1);
      NoQuoteAfterRun(st1, s[1..], resetLastSpace);
    }
  }

  lemma {:induction false} RunAppend(st: SplitState, a: string, b: string, resetLastSpace: bool)
    ensures Run(st, a + b, resetLastSpace) == Run(Run(st, a, resetLastSpace), b, resetLastSpace)
    decreases |a|
  {
    if |a| > 0 {
      assert (a + b)[0] == a[0];
      assert (a + b)[1..] == a[1..] + b;
      assert Run(st, a + b, resetLastSpace) == Run(Step(st, a[0], resetLastSpace), a[1..] + b, resetLastSpace);
      RunAppend(Step(st, a[0], resetLastSpace), a[1..], b, resetLastSpace);
    } else {
      assert a + b == b;
    }
  }

  /** A command line that starts with an unquoted space yields an empty first component. */
  lemma {:induction false} LeadingSpaceGivesEmptyComponent(cmdLine: string)
    requires |cmdLine| > 0 && cmdLine[0] == SPACE
    ensures |SplitCommandLine(cmdLine).1| > 0 && SplitCommandLine(cmdLine).1[0] == []
  {
    var st1 := Step(START, SPACE, false);
    assert st1.components == [[]];
    ComponentsOnlyGrow(st1, cmdLine[1..], false);
  }

  lemma {:induction false} ComponentsOnlyGrow(st: SplitState, s: string, resetLastSpace: bool)
    ensures |Run(st, s, resetLastSpace).components| >= |st.components|
    ensures Run(st, s, resetLastSpace).components[..|st.components|] == st.components
    decreases |s|
  {
    if |s| > 0 {
      var st1 := Step(st, s[0], resetLastSpace);
      ComponentsOnlyGrow(st1, s[1..], resetLastSpace);
      assert st1.components[..|st.components|] == st.components;
    }
  }

  /** Running over an escaped quote-free text from an unquoted, unescaped
      state appends the text, unescaped, to the current component. */
  lemma {:induction false} RunEscaped(st: SplitState, p: string, resetLastSpace: bool)
    requires !st.quoted && !st.escaped
    requires QUOTE !in p
    ensures var st' := Run(st, Escape(p), resetLastSpace);
      && !st'.quoted && !st'.escaped
      && st'.current == st.current + p
      && st'.components == st.components
      && (resetLastSpace && |p| > 0 ==> !st'.lastSpace)
      && (!st.lastSpace ==> !st'.lastSpace)
    decreases |p|
  {
    if |p| > 0 {
      var c := p[0];
      var e := EscapeChar(c);
      assert Escape(p) == e + Escape(p[1..]);
      RunAppend(st, e, Escape(p[1..]), resetLastSpace);
      var st1 := Run(st, e, resetLastSpace);
      if c == SPACE || c == BACKSLASH {
        assert e == [BACKSLASH, c];
        assert e[1..][1..] == [];
        var sa := Step(st, BACKSLASH, resetLastSpace);
        assert sa.escaped && !sa.quoted && sa.current == st.current && sa.lastSpace == st.lastSpace;
        assert st1 == Run(Step(sa, c, resetLastSpace), [], resetLastSpace);
      } else {
        assert e == [c];
        assert e[1..] == [];
        assert st1 == Step(st, c, resetLastSpace);
      }
      assert st1.current == st.current + [c];
      assert QUOTE !in p[1..];
      RunEscaped(st1, p[1..], resetLastSpace);
      assert st.current + [c] + p[1..] == st.current + p;
    }
  }

  /** An escaped path, as the most-recently-used list stores it, splits back
      into exactly that path (the path must be non-empty and hold no '"',
      which `Escape` leaves unescaped). */
  lemma {:induction false} SplitEscapedPath(p: string)
    requires |p| > 0 && QUOTE !in p
    ensures SplitCommandLine(Escape(p)).1 == [p]
  {
    RunEscaped(START, p, false);
    var st' := Run(START, Escape(p), false);
    assert st'.current == p && st'.components == [];
  }

  /** Arguments escaped one by one and joined by single spaces. */
  function JoinEscaped(args: seq<string>): string
    requires |args| > 0
  {
    if |args| == 1 then Escape(args[0])
    else Escape(args[0]) + [SPACE] + JoinEscaped(args[1..])
  }

  /** One escaped argument and the space after it close a component
      holding the argument. */
  lemma {:induction false} RunArgument(st: SplitState, arg: string, rest: string)
    requires |arg| > 0 && QUOTE !in arg
    requires !st.quoted && !st.escaped && st.current == []
    ensures var st2 := st.(components := st.components + [arg], current := [], lastSpace := true);
      Run(st, Escape(arg) + [SPACE] + rest, true) == Run(st2, rest, true)
  {
    RunEscaped(st, arg, true);
    var st1 := Run(st, Escape(arg), true);
    RunAppend(st, Escape(arg), [SPACE] + rest, true);
    assert Escape(arg) + [SPACE] + rest == Escape(arg) + ([SPACE] + rest);
    RunAppend(st1, [SPACE], rest, true);
    assert st1.current == arg && st1.components == st.components && !st1.lastSpace;
    assert !st1.quoted && !st1.escaped;
    var st2 := Step(st1, SPACE, true);
    assert Run(st1, [SPACE], true) == st2;
    assert st2 == st.(components := st.components + [arg], current := [], lastSpace := true);
  }

  lemma {:induction false} RunJoined(st: SplitState, args: seq<string>)
    requires |args| > 0
    requires forall k | 0 <= k < |args| :: |args[k]| > 0 && QUOTE !in args[k]
    requires !st.quoted && !st.escaped && st.current == []
    ensures var st' := Run(st, JoinEscaped(args), true);
      && st'.components == st.components + args[..|args| - 1]
      && st'.current == args[|args| - 1]
    decreases |args|
  {
    if |args| == 1 {
      RunEscaped(st, args[0], true);
    } else {
      RunArgument(st, args[0], JoinEscaped(args[1..]));
      var st2 := st.(components := st.components + [args[0]], current := [], lastSpace := true);
      RunJoined(st2, args[1..]);
      assert st.components + [args[0]] + args[1..][..|args[1..]| - 1] == st.components + args[..|args| - 1];
    }
  }

  /** With `lastSpace` cleared by every appended character, splitting undoes
      escaping and joining for any non-empty, quote-free arguments. */
  lemma {:induction false} SplitFixedInvertsJoin(args: seq<string>)
    requires |args| > 0
    requires forall k | 0 <= k < |args| :: |args[k]| > 0 && QUOTE !in args[k]
    ensures SplitCommandLineFixed(JoinEscaped(args)).1 == args
  {
    RunJoined(START, args);
  }

  /** As written, a component made only of escaped characters leaves
      `lastSpace` set, so the separator after it is swallowed:
      `a \\ b` splits into "a" and "\b" instead of "a", "\" and "b". */
  lemma {:induction false} SplitMergesEscapedComponent()
    ensures JoinEscaped(["a", "\\", "b"]) == "a \\\\ b"
    ensures SplitCommandLine("a \\\\ b").1 == ["a", "\\b"]
  {
    assert JoinEscaped(["b"]) == "b";
    assert JoinEscaped(["\\", "b"]) == "\\\\ b";
    RunMergesEscapedComponent();
  }

  /** The loop as written over `a \\ b` ends holding "a" and collecting "\b". */
  lemma {:induction false} RunMergesEscapedComponent()
    ensures var st := Run(START, "a \\\\ b", false); st.components == ["a"] && st.current == "\\b"
  {
    var s := "a \\\\ b";
    var st1 := Step(START, 'a', false);
    var st2 := Step(st1, SPACE, false);
    var st3 := Step(st2, BACKSLASH, false);
    var st4 := Step(st3, BACKSLASH, false);
    var st5 := Step(st4, SPACE, false);
    var st6 := Step(st5, 'b', false);
    assert st1.current == "a" && st1.components == [] && !st1.lastSpace && !st1.quoted;
    assert st2.components == ["a"] && st2.current == [] && st2.lastSpace;
    assert st4.current == [BACKSLASH] && st4.lastSpace;
    assert st5.current == [BACKSLASH] && st5.components == ["a"];
    assert st6.components == ["a"] && st6.current == "\\b";
    assert Run(st6, s[6..], false) == st6;
    assert Run(st5, s[5..], false) == st6;
    assert Run(st4, s[4..], false) == st6;
    assert Run(st3, s[3..], false) == st6;
    assert Run(st2, s[2..], false) == st6;
    assert Run(st1, s[1..], false) == st6;
    assert Run(START, s, false) == st6;
  }

  /** The corrected split keeps the escaped backslash as a component of its own. */
  lemma {:induction false} SplitFixedKeepsEscapedComponent()
    ensures SplitCommandLineFixed("a \\\\ b").1 == ["a", "\\", "b"]
  {
    assert JoinEscaped(["b"]) == "b";
    assert JoinEscaped(["\\", "b"]) == "\\\\ b";
    assert JoinEscaped(["a", "\\", "b"]) == "a \\\\ b";
    SplitFixedInvertsJoin(["a", "\\", "b"]);
  }
}

=== FILE: common.dfy ===
/** Shared vocabulary of the model: optional values, the BeOS status codes the
    modelled code returns, C-style integer division, and the character and
    string primitives (`isalnum`, `toupper`, `strncmp`, `std::string::find`)
    the source builds on. */
module Common {

  /** Stands for a pointer that may be NULL, or a lookup that may fail. */
  datatype Option<+T> = None | Some(value: T)

  /** The `status_t` values the modelled code distinguishes. */
  datatype Status =
    | Ok            // B_OK
    | Error         // B_ERROR
    | BadValue      // B_BAD_VALUE
    | BadIndex      // B_BAD_INDEX
    | NameNotFound  // B_NAME_NOT_FOUND, what BMessage::Find* reports for a missing field

  function Abs(x: int): nat { if x < 0 then -x else x }

  /** C and C++ integer division truncates toward zero (Dafny's `/` is Euclidean). */
  function TruncDiv(a: int, b: int): int
    requires b != 0
  {
    var m := Abs(a) / Abs(b);
    if (a < 0) != (b < 0) then -m else m
  }

  /** Truncation of a real toward zero, as a C cast from float to int does. */
  function TruncReal(x: real): (n: int)
    ensures x >= 0.0 ==> n as real <= x < n as real + 1.0
    ensures x < 0.0 ==> n as real - 1.0 < x <= n as real
  {
    if x >= 0.0 then x.Floor else -((-x).Floor)
  }

  /** Multiplying a natural number by a positive one never makes it smaller. */
  lemma {:induction false} MulAtLeast(n: nat, k: nat)
    requires k >= 1
    ensures n * k >= n
  {
    if k > 1 {
      MulAtLeast(n, k - 1);
      assert n * k == n * (k - 1) + n;
    }
  }

  /** Euclidean division recovers the quotient of `n * b + m` for a remainder `m` below `n`. */
  lemma {:induction false} DivOfMultiplePlusRemainder(n: int, b: int, m: int)
    requires n > 0 && 0 <= m < n
    ensures (n * b + m) / n == b
  {
    var q := (n * b + m) / n;
    var rem := (n * b + m) % n;
    assert n * q + rem == n * b + m;
    assert n * (q - b) == m - rem;
    if q > b {
      MulAtLeast(n, q - b);
    } else if q < b {
      MulAtLeast(n, b - q);
    }
  }

  /** A quotient is at most `v` when the dividend is at most `n * v`. */
  lemma {:induction false} DivAtMost(s: int, n: int, v: int)
    requires n > 0 && 0 <= s <= n * v
    ensures s / n <= v
  {
    var q := s / n;
    assert n * q + s % n == s;
    if q > v {
      MulAtLeast(n, q - v);
    }
  }

  /** Remainders of values below twice the modulus. */
  lemma {:induction false} ModSmall(a: nat, n: nat)
    requires a < n
    ensures a % n == a
  {
  }

  lemma {:induction false} ModWrap(a: nat, n: nat)
    requires n <= a < 2 * n
    ensures a % n == a - n
  {
  }

  function Min(a: int, b: int): int { if a <= b then a else b }
  function Max(a: int, b: int): int { if a >= b then a else b }

  // ---- characters (the C locale) ----

  predicate IsDigit(c: char) { '0' <= c <= '9' }
  predicate IsUpper(c: char) { 'A' <= c <= 'Z' }
  predicate IsLower(c: char) { 'a' <= c <= 'z' }
  predicate IsAlnum(c: char) { IsDigit(c) || IsUpper(c) || IsLower(c) }

  function ToUpper(c: char): (u: char)
    ensures !IsLower(u)
    ensures !IsLower(c) ==> u == c
  {
    if IsLower(c) then (c as int - 32) as char else c
  }

  function ToLower(c: char): (l: char)
    ensures !IsUpper(l)
    ensures !IsUpper(c) ==> l == c
  {
    if IsUpper(c) then (c as int + 32) as char else c
  }

  // ---- strings ----

  predicate IsPrefix(p: string, s: string) {
    |p| <= |s| && s[..|p|] == p
  }

  /** `p` occurs in `s` starting at index `k`. */
  predicate OccursAt(s: string, p: string, k: int) {
    0 <= k && k + |p| <= |s| && s[k..k + |p|] == p
  }

  predicate Contains(s: string, p: string) {
    exists k | 0 <= k <= |s| - |p| :: OccursAt(s, p, k)
  }

  /** `std::string::find(p, i)` and `BString::FindFirst(p, i)`: the first
      occurrence of `p` in `s` at index `i` or later. */
  function FindFrom(s: string, p: string, i: nat): (r: Option<nat>)
    ensures r.Some? ==> i <= r.value && OccursAt(s, p, r.value)
    ensures r.Some? ==> forall j | i <= j < r.value :: !OccursAt(s, p, j)
    ensures r.None? ==> forall j | i <= j :: !OccursAt(s, p, j)
    decreases |s| - i
  {
    if i + |p| > |s| then None
    else if s[i..i + |p|] == p then Some(i)
    else FindFrom(s, p, i + 1)
  }

  /** Index of the first element equal to `x`, as the source's linear scans return it. */
  function IndexOf<T(==)>(xs: seq<T>, x: T): (r: Option<nat>)
    ensures r.Some? ==> r.value < |xs| && xs[r.value] == x
    ensures r.Some? ==> forall j | 0 <= j < r.value :: xs[j] != x
    ensures r.None? <==> x !in xs
  {
    if |xs| == 0 then None
    else if xs[0] == x then Some(0)
    else match IndexOf(xs[1..], x)
      case None => None
      case Some(k) => Some(k + 1)
  }

  /** Removes the element at index `i`, as `BList::RemoveItem(i)` does. */
  function RemoveAt<T>(xs: seq<T>, i: nat): (r: seq<T>)
    requires i < |xs|
    ensures |r| == |xs| - 1
    ensures forall j | 0 <= j < i :: r[j] == xs[j]
    ensures forall j | i <= j < |r| :: r[j] == xs[j + 1]
  {
    xs[..i] + xs[i + 1..]
  }

  /** Decimal rendering of a non-negative number, as `sprintf("%d")` prints it. */
  function NatToString(n: nat): (s: string)
    ensures |s| >= 1
    ensures forall k | 0 <= k < |s| :: IsDigit(s[k])
  {
    var d := ['0' + (n % 10) as char];
    if n < 10 then d else NatToString(n / 10) + d
  }
}

=== FILE: counter_namespace.dfy ===
/** `CPerformanceCounterNamespace`: the tree of performance counters that
    the plug-ins provide, looked up by path. Loading the plug-ins is left
    out: each plug-in's enumeration is given as its answer. The tree is
    modelled with every counter's children already enumerated. */
module CounterNamespace {
  import opened Common
  import Plugin

  /** A counter of the tree: its internal name, its data provider (`None`
      for a counter that only groups others) and its children. */
  datatype Node = Node(internalName: string, provider: Option<nat>, children: seq<Node>)

  /** `CRootNode`: named "Root", without a data provider. */
  function Root(children: seq<Node>): (r: Node)
    ensures r.internalName == "Root" && r.provider.None? && r.children == children
  {
    Node("Root", None, children)
  }

  function NodeNames(nodes: seq<Node>): (r: seq<string>)
    ensures |r| == |nodes| && forall i | 0 <= i < |nodes| :: r[i] == nodes[i].internalName
  {
    seq(|nodes|, i requires 0 <= i < |nodes| => nodes[i].internalName)
  }

  /** `FindObject`: the first child whose internal name is `name`. */
  function FindObject(parent: Node, name: string): (r: Option<Node>)
    ensures r.Some? ==> exists k | 0 <= k < |parent.children| ::
      r.value == parent.children[k] && r.value.internalName == name
      && forall j | 0 <= j < k :: parent.children[j].internalName != name
    ensures r.None? <==> forall k | 0 <= k < |parent.children| :: parent.children[k].internalName != name
  {
    var names := NodeNames(parent.children);
    match IndexOf(names, name)
    case None => None
    case Some(k) => Some(parent.children[k])
  }

  /** The components of the rest of a path, read up to each '/'. A '/' at
      the very end closes the last component without opening another. */
  function SplitRest(t: string): (r: seq<string>)
    ensures forall i | 0 <= i < |r| :: '/' !in r[i]
    decreases |t|
  {
    if t == [] then []
    else match IndexOf(t, '/')
      case None => [t]
      case Some(k) => [t[..k]] + SplitRest(t[k + 1..])
  }

  /** The path's components. The first character is taken to be '/' and
      skipped unread. */
  function Components(path: string): (r: seq<string>)
    ensures forall i | 0 <= i < |r| :: '/' !in r[i]
  {
    if |path| <= 1 then [] else SplitRest(path[1..])
  }

  /** A component followed by a '/' is split off at that '/'. */
  lemma {:induction false} SplitAtSlash(name: string, tail: string)
    requires '/' !in name
    ensures SplitRest(name + "/" + tail) == [name] + SplitRest(tail)
  {
    var t := name + "/" + tail;
    assert t[|name|] == '/';
    assert forall j | 0 <= j < |name| :: t[j] == name[j];
    assert IndexOf(t, '/') == Some(|name|);
    assert t[..|name|] == name;
    assert t[|name| + 1..] == tail;
  }

  /** A single component is split as itself. */
  lemma {:induction false} SplitComponent(name: string)
    requires Plugin.IsComponent(name)
    ensures SplitRest(name) == [name]
  {
    assert IndexOf(name, '/').None?;
  }

  /** The path of `[first] + names` without its leading '/'. */
  lemma {:induction false} SlashedCons(first: string, names: seq<string>)
    ensures Plugin.Slashed([first] + names)[1..] == first + Plugin.Slashed(names)
    ensures names != [] ==> Plugin.Slashed(names) == "/" + Plugin.Slashed(names)[1..]
  {
    var all := [first] + names;
    assert all[0] == first && all[1..] == names;
    assert Plugin.Slashed(all) == "/" + first + Plugin.Slashed(names);
    if names != [] {
      assert Plugin.Slashed(names) == "/" + names[0] + Plugin.Slashed(names[1..]);
    }
  }

  /** One more component in front of a path that splits correctly. */
  lemma {:induction false} SplitSlashedStep(first: string, names: seq<string>)
    requires Plugin.IsComponent(first)
    requires names != [] ==> SplitRest(Plugin.Slashed(names)[1..]) == names
    ensures SplitRest(Plugin.Slashed([first] + names)[1..]) == [first] + names
  {
    SlashedCons(first, names);
    var rest := Plugin.Slashed(names);
    if names == [] {
      assert first + rest == first;
      SplitComponent(first);
    } else {
      assert first + rest == first + "/" + rest[1..];
      SplitAtSlash(first, rest[1..]);
    }
  }

  /** Splitting a counter's path gives back the names it was built from. */
  lemma {:induction false} SplitSlashed(names: seq<string>)
    requires Plugin.AllComponents(names)
    ensures names != [] ==> SplitRest(Plugin.Slashed(names)[1..]) == names
  {
    if names != [] {
      var tail := names[1..];
      assert names == [names[0]] + tail;
      assert Plugin.IsComponent(names[0]);
      if tail != [] {
        assert Plugin.AllComponents(tail) by {
          forall i | 0 <= i < |tail| ensures Plugin.IsComponent(tail[i]) {
            assert tail[i] == names[i + 1];
          }
        }
        SplitSlashed(tail);
      }
      SplitSlashedStep(names[0], tail);
    }
  }

  /** The path of a counter, split, names the counters leading to it. */
  lemma {:induction false} ComponentsOfJoinPath(names: seq<string>)
    requires Plugin.AllComponents(names)
    ensures Components(Plugin.JoinPath(names)) == names
  {
    if names != [] {
      Plugin.JoinPathIsSlashed(names);
      SplitSlashed(names);
    }
  }

  /** The walk of `DataProvider` from `node` down the components; `None` as
      soon as one is missing. */
  function Walk(node: Node, names: seq<string>): (r: Option<Node>)
    ensures names == [] ==> r == Some(node)
    decreases |names|
  {
    if names == [] then Some(node)
    else match FindObject(node, names[0])
      case None => None
      case Some(child) => Walk(child, names[1..])
  }

  /** Walking a longer path is walking its first part, then the rest. */
  lemma {:induction false} WalkAppend(node: Node, a: seq<string>, b: seq<string>)
    ensures Walk(node, a + b) == match Walk(node, a) case None => None case Some(m) => Walk(m, b)
    decreases |a|
  {
    if a != [] {
      assert (a + b)[0] == a[0] && (a + b)[1..] == a[1..] + b;
      match FindObject(node, a[0])
      case None =>
        assert Walk(node, a).None? && Walk(node, a + b).None?;
      case Some(child) =>
        assert Walk(node, a) == Walk(child, a[1..]);
        assert Walk(node, a + b) == Walk(child, a[1..] + b);
        WalkAppend(child, a[1..], b);
    } else {
      assert a + b == b;
    }
  }

  /** A walk that succeeds ends at a counter named by the last component. */
  lemma {:induction false} WalkEndsAtName(node: Node, names: seq<string>)
    requires names != [] && Walk(node, names).Some?
    ensures Walk(node, names).value.internalName == names[|names| - 1]
  {
    var front, last := names[..|names| - 1], names[|names| - 1];
    assert names == front + [last];
    WalkAppend(node, front, [last]);
    var m := Walk(node, front).value;
    assert Walk(m, [last]) == match FindObject(m, last) case None => None case Some(c) => Walk(c, []);
  }

  /** What `DataProvider` gives back: a clone of the provider, NULL, or a
      call through a NULL provider. */
  datatype Lookup = Found(provider: nat) | NotFound | NullProvider

  /** `DataProvider` as written: a path whose walk ends at a counter
      without a provider, the root among them, calls `Clone` through NULL. */
  function DataProviderAsWritten(root: Node, path: string): (r: Lookup)
    ensures r.NotFound? <==> Walk(root, Components(path)).None?
    ensures r.NullProvider? <==> Walk(root, Components(path)).Some? && Walk(root, Components(path)).value.provider.None?
    ensures r.Found? ==> Walk(root, Components(path)).value.provider == Some(r.provider)
  {
    match Walk(root, Components(path))
    case None => NotFound
    case Some(n) => if n.provider.None? then NullProvider else Found(n.provider.value)
  }

  /** `DataProvider` checking the counter's provider before cloning it:
      NULL when a component is missing or the counter has no provider. */
  function DataProvider(root: Node, path: string): (r: Option<nat>)
    ensures r.Some? <==> Walk(root, Components(path)).Some? && Walk(root, Components(path)).value.provider.Some?
    ensures r.Some? ==> r == Walk(root, Components(path)).value.provider
  {
    match Walk(root, Components(path))
    case None => None
    case Some(n) => n.provider
  }

  /** Where the written lookup finds a provider, the corrected one finds
      the same one, and it never calls through NULL. */
  lemma {:induction false} DataProviderAgrees(root: Node, path: string)
    ensures DataProviderAsWritten(root, path).Found? ==> DataProvider(root, path) == Some(DataProviderAsWritten(root, path).provider)
    ensures !DataProviderAsWritten(root, path).Found? ==> DataProvider(root, path).None?
  {
  }

  /** The counter built from the path of the names `names` is the one
      `DataProvider` reaches. */
  lemma {:induction false} DataProviderOfCounterPath(root: Node, names: seq<string>)
    requires Plugin.AllComponents(names)
    ensures DataProvider(root, Plugin.JoinPath(names)) ==
      match Walk(root, names) case None => None case Some(n) => n.provider
  {
    ComponentsOfJoinPath(names);
  }

  lemma {:induction false} SampleRoot()
    ensures Components("/") == []
  {
  }

  lemma {:induction false} SampleTotal()
    ensures Components("/Total") == ["Total"]
  {
    assert "/Total"[1..] == "Total";
    assert '/' !in "Total";
  }

  lemma {:induction false} SlashedSample()
    ensures Plugin.Slashed(["Total", "Memory Usage"]) == "/Total/Memory Usage"
  {
    var names := ["Total", "Memory Usage"];
    var one := names[1..];
    assert one == ["Memory Usage"] && one[1..] == [];
    assert Plugin.Slashed(one) == "/" + "Memory Usage" + Plugin.Slashed([]);
  }

  lemma {:induction false} SampleMemory()
    ensures Components("/Total/Memory Usage") == ["Total", "Memory Usage"]
  {
    var names := ["Total", "Memory Usage"];
    assert '/' !in names[0] && '/' !in names[1];
    SplitSlashed(names);
    SlashedSample();
  }

  /** A namespace shaped as the default plug-in's: a "Total" group without
      a provider, holding a "Memory Usage" counter. */
  const MEMORY_USAGE := Node("Memory Usage", Some(1), [])
  const TOTAL := Node("Total", None, [MEMORY_USAGE])
  const SAMPLE_ROOT := Node("Root", None, [TOTAL])

  lemma {:induction false} SampleWalks()
    ensures Walk(SAMPLE_ROOT, []) == Some(SAMPLE_ROOT)
    ensures Walk(SAMPLE_ROOT, ["Total"]) == Some(TOTAL)
    ensures Walk(SAMPLE_ROOT, ["Total", "Memory Usage"]) == Some(MEMORY_USAGE)
  {
    assert NodeNames(SAMPLE_ROOT.children) == ["Total"];
    assert FindObject(SAMPLE_ROOT, "Total") == Some(TOTAL);
    assert NodeNames(TOTAL.children) == ["Memory Usage"];
    assert FindObject(TOTAL, "Memory Usage") == Some(MEMORY_USAGE);
    assert ["Total"][1..] == [];
    assert ["Total", "Memory Usage"][1..] == ["Memory Usage"];
    assert ["Memory Usage"][1..] == [];
  }

  /** "/Total" reaches a group without a provider, as "/" reaches the
      root: the written lookup calls through NULL where the corrected one
      answers NULL; a counter with a provider is found by both. */
  lemma {:induction false} DataProviderAsWrittenCallsThroughNull()
    ensures DataProviderAsWritten(SAMPLE_ROOT, "/Total").NullProvider? && DataProvider(SAMPLE_ROOT, "/Total").None?
    ensures DataProviderAsWritten(SAMPLE_ROOT, "/").NullProvider? && DataProvider(SAMPLE_ROOT, "/").None?
    ensures DataProviderAsWritten(SAMPLE_ROOT, "/Total/Memory Usage") == Found(1)
    ensures DataProvider(SAMPLE_ROOT, "/Total/Memory Usage") == Some(1)
  {
    SampleRoot();
    SampleTotal();
    SampleMemory();
    SampleWalks();
  }

  /** The children the plug-ins add, in turn. */
  function Added(answers: seq<(Status, seq<Node>)>): seq<Node> {
    if answers == [] then [] else answers[0].1 + Added(answers[1..])
  }

  lemma {:induction false} AddedPrefixes(answers: seq<(Status, seq<Node>)>)
    requires answers != []
    ensures forall n | 0 <= n < |answers| :: Added(answers[..n + 1]) == answers[0].1 + Added(answers[1..][..n])
  {
    forall n | 0 <= n < |answers|
      ensures Added(answers[..n + 1]) == answers[0].1 + Added(answers[1..][..n])
    {
      assert answers[..n + 1][1..] == answers[1..][..n];
    }
  }

  /** `EnumChildren`: the plug-ins are asked in turn, each adding its
      children and answering with a status; the first that fails ends the
      enumeration with its status, and later plug-ins are not asked. */
  function EnumChildren(answers: seq<(Status, seq<Node>)>): (r: (Status, seq<Node>))
    ensures r.0 == Ok <==> forall i | 0 <= i < |answers| :: answers[i].0 == Ok
    ensures r.0 == Ok ==> r.1 == Added(answers)
    ensures r.0 != Ok ==> exists k | 0 <= k < |answers| ::
      r.0 == answers[k].0 && (forall j | 0 <= j < k :: answers[j].0 == Ok)
      && r.1 == Added(answers[..k + 1])
  {
    if answers == [] then (Ok, [])
    else
      var (status, added) := answers[0];
      AddedPrefixes(answers);
      if status != Ok then
        assert answers[1..][..0] == [];
        (status, added)
      else
        var (s, rest) := EnumChildren(answers[1..]);
        (s, added + rest)
  }

  /** Asking the plug-ins of `a` and then those of `b`: when every plug-in
      of `a` succeeds, the enumeration goes on with `b` and adds its children
      after those of `a`; otherwise `b` is never asked. */
  lemma {:induction false} EnumChildrenConcat(a: seq<(Status, seq<Node>)>, b: seq<(Status, seq<Node>)>)
    ensures EnumChildren(a).0 == Ok ==>
      EnumChildren(a + b) == (EnumChildren(b).0, EnumChildren(a).1 + EnumChildren(b).1)
    ensures EnumChildren(a).0 != Ok ==> EnumChildren(a + b) == EnumChildren(a)
    decreases |a|
  {
    if a == [] {
      assert a + b == b;
      assert EnumChildren(a).1 + EnumChildren(b).1 == EnumChildren(b).1;
    } else {
      assert (a + b)[0] == a[0];
      assert (a + b)[1..] == a[1..] + b;
      EnumChildrenConcat(a[1..], b);
      if a[0].0 == Ok {
        var ra, rb := EnumChildren(a[1..]), EnumChildren(b);
        assert a[0].1 + (ra.1 + rb.1) == (a[0].1 + ra.1) + rb.1;
      }
    }
  }
}

=== FILE: graph_view.dfy ===
/** `CGraphView` and `CDataInfo`: the performance graph, its per-counter ring
    buffers of samples, automatic scaling of the y axis, and the scripting
    iterator over the displayed counters. */
module GraphView {
  import opened Common
  import opened Color

  // ---- CDataInfo ----

  /** The flags of a data provider that matter for sampling. */
  datatype Provider = Provider(id: nat, relative: bool, percent: bool)

  /** One displayed counter: the ring buffer of samples, the insertion point
      (the slot the next sample goes to), the scale factor, the largest
      sample seen, the colour and the data provider (NULL is `None`). */
  datatype DataInfo = DataInfo(
    values: seq<real>,
    insertPoint: int,
    scale: real,
    max: real,
    color: Rgb,
    provider: Option<Provider>)

  predicate Valid(d: DataInfo) {
    |d.values| >= 1 && 0 <= d.insertPoint < |d.values|
  }

  /** `CDataInfo` as constructed: a zeroed buffer of `valueCount` samples. */
  function NewDataInfo(valueCount: nat, provider: Provider, color: Rgb, scale: real): (d: DataInfo)
    requires valueCount >= 1
    ensures Valid(d) && |d.values| == valueCount && d.max == 0.0
    ensures forall i | 0 <= i < valueCount :: Value(d, i) == 0.0
  {
    DataInfo(seq(valueCount, _ => 0.0), 0, scale, 0.0, color, Some(provider))
  }

  /** `Value(index)`: the sample `index` steps back from the newest one, scaled. */
  function Value(d: DataInfo, index: nat): real
    requires Valid(d)
  {
    d.values[(d.insertPoint + index + 1) % |d.values|] * d.scale
  }

  /** The sample as `Update` stores it: divided by the pulse rate for a
      relative counter, then for a percent counter multiplied by 100 and
      clamped to [0, 100]. */
  function ProcessSample(value: real, p: Provider, pulseRate: real): (v: real)
    requires pulseRate != 0.0
    ensures p.percent ==> 0.0 <= v <= 100.0
    ensures !p.percent && !p.relative ==> v == value
    ensures !p.percent && p.relative ==> v * pulseRate == value
  {
    var v := if p.relative then value / pulseRate else value;
    if p.percent then
      var w := v * 100.0;
      if w < 0.0 then 0.0 else if w > 100.0 then 100.0 else w
    else v
  }

  /** `Update`: the new sample (0 when there is no provider or it delivers
      none) is written at the insertion point, which moves one slot back,
      wrapping to the end of the buffer. The maximum only sees delivered samples. */
  function Update(d: DataInfo, sample: Option<real>, pulseRate: real): (r: DataInfo)
    requires Valid(d) && pulseRate != 0.0
    ensures Valid(r) && |r.values| == |d.values|
    ensures r.scale == d.scale && r.color == d.color && r.provider == d.provider
    ensures r.max >= d.max
    ensures d.provider.Some? && sample.Some? ==>
      r.max == Max2(ProcessSample(sample.value, d.provider.value, pulseRate), d.max)
      && Value(r, 0) == ProcessSample(sample.value, d.provider.value, pulseRate) * d.scale
    ensures !(d.provider.Some? && sample.Some?) ==> r.max == d.max && Value(r, 0) == 0.0
  {
    var delivered := d.provider.Some? && sample.Some?;
    var value := if delivered then ProcessSample(sample.value, d.provider.value, pulseRate) else 0.0;
    var ip := if d.insertPoint - 1 < 0 then |d.values| - 1 else d.insertPoint - 1;
    StepBackThenNext(d.insertPoint, |d.values|);
    d.(values := d.values[d.insertPoint := value],
       insertPoint := ip,
       max := if delivered then Max2(value, d.max) else d.max)
  }

  /** Stepping the insertion point back, with the wrap, and reading the
      slot after it gives the slot just written. */
  lemma {:induction false} StepBackThenNext(ip: nat, n: nat)
    requires ip < n
    ensures ((if ip - 1 < 0 then n - 1 else ip - 1) + 1) % n == ip
  {
    if ip == 0 { ModWrap(n, n); } else { ModSmall(ip, n); }
  }

  function Max2(a: real, b: real): (m: real)
    ensures m >= a && m >= b && (m == a || m == b)
  {
    if a >= b then a else b
  }

  /** After an update every older value moves one step back, whether or
      not a sample was delivered; a delivered sample is the newest value. */
  lemma {:induction false} UpdateShiftsHistory(d: DataInfo, sample: Option<real>, pulseRate: real)
    requires Valid(d) && pulseRate != 0.0
    ensures d.provider.Some? && sample.Some? ==>
      Value(Update(d, sample, pulseRate), 0) == ProcessSample(sample.value, d.provider.value, pulseRate) * d.scale
      && Update(d, sample, pulseRate).max >= ProcessSample(sample.value, d.provider.value, pulseRate)
    ensures forall i | 0 <= i < |d.values| - 1 :: Value(Update(d, sample, pulseRate), i + 1) == Value(d, i)
  {
    var r := Update(d, sample, pulseRate);
    var n := |d.values|;
    forall i | 0 <= i < n - 1 ensures Value(r, i + 1) == Value(d, i) {
      var k := ShiftedSlot(d.insertPoint, i, n);
      assert r.values[k] == d.values[k];
    }
  }

  /** The slot `Value(i + 1)` reads after the insertion point stepped back
      is the slot `Value(i)` read before, which is not the one written. */
  lemma {:induction false} ShiftedSlot(ip: nat, i: nat, n: nat) returns (k: nat)
    requires ip < n && i + 1 < n
    ensures ((if ip - 1 < 0 then n - 1 else ip - 1) + (i + 1) + 1) % n == k
    ensures k == (ip + i + 1) % n && k != ip
  {
    k := RingSlot(ip, i, n);
    if ip == 0 {
      ModWrap(n + i + 1, n);
      ModSmall(i + 1, n);
    }
  }

  /** The slot `Value(i)` reads: `i + 1` slots after the insertion point, wrapped. */
  function RingSlot(ip: nat, i: nat, n: nat): (k: nat)
    requires ip < n && i + 1 < n
    ensures k == (ip + i + 1) % n && k != ip
  {
    if ip + i + 1 < n then
      ModSmall(ip + i + 1, n);
      ip + i + 1
    else
      ModWrap(ip + i + 1, n);
      ip + i + 1 - n
  }

  // ---- CGraphView ----

  /** The view's state as far as the modelled operations touch it. */
  datatype Graph = Graph(
    infos: seq<DataInfo>,
    valueCount: nat,
    maxValue: int,
    autoScale: bool,
    gridSpace: int,
    gridOffset: int,
    distance: int)

  /** `AddDataProvider`: -1 for a NULL provider; for a provider already
      shown, its colour and scale change and its index is returned with
      `updated` set; otherwise a new counter is appended and its index returned. */
  function AddDataProvider(g: Graph, provider: Option<Provider>, color: Rgb, scale: real)
    : (r: (Graph, int, bool))
    requires g.valueCount >= 1
    ensures provider.None? ==> r == (g, -1, false)
    ensures provider.Some? ==>
      0 <= r.1 < |r.0.infos| && r.0.infos[r.1].provider == provider
      && r.0.infos[r.1].color == color && r.0.infos[r.1].scale == scale
    ensures provider.Some? && r.2 ==>
      |r.0.infos| == |g.infos| && forall j | 0 <= j < |g.infos| && j != r.1 :: r.0.infos[j] == g.infos[j]
    ensures provider.Some? && !r.2 ==>
      |r.0.infos| == |g.infos| + 1 && r.0.infos[..|g.infos|] == g.infos && r.1 == |g.infos|
    ensures r.2 <==> provider.Some? && exists j | 0 <= j < |g.infos| :: g.infos[j].provider == provider
    ensures r.2 ==> 0 <= r.1 < |g.infos| && r.0.infos[r.1] == g.infos[r.1].(color := color, scale := scale)
    ensures provider.Some? && !r.2 ==> r.0.infos[r.1] == NewDataInfo(g.valueCount, provider.value, color, scale)
    ensures r.0.(infos := g.infos) == g
  {
    if provider.None? then (g, -1, false)
    else
      var providers := seq(|g.infos|, j requires 0 <= j < |g.infos| => g.infos[j].provider);
      match IndexOf(providers, provider)
      case Some(i) =>
        var d := g.infos[i].(color := color, scale := scale);
        (g.(infos := g.infos[i := d]), i, true)
      case None =>
        assert forall j | 0 <= j < |g.infos| :: g.infos[j].provider != provider by {
          forall j | 0 <= j < |g.infos| ensures g.infos[j].provider != provider {
            assert providers[j] == g.infos[j].provider;
          }
        }
        var d := NewDataInfo(g.valueCount, provider.value, color, scale);
        (g.(infos := g.infos + [d]), |g.infos|, false)
  }

  /** Adding a provider that is already shown again changes no index. */
  lemma {:induction false} AddDataProviderTwice(g: Graph, p: Provider, c1: Rgb, s1: real, c2: Rgb, s2: real)
    requires g.valueCount >= 1
    ensures var (g1, i1, _) := AddDataProvider(g, Some(p), c1, s1);
      var (g2, i2, u2) := AddDataProvider(g1, Some(p), c2, s2);
      u2 && i2 == i1 && |g2.infos| == |g1.infos|
  {
    var (g1, i1, u1) := AddDataProvider(g, Some(p), c1, s1);
    var (g2, i2, u2) := AddDataProvider(g1, Some(p), c2, s2);
    assert g1.infos[i1].provider == Some(p);
    var providers := seq(|g1.infos|, j requires 0 <= j < |g1.infos| => g1.infos[j].provider);
    assert providers[i1] == Some(p);
    assert forall j | 0 <= j < i1 :: g1.infos[j].provider != Some(p) by {
      forall j | 0 <= j < i1 ensures g1.infos[j].provider != Some(p) {
        assert g1.infos[j] == g.infos[j];
        if u1 {
          var oldProviders := seq(|g.infos|, j requires 0 <= j < |g.infos| => g.infos[j].provider);
          assert IndexOf(oldProviders, Some(p)) == Some(i1);
          assert oldProviders[j] == g.infos[j].provider;
        }
      }
    }
    assert IndexOf(providers, Some(p)) == Some(i1) by {
      forall j | 0 <= j < i1 ensures providers[j] != Some(p) {
        assert providers[j] == g1.infos[j].provider;
      }
    }
  }

  function Pow2(k: nat): (p: nat)
    ensures p >= 1
  {
    if k == 0 then 1 else 2 * Pow2(k - 1)
  }

  /** The doubling loop of `Pulse`: the maximum is doubled until the
      current maximum sample no longer exceeds it. */
  function DoubleUntil(maxValue: int, cur: real): (r: int)
    requires maxValue >= 1
    ensures cur <= r as real
    ensures exists k: nat :: r == maxValue * Pow2(k)
    ensures r == maxValue || cur > (r / 2) as real
    decreases if cur > maxValue as real then (cur - maxValue as real).Floor + 1 else 0
  {
    if cur > maxValue as real then
      DoublingShrinks(maxValue, cur);
      var r := DoubleUntil(2 * maxValue, cur);
      var k: nat :| r == 2 * maxValue * Pow2(k);
      DoublePow2(maxValue, k);
      r
    else
      assert maxValue == maxValue * Pow2(0);
      maxValue
  }

  lemma {:induction false} DoublePow2(m: int, k: nat)
    ensures 2 * m * Pow2(k) == m * Pow2(k + 1)
  {
  }

  /** Each doubling brings the maximum closer to a sample above it. */
  lemma {:induction false} DoublingShrinks(maxValue: int, cur: real)
    requires maxValue >= 1 && cur > maxValue as real
    ensures (if cur > (2 * maxValue) as real then (cur - (2 * maxValue) as real).Floor + 1 else 0)
      < (cur - maxValue as real).Floor + 1
  {
    assert (cur - (2 * maxValue) as real) <= (cur - maxValue as real) - 1.0;
  }

  /** The halving loop of `Pulse`: the maximum is halved while ten times the
      current maximum sample stays below it; a maximum that reaches 0 becomes 1. */
  function HalveWhile(maxValue: int, cur: real): (r: int)
    requires maxValue >= 0 && cur >= 0.0
    ensures 1 <= r
    ensures r <= maxValue || r == 1
    ensures cur * 10.0 >= r as real || r == 1
    decreases maxValue
  {
    if cur * 10.0 < maxValue as real && maxValue >= 1 then HalveWhile(maxValue / 2, cur)
    else if maxValue <= 0 then 1
    else maxValue
  }

  /** The scaling step of `Pulse`, from the largest scaled maximum `cur` of
      the counters: the new maximum value, and whether the view is
      redrawn entirely. The source relies on the maximum value being positive
      for the doubling to end. */
  function AutoScale(maxValue: int, autoScale: bool, cur: real): (r: (int, bool))
    requires maxValue >= 1 && cur >= 0.0
    ensures r.0 >= 1
    ensures !autoScale ==> r == (maxValue, false)
    ensures autoScale ==> cur <= r.0 as real || cur * 10.0 >= maxValue as real
    ensures autoScale && cur > maxValue as real ==> cur <= r.0 as real && r.1
    ensures autoScale && cur != 0.0 && cur <= maxValue as real ==>
      (r.1 <==> cur * 10.0 < maxValue as real)
    ensures autoScale && cur <= maxValue as real ==> r.0 <= maxValue
    ensures (autoScale && cur <= maxValue as real && (cur == 0.0 || cur * 10.0 >= maxValue as real)) ==>
      r == (maxValue, false)
  {
    if autoScale && cur > maxValue as real then (DoubleUntil(maxValue, cur), true)
    else if autoScale && cur != 0.0 && cur * 10.0 < maxValue as real then
      HalveWhileBound(maxValue, cur);
      (HalveWhile(maxValue, cur), true)
    else (maxValue, false)
  }

  /** After scaling, the largest sample fits and the axis is at most
      twenty times the sample. */
  lemma {:induction false} AutoScaleFits(maxValue: int, cur: real)
    requires maxValue >= 1 && cur > 0.0
    ensures var m := AutoScale(maxValue, true, cur).0;
      cur <= m as real && (m as real <= 20.0 * cur || m == 1 || m == maxValue)
  {
    var m := AutoScale(maxValue, true, cur).0;
    if cur > maxValue as real {
      assert m == maxValue || cur > (m / 2) as real;
      assert (m / 2) as real * 2.0 >= m as real - 1.0;
    } else if cur * 10.0 < maxValue as real {
      HalveWhileBound(maxValue, cur);
    }
  }

  /** The halving stops before the axis drops below the sample. */
  lemma {:induction false} HalveWhileBound(maxValue: int, cur: real)
    requires maxValue >= 1 && cur > 0.0 && cur <= maxValue as real
    ensures cur <= HalveWhile(maxValue, cur) as real
    ensures var r := HalveWhile(maxValue, cur);
      r as real <= 20.0 * cur || r == 1 || r == maxValue
    decreases maxValue
  {
    if cur * 10.0 < maxValue as real {
      var h := maxValue / 2;
      if h >= 1 {
        assert cur <= h as real;
        HalveWhileBound(h, cur);
        var r := HalveWhile(h, cur);
        if r == h && h >= 2 {
          HalveWhileStops(h, cur);
        }
      }
    }
  }

  /** The halving leaves a maximum of 2 or more unchanged only when ten
      times the sample already reaches it. */
  lemma {:induction false} HalveWhileStops(maxValue: int, cur: real)
    requires maxValue >= 2 && cur >= 0.0
    requires HalveWhile(maxValue, cur) == maxValue
    ensures cur * 10.0 >= maxValue as real
  {
    if cur * 10.0 < maxValue as real {
      assert false;
    }
  }

  /** The grid scrolls one step per pulse and wraps at the grid spacing. */
  function NextGridOffset(gridOffset: int, gridSpace: int): (r: int)
    ensures gridOffset + 1 < gridSpace ==> r == gridOffset + 1
    ensures gridOffset + 1 >= gridSpace ==> r == 0
    ensures gridSpace >= 1 && gridOffset >= -1 ==> 0 <= r < gridSpace
  {
    if gridOffset + 1 >= gridSpace then 0 else gridOffset + 1
  }

  /** The maximum of a counter in the units of the axis. */
  function ScaledMax(d: DataInfo): real {
    d.max * d.scale
  }

  /** The largest scaled maximum over the counters, at least 0: either 0 or
      the scaled maximum of one of them. */
  function CurrentMax(infos: seq<DataInfo>): (m: real)
    ensures m >= 0.0
    ensures forall j | 0 <= j < |infos| :: ScaledMax(infos[j]) <= m
    ensures m == 0.0 || exists j | 0 <= j < |infos| :: m == ScaledMax(infos[j])
  {
    if |infos| == 0 then 0.0
    else
      var last := |infos| - 1;
      var rest := CurrentMax(infos[..last]);
      assert forall j | 0 <= j < last :: infos[..last][j] == infos[j];
      Max2(ScaledMax(infos[last]), rest)
  }

  predicate ValidGraph(g: Graph) {
    g.maxValue >= 1 && forall j | 0 <= j < |g.infos| :: Valid(g.infos[j])
  }

  /** `Pulse`: every counter takes its next sample (`samples[j]` for counter
      `j`), the axis is rescaled, and the grid moves on. */
  function Pulse(g: Graph, samples: seq<Option<real>>, pulseRate: real): (r: (Graph, bool))
    requires ValidGraph(g) && |samples| == |g.infos| && pulseRate != 0.0
    ensures ValidGraph(r.0) && |r.0.infos| == |g.infos|
    ensures forall j | 0 <= j < |g.infos| :: r.0.infos[j] == Update(g.infos[j], samples[j], pulseRate)
    ensures g.autoScale ==>
      CurrentMax(r.0.infos) <= r.0.maxValue as real || CurrentMax(r.0.infos) * 10.0 >= g.maxValue as real
    ensures r.0.gridOffset == NextGridOffset(g.gridOffset, g.gridSpace)
    ensures (r.0.maxValue, r.1) == AutoScale(g.maxValue, g.autoScale, CurrentMax(r.0.infos))
    ensures r.0.(infos := g.infos, maxValue := g.maxValue, gridOffset := g.gridOffset) == g
  {
    var infos := seq(|g.infos|, j requires 0 <= j < |g.infos| => Update(g.infos[j], samples[j], pulseRate));
    var (m, redraw) := AutoScale(g.maxValue, g.autoScale, CurrentMax(infos));
    (g.(infos := infos, maxValue := m, gridOffset := NextGridOffset(g.gridOffset, g.gridSpace)), redraw)
  }

  // ---- scripting properties ----

  /** `PointDistance` and `GridSpace`: a missing "data" field leaves the value
      and reports the lookup error; zero and negative values are refused. */
  function SetPositiveProperty(current: int, data: Option<int>): (r: (int, Status))
    ensures data.None? ==> r == (current, NameNotFound)
    ensures data.Some? && data.value <= 0 ==> r == (current, BadValue)
    ensures data.Some? && data.value > 0 ==> r == (data.value, Ok)
    ensures current > 0 ==> r.0 > 0
  {
    match data
    case None => (current, NameNotFound)
    case Some(v) => if v <= 0 then (current, BadValue) else (v, Ok)
  }

  /** `MaxValue`: the float is rounded by adding 0.5 and truncating; a
      result of 0, which would make the drawing divide by zero, is refused. */
  function SetMaxValueProperty(current: int, data: Option<real>): (r: (int, Status))
    ensures data.None? ==> r == (current, NameNotFound)
    ensures data.Some? ==> (r.1 == BadValue <==> -1.5 < data.value < 0.5)
    ensures r.1 == BadValue ==> r.0 == current
    ensures data.Some? && r.1 == Ok ==> r.0 as real - 0.5 <= data.value < r.0 as real + 0.5 || r.0 < 0
    ensures current != 0 ==> r.0 != 0
  {
    match data
    case None => (current, NameNotFound)
    case Some(v) =>
      var m := TruncReal(v + 0.5);
      if m == 0 then (current, BadValue) else (m, Ok)
  }

  /** `MaxValue` with every result below 1 refused, so that the axis stays
      positive and the doubling in `Pulse` ends. */
  function SetMaxValuePropertyFixed(current: int, data: Option<real>): (r: (int, Status))
    ensures data.None? ==> r == (current, NameNotFound)
    ensures data.Some? ==> (r.1 == BadValue <==> data.value < 0.5)
    ensures r.1 == BadValue ==> r.0 == current
    ensures data.Some? && r.1 == Ok ==> r.0 >= 1 && r.0 as real - 0.5 <= data.value < r.0 as real + 0.5
    ensures current >= 1 ==> r.0 >= 1
  {
    match data
    case None => (current, NameNotFound)
    case Some(v) =>
      var m := TruncReal(v + 0.5);
      if m < 1 then (current, BadValue) else (m, Ok)
  }

  /** Writing back what a get of `PointDistance` or `GridSpace` returned,
      always a positive value, is accepted and changes nothing; and writing
      the same data twice is the same as writing it once. */
  lemma {:induction false} SetPositivePropertyRoundTrip(current: int, v: int, data: Option<int>)
    requires current > 0
    ensures SetPositiveProperty(current, Some(current)) == (current, Ok)
    ensures SetPositiveProperty(SetPositiveProperty(v, data).0, data).0 == SetPositiveProperty(v, data).0
  {
  }

  /** A get of `MaxValue` returns the maximum as a float; writing back a
      positive maximum is accepted and changes nothing, in both versions. */
  lemma {:induction false} SetMaxValuePropertyRoundTrip(current: int, m: int)
    requires m >= 1
    ensures SetMaxValueProperty(current, Some(m as real)) == (m, Ok)
    ensures SetMaxValuePropertyFixed(current, Some(m as real)) == (m, Ok)
  {
    assert TruncReal(m as real + 0.5) == m;
  }

  /** The two versions agree on every value they both accept as at least 1. */
  lemma {:induction false} SetMaxValuePropertyAgrees(current: int, data: Option<real>)
    requires data.Some? && data.value >= 0.5
    ensures SetMaxValueProperty(current, data) == SetMaxValuePropertyFixed(current, data)
  {
  }

  /** As written, a maximum of -1.6 is rounded to -1 and accepted. */
  lemma {:induction false} SetMaxValueAcceptsNegative()
    ensures SetMaxValueProperty(1, Some(-1.6)) == (-1, Ok)
  {
    assert TruncReal(-1.1) == -1;
  }

  /** Doubling a negative maximum never makes it positive. */
  lemma {:induction false} DoublingStaysNegative(maxValue: int, k: nat)
    requires maxValue <= -1
    ensures maxValue * Pow2(k) <= -1
    decreases k
  {
    if k > 0 {
      DoublingStaysNegative(maxValue, k - 1);
      DoublePow2(maxValue, k - 1);
    }
  }

  /** As written, once the maximum is negative the doubling loop of `Pulse`
      never ends: the largest scaled sample is never negative, so after any
      number `k` of doublings it still exceeds the maximum and the loop
      doubles again. */
  lemma {:induction false} PulseDoublingNeverEnds(maxValue: int, cur: real, k: nat)
    requires maxValue <= -1 && cur >= 0.0
    ensures cur > (maxValue * Pow2(k)) as real
  {
    DoublingStaysNegative(maxValue, k);
  }

  /** The corrected setter keeps the graph valid, so `Pulse` stays callable. */
  lemma {:induction false} SetMaxValuePropertyFixedKeepsValid(g: Graph, data: Option<real>)
    requires ValidGraph(g)
    ensures ValidGraph(g.(maxValue := SetMaxValuePropertyFixed(g.maxValue, data).0))
  {
  }

  // ---- GetNextDataInfoIndex ----

  /** The specifier forms a script can address counters with. */
  datatype SpecifierKind = IndexSpecifier | ReverseIndexSpecifier | RangeSpecifier | ReverseRangeSpecifier | OtherSpecifier

  /** A specifier and its "index" and "range" fields, absent when missing. */
  datatype Specifier = Specifier(kind: SpecifierKind, index: Option<int>, range: Option<int>)

  /** One step of the iterator: whether there is a counter to visit, its
      index, the new cookie, and the status. `current` is the caller's index
      variable, which keeps its value when the "index" field is missing. */
  datatype Step = Step(more: bool, index: int, cookie: int, result: Status)

  function FieldStatus(f: Option<int>): Status { if f.Some? then Ok else NameNotFound }

  function GetNextDataInfoIndex(spec: Specifier, count: int, current: int, cookie: int): (s: Step)
    ensures spec.kind == OtherSpecifier ==> !s.more && s.result == BadValue
    ensures spec.kind == IndexSpecifier ==>
      s.more == (cookie == 0) && s.cookie == cookie + 1
      && (spec.index.Some? ==> s.index == spec.index.value && s.result == Ok)
    ensures spec.kind == ReverseIndexSpecifier ==>
      s.more == (cookie == 0) && s.cookie == cookie + 1
      && (spec.index.Some? ==> s.index == count - spec.index.value - 1 && s.result == Ok)
    ensures spec.kind == RangeSpecifier && s.more ==>
      spec.index.Some? && spec.range.Some? && cookie < spec.range.value
      && s.index == spec.index.value + cookie && s.cookie == cookie + 1 && s.result == Ok
    ensures spec.kind == ReverseRangeSpecifier && s.more ==>
      spec.index.Some? && spec.range.Some? && cookie < spec.range.value
      && s.index == count - spec.index.value - 1 - cookie && s.cookie == cookie + 1 && s.result == Ok
    ensures spec.kind in {RangeSpecifier, ReverseRangeSpecifier} && !s.more ==>
      s.cookie == cookie && (s.result == Ok <==> spec.index.Some? && spec.range.Some?)
  {
    match spec.kind
    case IndexSpecifier =>
      var i := if spec.index.Some? then spec.index.value else current;
      Step(cookie == 0, i, cookie + 1, FieldStatus(spec.index))
    case ReverseIndexSpecifier =>
      var i := if spec.index.Some? then spec.index.value else current;
      Step(cookie == 0, count - i - 1, cookie + 1, FieldStatus(spec.index))
    case RangeSpecifier =>
      if spec.index.None? then Step(false, current, cookie, NameNotFound)
      else if spec.range.None? then Step(false, spec.index.value, cookie, NameNotFound)
      else if cookie < spec.range.value then Step(true, spec.index.value + cookie, cookie + 1, Ok)
      else Step(false, spec.index.value, cookie, Ok)
    case ReverseRangeSpecifier =>
      var base := if spec.index.Some? then count - spec.index.value - 1 else current;
      if spec.index.None? then Step(false, current, cookie, NameNotFound)
      else if spec.range.None? then Step(false, base, cookie, NameNotFound)
      else if cookie < spec.range.value then Step(true, base - cookie, cookie + 1, Ok)
      else Step(false, base, cookie, Ok)
    case OtherSpecifier => Step(false, current, cookie, BadValue)
  }

  /** The counter indices a specifier addresses, in visiting order.
      `initial` is the value of the caller's uninitialised index variable,
      which an index specifier without an "index" field leaves in place. A
      range without both fields, and any other specifier, address nothing. */
  function Addressed(spec: Specifier, count: int, initial: int): (r: seq<int>)
    ensures spec.kind in {IndexSpecifier, ReverseIndexSpecifier} ==> |r| == 1
    ensures spec.kind == OtherSpecifier ==> r == []
    ensures spec.kind in {RangeSpecifier, ReverseRangeSpecifier} && (spec.index.None? || spec.range.None?) ==> r == []
  {
    var i := if spec.index.Some? then spec.index.value else initial;
    match spec.kind
    case IndexSpecifier => [i]
    case ReverseIndexSpecifier => [count - i - 1]
    case RangeSpecifier =>
      if spec.index.None? || spec.range.None? then []
      else seq(Max(spec.range.value, 0), k => spec.index.value + k)
    case ReverseRangeSpecifier =>
      if spec.index.None? || spec.range.None? then []
      else seq(Max(spec.range.value, 0), k => count - spec.index.value - 1 - k)
    case OtherSpecifier => []
  }

  /** The status the iterator leaves when it runs out: B_BAD_VALUE for an
      unknown specifier, B_NAME_NOT_FOUND for a missing field, otherwise B_OK. */
  function EndStatus(spec: Specifier): Status {
    match spec.kind
    case OtherSpecifier => BadValue
    case IndexSpecifier => FieldStatus(spec.index)
    case ReverseIndexSpecifier => FieldStatus(spec.index)
    case _ => if spec.index.Some? && spec.range.Some? then Ok else NameNotFound
  }

  /** A specifier with every field its kind reads. */
  predicate Complete(spec: Specifier) {
    spec.kind != OtherSpecifier && spec.index.Some?
    && (spec.kind in {RangeSpecifier, ReverseRangeSpecifier} ==> spec.range.Some?)
  }

  /** The iteration of `GetProperty` over the addressed counters: it visits
      the indices the iterator yields and stops with `BadIndex` at the first
      one that names no counter; otherwise it ends with the iterator's last
      status. `initial` is the uninitialised `dataInfoIndex` of the caller. */
  method VisitDataInfos(spec: Specifier, count: nat, initial: int) returns (visited: seq<int>, result: Status)
    ensures forall j | 0 <= j < |visited| :: 0 <= visited[j] < count
    ensures var a := Addressed(spec, count, initial);
      |visited| <= |a| && visited == a[..|visited|]
    ensures var a := Addressed(spec, count, initial);
      (result != BadIndex <==> visited == a) && (result == BadIndex <==> |visited| < |a|)
    ensures result != BadIndex ==> result == EndStatus(spec)
    ensures Complete(spec) ==> (result == Ok <==> visited == Addressed(spec, count, initial))
    ensures result == BadIndex ==> var a := Addressed(spec, count, initial);
      !(0 <= a[|visited|] < count)
    ensures spec.kind == OtherSpecifier ==> visited == [] && result == BadValue
    ensures spec.kind in {RangeSpecifier, ReverseRangeSpecifier} && (spec.index.None? || spec.range.None?) ==>
      visited == [] && result == NameNotFound
  {
    var a := Addressed(spec, count, initial);
    var cookie := 0;
    var current := initial;
    visited := [];
    var s := GetNextDataInfoIndex(spec, count, current, cookie);
    while s.more
      invariant 0 <= cookie <= |a|
      invariant cookie == 0 ==> current == initial
      invariant s == GetNextDataInfoIndex(spec, count, current, cookie)
      invariant visited == a[..cookie]
      invariant forall j | 0 <= j < |visited| :: 0 <= visited[j] < count
      invariant s.more ==> cookie < |a| && s.index == a[cookie]
      invariant !s.more ==> cookie == |a| && s.result == EndStatus(spec)
      decreases |a| - cookie
    {
      if !(0 <= s.index < count) {
        result := BadIndex;
        return;
      }
      visited := visited + [s.index];
      cookie := s.cookie;
      current := s.index;
      s := GetNextDataInfoIndex(spec, count, current, cookie);
    }
    result := s.result;
  }
}

=== FILE: localization.dfy ===
/** `LocalizationHelper`: trimming and substitution over strings, the
    "\N" placeholders of `CLocalizedString`, and the `key = value` language file. */
module Localization {
  import opened Common

  // ---- trim ----

  predicate IsBlank(c: char) { c == ' ' || c == '\t' }

  predicate AllBlank(s: string) { forall k | 0 <= k < |s| :: IsBlank(s[k]) }

  /** `find_first_not_of(" \t")`. */
  function FirstNonBlank(s: string): (r: Option<nat>)
    ensures r.None? <==> AllBlank(s)
    ensures r.Some? ==> r.value < |s| && !IsBlank(s[r.value])
    ensures r.Some? ==> forall k | 0 <= k < r.value :: IsBlank(s[k])
  {
    if |s| == 0 then None
    else if !IsBlank(s[0]) then Some(0)
    else match FirstNonBlank(s[1..])
      case None => None
      case Some(k) => Some(k + 1)
  }

  /** `find_last_not_of(" \t")`. */
  function LastNonBlank(s: string): (r: Option<nat>)
    ensures r.None? <==> AllBlank(s)
    ensures r.Some? ==> r.value < |s| && !IsBlank(s[r.value])
    ensures r.Some? ==> forall k | r.value < k < |s| :: IsBlank(s[k])
  {
    if |s| == 0 then None
    else if !IsBlank(s[|s| - 1]) then Some(|s| - 1)
    else match LastNonBlank(s[..|s| - 1])
      case None => None
      case Some(k) => Some(k)
  }

  /** `trim` as written: `substr(i1, i2 + 1)` takes `i2 + 1` characters from
      `i1`, where `i2 + 1` was meant as the end position. */
  function TrimAsWritten(s: string): (r: string)
    ensures AllBlank(s) ==> r == []
    ensures !AllBlank(s) && !IsBlank(s[0]) ==> r == Trim(s)
    ensures exists a, b | 0 <= a <= b <= |s| :: r == s[a..b] && AllBlank(s[..a])
  {
    match FirstNonBlank(s)
    case None =>
      assert s[0..0] == [] && AllBlank(s[..0]);
      []
    case Some(i1) =>
      var i2 := LastNonBlank(s).value;
      s[i1..Min(|s|, i1 + i2 + 1)]
  }

  /** `trim`: `s` without its leading and trailing spaces and tabs. */
  function Trim(s: string): (r: string)
    ensures AllBlank(s) ==> r == []
    ensures |r| > 0 ==> !IsBlank(r[0]) && !IsBlank(r[|r| - 1])
    ensures exists a, b | 0 <= a <= b <= |s| :: r == s[a..b] && AllBlank(s[..a]) && AllBlank(s[b..])
  {
    match FirstNonBlank(s)
    case None =>
      assert s[0..0] == [] && AllBlank(s[..0]) && AllBlank(s[0..]);
      []
    case Some(i1) =>
      var i2 := LastNonBlank(s).value;
      assert AllBlank(s[..i1]) && AllBlank(s[i2 + 1..]);
      s[i1..i2 + 1]
  }

  /** With leading blanks `trim` keeps trailing blanks: "  a  " becomes "a  ". */
  lemma {:induction false} TrimAsWrittenKeepsTrailingBlanks()
    ensures TrimAsWritten("  a  ") == "a  "
    ensures Trim("  a  ") == "a"
  {
    assert FirstNonBlank("  a  ") == Some(2);
    assert LastNonBlank("  a  ") == Some(2);
  }

  /** Trimming twice changes nothing more. */
  lemma {:induction false} TrimIdempotent(s: string)
    ensures Trim(Trim(s)) == Trim(s)
  {
    var t := Trim(s);
    if |t| > 0 {
      assert FirstNonBlank(t) == Some(0);
      assert LastNonBlank(t) == Some(|t| - 1);
      assert t[0..|t|] == t;
    }
  }

  // ---- replace ----

  /** `replace(s, t1, t2)`: occurrences of `t1` replaced by `t2` from left to
      right; the search resumes after the inserted text, so that text is
      never searched again. An empty `t1` would never advance, so the source
      needs it non-empty. */
  function ReplaceAll(s: string, t1: string, t2: string): (r: string)
    requires |t1| > 0
    decreases |s|
  {
    match FindFrom(s, t1, 0)
    case None => s
    case Some(k) => s[..k] + t2 + ReplaceAll(s[k + |t1|..], t1, t2)
  }

  function Shifted(o: Option<nat>, d: nat): Option<nat>
  {
    match o
    case None => None
    case Some(k) => Some(k + d)
  }

  /** Searching `d + u` from inside `u` is searching `u`. */
  lemma {:induction false} FindFromSuffix(d: string, u: string, p: string, j: nat)
    ensures FindFrom(d + u, p, |d| + j) == Shifted(FindFrom(u, p, j), |d|)
    decreases |u| - j
  {
    if |d| + j + |p| <= |d + u| {
      assert (d + u)[|d| + j..|d| + j + |p|] == u[j..j + |p|];
      FindFromSuffix(d, u, p, j + 1);
    }
  }

  /** One replacement of `replace`, read off its recursion. */
  lemma {:induction false} ReplaceAllUnfold(rest: string, t1: string, t2: string, m: nat)
    requires |t1| > 0
    requires FindFrom(rest, t1, 0) == Some(m)
    ensures m + |t1| <= |rest|
    ensures ReplaceAll(rest, t1, t2) == rest[..m] + t2 + ReplaceAll(rest[m + |t1|..], t1, t2)
  {
  }

  lemma {:induction false} ConcatAssoc4(a: string, b: string, c: string, d: string)
    ensures a + (b + c + d) == (a + b + c) + d
  {
  }

  lemma {:induction false} SliceOfConcat(a: string, b: string, m: nat, n: nat)
    requires m <= n <= |b|
    ensures (a + b)[..|a| + m] == a + b[..m]
    ensures (a + b)[|a| + n..] == b[n..]
  {
  }

  /** One round of the loop of `replace`, on the unprocessed part `rest`
      behind the processed part `done`. */
  lemma {:induction false} ReplaceStep(done: string, rest: string, t1: string, t2: string, m: nat)
    requires |t1| > 0
    requires FindFrom(rest, t1, 0) == Some(m)
    ensures m + |t1| <= |rest|
    ensures done + ReplaceAll(rest, t1, t2)
      == (done + rest[..m] + t2) + ReplaceAll(rest[m + |t1|..], t1, t2)
    ensures (done + rest)[..|done| + m] + t2 + (done + rest)[|done| + m + |t1|..]
      == (done + rest[..m] + t2) + rest[m + |t1|..]
  {
    ReplaceAllUnfold(rest, t1, t2, m);
    ConcatAssoc4(done, rest[..m], t2, ReplaceAll(rest[m + |t1|..], t1, t2));
    SliceOfConcat(done, rest, m, m + |t1|);
  }

  /** Cutting `n` characters at `k` out of `r` and putting `t` there. */
  lemma {:induction false} SpliceSlices(r: string, i: nat, k: nat, n: nat, t: string)
    requires i <= k && k + n <= |r|
    ensures var r' := r[..k] + t + r[k + n..];
      |r'| == |r| - n + |t|
      && r'[..k + |t|] == r[..i] + r[i..][..k - i] + t
      && r'[k + |t|..] == r[i..][k - i + n..]
  {
  }

  /** The search of a round of the loop of `replace`, read in the part not
      yet searched. */
  lemma {:induction false} LoopSearch(r: string, i: nat, t1: string, k: nat)
    requires i <= |r| && FindFrom(r, t1, i) == Some(k)
    ensures i <= k && k + |t1| <= |r|
    ensures FindFrom(r[i..], t1, 0) == Some(k - i)
  {
    assert r == r[..i] + r[i..];
    FindFromSuffix(r[..i], r[i..], t1, 0);
  }

  /** The text before a splice, followed by what is made of the rest. */
  lemma {:induction false} Reassemble(r: string, i: nat, k: nat, n: nat, t: string, a: string, b: string)
    requires i <= k && k + n <= |r|
    requires r[..i] + a == (r[..i] + r[i..][..k - i] + t) + b
    ensures (r[..k] + t + r[k + n..])[..k + |t|] + b == r[..i] + a
  {
    SpliceSlices(r, i, k, n, t);
  }

  /** A round of the loop of `replace` that finds `t1` at `k`: what is
      left to replace behind the inserted text completes the same result. */
  lemma {:induction false} LoopStep(r: string, i: nat, t1: string, t2: string, k: nat)
    requires |t1| > 0 && i <= k && k + |t1| <= |r|
    requires FindFrom(r[i..], t1, 0) == Some(k - i)
    ensures var r' := r[..k] + t2 + r[k + |t1|..];
      k + |t2| <= |r'| && |r'| - (k + |t2|) < |r| - i
      && r'[..k + |t2|] + ReplaceAll(r'[k + |t2|..], t1, t2) == r[..i] + ReplaceAll(r[i..], t1, t2)
  {
    var rest := r[i..];
    var m := k - i;
    ReplaceStep(r[..i], rest, t1, t2, m);
    SpliceSlices(r, i, k, |t1|, t2);
    var r' := r[..k] + t2 + r[k + |t1|..];
    var a, b := ReplaceAll(rest, t1, t2), ReplaceAll(rest[m + |t1|..], t1, t2);
    Reassemble(r, i, k, |t1|, t2, a, b);
    assert r'[k + |t2|..] == rest[m + |t1|..];
    assert ReplaceAll(r'[k + |t2|..], t1, t2) == b;
  }

  /** The last round of the loop of `replace`: nothing is left to replace. */
  lemma {:induction false} LoopExit(r: string, i: nat, t1: string, t2: string)
    requires |t1| > 0 && i <= |r| && FindFrom(r, t1, i).None?
    ensures r[..i] + ReplaceAll(r[i..], t1, t2) == r
  {
    var done, rest := r[..i], r[i..];
    assert r == done + rest;
    FindFromSuffix(done, rest, t1, 0);
  }

  /** The loop of `replace`, with `std::string::find` and `std::string::replace`. */
  method Replace(s: string, t1: string, t2: string) returns (r: string)
    requires |t1| > 0
    ensures r == ReplaceAll(s, t1, t2)
  {
    r := s;
    var i: nat := 0;
    assert r[..i] == [] && r[i..] == s;
    while true
      invariant i <= |r|
      invariant r[..i] + ReplaceAll(r[i..], t1, t2) == ReplaceAll(s, t1, t2)
      decreases |r| - i
    {
      var found := FindFrom(r, t1, i);
      if found.None? {
        LoopExit(r, i, t1, t2);
        return;
      }
      var k := found.value;
      LoopSearch(r, i, t1, k);
      LoopStep(r, i, t1, t2, k);
      r := r[..k] + t2 + r[k + |t1|..];
      i := k + |t2|;
    }
  }

  /** Inserted text is not searched again: replacing each pair of backslashes
      by one backslash turns four backslashes into two, not one. */
  lemma {:induction false} ReplaceDoesNotRescan()
    ensures ReplaceAll("\\\\\\\\", "\\\\", "\\") == "\\\\"
  {
    assert FindFrom("", "\\\\", 0) == None;
    assert FindFrom("\\\\", "\\\\", 0) == Some(0);
    assert FindFrom("\\\\\\\\", "\\\\", 0) == Some(0);
  }

  /** Replacing a string by itself is the identity. */
  lemma {:induction false} ReplaceSelfIsIdentity(s: string, t: string)
    requires |t| > 0
    ensures ReplaceAll(s, t, t) == s
    decreases |s|
  {
    match FindFrom(s, t, 0)
    case None =>
    case Some(k) =>
      ReplaceSelfIsIdentity(s[k + |t|..], t);
      assert s[..k] + t + s[k + |t|..] == s;
  }

  // ---- CLocalizedString ----

  /** `BString::ReplaceFirst(old, new)`: the first occurrence of `target`
      is replaced; without one the text is unchanged. */
  function ReplaceFirst(s: string, target: string, replacement: string): (r: string)
    ensures !Contains(s, target) ==> r == s
    ensures Contains(s, target) ==>
      exists k | 0 <= k <= |s| - |target| ::
        OccursAt(s, target, k) && (forall j | 0 <= j < k :: !OccursAt(s, target, j))
        && r == s[..k] + replacement + s[k + |target|..]
  {
    match FindFrom(s, target, 0)
    case None => s
    case Some(k) => s[..k] + replacement + s[k + |target|..]
  }

  /** A localized string and the number of the next placeholder to fill. */
  datatype LocalizedString = LocalizedString(text: string, replaceIndex: nat)

  /** The placeholder "\N" for argument number N. */
  function Placeholder(n: nat): (p: string)
    ensures |p| >= 2 && p[0] == '\\'
    ensures forall k | 1 <= k < |p| :: IsDigit(p[k])
  {
    ['\\'] + NatToString(n)
  }

  /** `operator<<`: fills the first occurrence of the current placeholder with
      `arg` and moves on to the next placeholder number. */
  function Shift(ls: LocalizedString, arg: string): (r: LocalizedString)
    ensures r.replaceIndex == ls.replaceIndex + 1
  {
    LocalizedString(ReplaceFirst(ls.text, Placeholder(ls.replaceIndex), arg), ls.replaceIndex + 1)
  }

  /** The text changes exactly at the first occurrence of the placeholder,
      and not at all when the placeholder is absent. */
  lemma {:induction false} ShiftFillsFirstPlaceholder(ls: LocalizedString, arg: string)
    ensures !Contains(ls.text, Placeholder(ls.replaceIndex)) ==> Shift(ls, arg).text == ls.text
    ensures Contains(ls.text, Placeholder(ls.replaceIndex)) ==>
      exists k :: OccursAt(ls.text, Placeholder(ls.replaceIndex), k)
        && (forall j | 0 <= j < k :: !OccursAt(ls.text, Placeholder(ls.replaceIndex), j))
        && Shift(ls, arg).text == ls.text[..k] + arg + ls.text[k + |Placeholder(ls.replaceIndex)|..]
  {
    var p := Placeholder(ls.replaceIndex);
    match FindFrom(ls.text, p, 0)
    case None =>
    case Some(k) =>
      assert OccursAt(ls.text, p, k);
  }

  /** A fresh localized string, as the constructor from a key makes it. */
  function FromText(text: string): LocalizedString { LocalizedString(text, 0) }

  /** Filling "\0" and then "\1". */
  lemma {:induction false} ShiftFillsPlaceholdersInOrder()
    ensures Shift(Shift(FromText("x\\0y\\1"), "A"), "B").text == "xAyB"
  {
    ShiftFirstExample("x\\0y\\1");
    ShiftSecondExample();
  }

  /** The first step of `ShiftFillsPlaceholdersInOrder`, for the text `t`
      of that example. */
  lemma {:induction false} ShiftFirstExample(t: string)
    requires t == "x\\0y\\1"
    ensures Shift(FromText(t), "A") == LocalizedString("xAy\\1", 1)
  {
    FirstPlaceholderAt(t);
    ShiftAtFound(FromText(t), "A", 1);
    assert t[..1] + "A" + t[3..] == "xAy\\1";
  }

  /** The placeholder "\0" of the example text is found at 1. */
  lemma {:induction false} FirstPlaceholderAt(t: string)
    requires t == "x\\0y\\1"
    ensures FindFrom(t, Placeholder(0), 0) == Some(1)
  {
    assert Placeholder(0) == "\\0" by { assert NatToString(0) == "0"; }
    assert t[0..2][0] == 'x';
    assert t[1..3] == "\\0";
  }

  /** Where the placeholder is found, `Shift` puts the argument in its place. */
  lemma {:induction false} ShiftAtFound(ls: LocalizedString, arg: string, k: nat)
    requires FindFrom(ls.text, Placeholder(ls.replaceIndex), 0) == Some(k)
    ensures k + |Placeholder(ls.replaceIndex)| <= |ls.text|
    ensures Shift(ls, arg) == LocalizedString(ls.text[..k] + arg + ls.text[k + |Placeholder(ls.replaceIndex)|..], ls.replaceIndex + 1)
  {
  }

  lemma {:induction false} ShiftSecondExample()
    ensures Shift(LocalizedString("xAy\\1", 1), "B").text == "xAyB"
  {
    var s1 := "xAy\\1";
    assert Placeholder(1) == "\\1" by { assert NatToString(1) == "1"; }
    assert FindFrom(s1, "\\1", 0) == Some(3) by {
      assert s1[0..2][0] == 'x';
      assert s1[1..3][0] == 'A';
      assert s1[2..4][0] == 'y';
      assert s1[3..5] == "\\1";
    }
    assert s1[..3] == "xAy" && s1[5..] == "";
  }

  // ---- the language file ----

  /** The three escape sequences a value may hold, replaced in this order. */
  function UnescapeValue(v: string): string
  {
    ReplaceAll(ReplaceAll(ReplaceAll(v, "\\n", "\n"), "\\t", "\t"), "\\\\", "\\")
  }

  /** No '=' survives in a slice of a line that holds none. */
  lemma {:induction false} NoEqualsInSlice(s: string, a: nat, b: nat)
    requires a <= b <= |s| && '=' !in s
    ensures '=' !in s[a..b]
  {
  }

  /** One line of a language file as `Load` reads it: ignored without '=';
      otherwise split at the first '=' into a key and a value, each cut by
      `trim` as written, and the value unescaped. */
  function ParseLineAsWritten(line: string): (r: Option<(string, string)>)
    ensures r.None? <==> '=' !in line
    ensures r.Some? ==> '=' !in r.value.0
    ensures r.Some? ==>
      (exists i | 0 <= i < |line| ::
        line[i] == '=' && '=' !in line[..i] &&
        r.value.0 == TrimAsWritten(line[..i]) && r.value.1 == UnescapeValue(TrimAsWritten(line[i + 1..])))
  {
    match IndexOf(line, '=')
    case None => None
    case Some(i) =>
      var key := TrimAsWritten(line[..i]);
      assert '=' !in line[..i];
      var a, b :| 0 <= a <= b <= i && key == line[..i][a..b] && AllBlank(line[..i][..a]);
      NoEqualsInSlice(line[..i], a, b);
      Some((key, UnescapeValue(TrimAsWritten(line[i + 1..]))))
  }

  /** The same split with the key and the value trimmed at both ends. */
  function ParseLine(line: string): (r: Option<(string, string)>)
    ensures r.None? <==> '=' !in line
    ensures r.Some? ==> '=' !in r.value.0
    ensures r.Some? ==>
      (exists i | 0 <= i < |line| ::
        line[i] == '=' && '=' !in line[..i] &&
        r.value.0 == Trim(line[..i]) && r.value.1 == UnescapeValue(Trim(line[i + 1..])))
  {
    match IndexOf(line, '=')
    case None => None
    case Some(i) =>
      var key := Trim(line[..i]);
      assert '=' !in line[..i];
      assert '=' !in key;
      Some((key, UnescapeValue(Trim(line[i + 1..]))))
  }

  /** As written, a key typed with a blank before it keeps the blanks after
      it: the line " k =v" sets the key "k " instead of "k". */
  lemma {:induction false} ParseLineAsWrittenKeepsBlanks()
    ensures ParseLineAsWritten(" k =v") == Some(("k ", "v"))
    ensures ParseLine(" k =v") == Some(("k", "v"))
  {
    var line := " k =v";
    assert IndexOf(line, '=') == Some(3) by {
      assert line[3] == '=' && line[0] != '=' && line[1] != '=' && line[2] != '=';
    }
    assert line[..3] == " k " && line[4..] == "v";
    TrimExamples();
    UnescapePlain();
    ParseLinesAt(line, 3);
  }

  /** Both parses of a line whose first '=' is at `i`. */
  lemma {:induction false} ParseLinesAt(line: string, i: nat)
    requires IndexOf(line, '=') == Some(i)
    ensures ParseLineAsWritten(line) == Some((TrimAsWritten(line[..i]), UnescapeValue(TrimAsWritten(line[i + 1..]))))
    ensures ParseLine(line) == Some((Trim(line[..i]), UnescapeValue(Trim(line[i + 1..]))))
  {
  }

  lemma {:induction false} TrimExamples()
    ensures TrimAsWritten(" k ") == "k " && Trim(" k ") == "k"
    ensures TrimAsWritten("v") == "v" && Trim("v") == "v"
  {
    assert FirstNonBlank(" k ") == Some(1) by { assert FirstNonBlank(" k "[1..]) == Some(0); }
    assert LastNonBlank(" k ") == Some(1) by { assert " k "[..2] == " k"; }
    assert FirstNonBlank("v") == Some(0);
    assert LastNonBlank("v") == Some(0);
    assert " k "[1..2] == "k";
    assert " k "[1..3] == "k ";
    assert "v"[0..1] == "v";
  }

  lemma {:induction false} UnescapePlain()
    ensures UnescapeValue("v") == "v"
  {
    assert FindFrom("v", "\\n", 0).None?;
    assert ReplaceAll("v", "\\n", "\n") == "v";
    assert FindFrom("v", "\\t", 0).None?;
    assert ReplaceAll("v", "\\t", "\t") == "v";
    assert FindFrom("v", "\\\\", 0).None?;
  }

  /** `Load`: the map built from the lines of a language file, each line read
      by `parse`; a later line for the same key replaces an earlier one.
      Every key comes from some line, and every key a line sets is there. */
  function LoadWith(lines: seq<string>, parse: string -> Option<(string, string)>): (m: map<string, string>)
    ensures forall k | k in m :: exists i | 0 <= i < |lines| :: parse(lines[i]).Some? && parse(lines[i]).value.0 == k
    ensures forall i | 0 <= i < |lines| && parse(lines[i]).Some? :: parse(lines[i]).value.0 in m
  {
    if |lines| == 0 then map[]
    else
      var m0 := LoadWith(lines[..|lines| - 1], parse);
      var last := lines[|lines| - 1];
      match parse(last)
      case None => m0
      case Some(kv) => m0[kv.0 := kv.1]
  }

  /** `Load` as written, and with the corrected `trim`. */
  function LoadAsWritten(lines: seq<string>): map<string, string> { LoadWith(lines, ParseLineAsWritten) }
  function Load(lines: seq<string>): map<string, string> { LoadWith(lines, ParseLine) }

  /** Line `j` sets `key` and no later line does. */
  predicate LastSetter(lines: seq<string>, parse: string -> Option<(string, string)>, key: string, j: int) {
    0 <= j < |lines| && parse(lines[j]).Some? && parse(lines[j]).value.0 == key
    && forall i | j < i < |lines| :: parse(lines[i]).None? || parse(lines[i]).value.0 != key
  }

  /** The value the last line that sets a key gives it is the one kept. */
  lemma {:induction false} LoadLastSetterWins(lines: seq<string>, parse: string -> Option<(string, string)>, key: string, j: nat)
    requires LastSetter(lines, parse, key, j)
    ensures key in LoadWith(lines, parse) && LoadWith(lines, parse)[key] == parse(lines[j]).value.1
    decreases |lines|
  {
    var front := lines[..|lines| - 1];
    if j < |lines| - 1 {
      assert LastSetter(front, parse, key, j) by {
        forall i | j < i < |front| ensures parse(front[i]).None? || parse(front[i]).value.0 != key {
          assert front[i] == lines[i];
        }
      }
      LoadLastSetterWins(front, parse, key, j);
      assert parse(lines[|lines| - 1]).None? || parse(lines[|lines| - 1]).value.0 != key;
      assert front[j] == lines[j];
    }
  }

  /** Lines without '=' do not change the map, as written or corrected. */
  lemma {:induction false} LoadIgnoresLineWithoutEquals(lines: seq<string>, line: string)
    requires '=' !in line
    ensures LoadAsWritten(lines + [line]) == LoadAsWritten(lines)
    ensures Load(lines + [line]) == Load(lines)
  {
    var all := lines + [line];
    assert all[..|lines|] == lines && all[|all| - 1] == line;
    assert ParseLineAsWritten(line).None? && ParseLine(line).None?;
    assert LoadWith(all, ParseLineAsWritten) == LoadWith(lines, ParseLineAsWritten);
    assert LoadWith(all, ParseLine) == LoadWith(lines, ParseLine);
  }

  /** `String`: the localized text for `key`, or "" for an unknown key. */
  function LookupString(m: map<string, string>, key: string): (r: string)
    ensures key !in m ==> r == ""
    ensures key in m ==> r == m[key]
  {
    if key in m then m[key] else ""
  }

  /** What `String` answers after `Load`: the value of the last line that
      sets the key, and "" when no line sets it. */
  lemma {:induction false} LookupStringMeaning(lines: seq<string>, parse: string -> Option<(string, string)>, key: string)
    ensures (forall i | 0 <= i < |lines| :: parse(lines[i]).None? || parse(lines[i]).value.0 != key) ==>
      LookupString(LoadWith(lines, parse), key) == ""
    ensures forall j | LastSetter(lines, parse, key, j) ::
      LookupString(LoadWith(lines, parse), key) == parse(lines[j]).value.1
  {
    forall j | LastSetter(lines, parse, key, j)
      ensures LookupString(LoadWith(lines, parse), key) == parse(lines[j]).value.1
    {
      LoadLastSetterWins(lines, parse, key, j);
    }
  }
}

=== FILE: mru.dfy ===
/** `CMRUSelectFileView`: the list of most recently used command lines,
    newest first. */
module Mru {
  import opened Common
  import CommandLine

  const MAX_MRU_LIST_ENTRIES: nat := 7

  predicate NoDuplicates<T(==)>(xs: seq<T>) {
    forall a, b | 0 <= a < b < |xs| :: xs[a] != xs[b]
  }

  /** Moves the entry at `i` to the head, keeping the order of the others. */
  function MoveToFront<T>(xs: seq<T>, i: nat): (r: seq<T>)
    requires i < |xs|
    ensures |r| == |xs| && r[0] == xs[i]
    ensures forall j | 0 <= j < i :: r[j + 1] == xs[j]
    ensures forall j | i < j < |xs| :: r[j] == xs[j]
    ensures multiset(r) == multiset(xs)
  {
    assert xs == xs[..i] + [xs[i]] + xs[i + 1..];
    [xs[i]] + RemoveAt(xs, i)
  }

  /** `AddToMRUList`: a path already in the list moves to the head; a new
      path is put at the head and, if the list then has more than seven
      entries, the last entry is dropped. */
  function AddToMruList(list: seq<string>, path: string): (r: seq<string>)
    ensures |r| > 0 && r[0] == path
    ensures path in list ==> multiset(r) == multiset(list)
    ensures path in list ==> exists i | 0 <= i < |list| && list[i] == path ::
      r == [path] + list[..i] + list[i + 1..]
    ensures path !in list && |list| < MAX_MRU_LIST_ENTRIES ==> r == [path] + list
    ensures path !in list && |list| >= MAX_MRU_LIST_ENTRIES ==> r == [path] + list[..|list| - 1]
  {
    match IndexOf(list, path)
    case Some(i) =>
      assert MoveToFront(list, i) == [path] + list[..i] + list[i + 1..];
      MoveToFront(list, i)
    case None =>
      var added := [path] + list;
      if |added| > MAX_MRU_LIST_ENTRIES then added[..|added| - 1] else added
  }

  /** The list never grows beyond seven entries once it is within that bound. */
  lemma {:induction false} AddToMruListBounded(list: seq<string>, path: string)
    requires |list| <= MAX_MRU_LIST_ENTRIES
    ensures |AddToMruList(list, path)| <= MAX_MRU_LIST_ENTRIES
    ensures |AddToMruList(list, path)| == Min(|list| + (if path in list then 0 else 1), MAX_MRU_LIST_ENTRIES)
  {
  }

  lemma {:induction false} MoveToFrontNoDuplicates<T>(xs: seq<T>, i: nat)
    requires i < |xs| && NoDuplicates(xs)
    ensures NoDuplicates(MoveToFront(xs, i))
  {
    var r := MoveToFront(xs, i);
    forall a, b | 0 <= a < b < |r| ensures r[a] != r[b] {
      var a0 := if a == 0 then i else if a <= i then a - 1 else a;
      var b0 := if b == 0 then i else if b <= i then b - 1 else b;
      assert r[a] == xs[a0] && r[b] == xs[b0];
      assert a0 != b0;
    }
  }

  lemma {:induction false} PrependNoDuplicates<T>(xs: seq<T>, x: T, n: nat)
    requires NoDuplicates(xs) && x !in xs && n <= |xs| + 1
    ensures NoDuplicates(([x] + xs)[..n])
  {
    var r := ([x] + xs)[..n];
    forall a, b | 0 <= a < b < |r| ensures r[a] != r[b] {
      if a == 0 { assert r[b] == xs[b - 1]; }
      else { assert r[a] == xs[a - 1] && r[b] == xs[b - 1]; }
    }
  }

  /** A list without duplicates stays without duplicates. */
  lemma {:induction false} AddToMruListNoDuplicates(list: seq<string>, path: string)
    requires NoDuplicates(list)
    ensures NoDuplicates(AddToMruList(list, path))
  {
    match IndexOf(list, path)
    case Some(i) =>
      MoveToFrontNoDuplicates(list, i);
    case None =>
      var added := [path] + list;
      PrependNoDuplicates(list, path, |added|);
      PrependNoDuplicates(list, path, |added| - 1);
      assert added[..|added|] == added;
  }

  /** Choosing the same path twice is the same as choosing it once. */
  lemma {:induction false} AddToMruListIdempotent(list: seq<string>, path: string)
    ensures AddToMruList(AddToMruList(list, path), path) == AddToMruList(list, path)
  {
    var r := AddToMruList(list, path);
    assert IndexOf(r, path) == Some(0);
    assert MoveToFront(r, 0) == r by {
      assert RemoveAt(r, 0) == r[1..];
    }
  }

  /** Every entry except the one dropped for the size limit is kept. */
  lemma {:induction false} AddToMruListKeepsEntries(list: seq<string>, path: string, x: string)
    requires x in list
    requires |list| < MAX_MRU_LIST_ENTRIES || path in list || x != list[|list| - 1]
    ensures x in AddToMruList(list, path)
  {
    var r := AddToMruList(list, path);
    if path in list {
      assert x in multiset(list);
      assert x in multiset(r);
    } else {
      var i :| 0 <= i < |list| && list[i] == x;
      if |list| >= MAX_MRU_LIST_ENTRIES {
        if i == |list| - 1 {
          assert false;
        }
        assert r[i + 1] == x;
      } else {
        assert r[i + 1] == x;
      }
    }
  }

  /** `MRUEntrySelected(index, path)`: a negative index means the path is new
      or its position unknown; otherwise the entry at `index` moves to the
      head. An index past the end makes the source insert a NULL entry; the
      model reports it as an error instead. */
  function MruEntrySelected(list: seq<string>, index: int, path: string): (r: Option<seq<string>>)
    ensures index < 0 ==> r == Some(AddToMruList(list, path))
    ensures 0 <= index < |list| ==>
      r.Some? && |r.value| == |list| && r.value[0] == list[index] && multiset(r.value) == multiset(list)
      && r.value == [list[index]] + list[..index] + list[index + 1..]
    ensures index >= |list| ==> r.None?
  {
    if index < 0 then Some(AddToMruList(list, path))
    else if index < |list| then
      assert MoveToFront(list, index) == [list[index]] + list[..index] + list[index + 1..];
      Some(MoveToFront(list, index))
    else None
  }

  /** `MRUEntrySelected(entry_ref)`: a file chosen in the file panel is
      escaped for the command line and added like a typed path. */
  function FileSelected(list: seq<string>, filePath: string): (r: seq<string>)
    ensures |r| > 0 && r[0] == CommandLine.Escape(filePath)
    ensures CommandLine.Escape(filePath) in list ==> |r| == |list|
  {
    MruEntrySelected(list, -1, CommandLine.Escape(filePath)).value
  }
}

=== FILE: performance_view.dfy ===
/** `CPerformanceAddView`: the colour menu of the "add performance counter"
    dialog, its automatic choice of an unused colour, and the list of
    user-defined colours. */
module PerformanceView {
  import opened Common
  import opened Color

  const MAX_USERDEFINED_COLORS: nat := 5

  /** The colour menu has "Automatic", "Select…" and a separator before its
      colour items, so the colour items start at this menu index. */
  const FIRST_COLOR_ITEM: nat := 3

  /** The dialog's colour state: the colours of the menu's colour items in
      menu order, the user-defined colours (newest first), the selected
      colour, whether "Automatic" is chosen, and the menu index that is marked. */
  datatype ColorMenu = ColorMenu(
    colors: seq<Rgb>,
    userColors: seq<Rgb>,
    selColor: Rgb,
    autoSelect: bool,
    marked: nat)

  function ItemCount(m: ColorMenu): nat { |m.colors| + FIRST_COLOR_ITEM }

  /** `IndexOfColor`: the menu index of the first colour item showing `c`, or -1. */
  function IndexOfColor(colors: seq<Rgb>, c: Rgb): (r: int)
    ensures r == -1 <==> c !in colors
    ensures r != -1 ==>
      FIRST_COLOR_ITEM <= r < |colors| + FIRST_COLOR_ITEM && colors[r - FIRST_COLOR_ITEM] == c
    ensures r != -1 ==> forall j | 0 <= j < r - FIRST_COLOR_ITEM :: colors[j] != c
  {
    match IndexOf(colors, c)
    case None => -1
    case Some(i) => i + FIRST_COLOR_ITEM
  }

  /** The colour-item number (0 for the first colour item) that the probe
      `i` of `SelectedColor` looks at: menu index `i + offset`, wrapped back by
      the number of colours when it runs past the menu. */
  function ProbeIndex(colorCount: nat, offset: int, i: nat): (k: int)
    requires colorCount >= 1
    requires offset == 2 || FIRST_COLOR_ITEM <= offset < colorCount + FIRST_COLOR_ITEM
    requires 1 <= i <= colorCount
    requires offset == 2 || i < colorCount
    ensures 0 <= k < colorCount
    ensures offset == 2 ==> k == i - 1
    ensures offset != 2 ==> k == (offset - FIRST_COLOR_ITEM + i) % colorCount
  {
    var index := i + offset;
    var itemCount := colorCount + FIRST_COLOR_ITEM;
    if offset == 2 then i - 1
    else if index >= itemCount then
      ModWrap(offset - FIRST_COLOR_ITEM + i, colorCount);
      index - colorCount - FIRST_COLOR_ITEM
    else
      ModSmall(offset - FIRST_COLOR_ITEM + i, colorCount);
      index - FIRST_COLOR_ITEM
  }

  /** The probing loop of `SelectedColor` from probe `i` up to, excluding,
      probe `bound`: the first colour not in `used`. */
  function Probe(colors: seq<Rgb>, used: seq<Rgb>, offset: int, i: nat, bound: nat): (r: Option<Rgb>)
    requires |colors| >= 1
    requires offset == 2 || FIRST_COLOR_ITEM <= offset < |colors| + FIRST_COLOR_ITEM
    requires 1 <= i && bound <= |colors| + (if offset == 2 then 1 else 0)
    ensures r.Some? ==> r.value in colors && r.value !in used
    ensures r.None? ==> forall j | i <= j < bound :: colors[ProbeIndex(|colors|, offset, j)] in used
    decreases bound - i
  {
    if i >= bound then None
    else
      var c := colors[ProbeIndex(|colors|, offset, i)];
      if c !in used then Some(c) else Probe(colors, used, offset, i + 1, bound)
  }

  /** The offset `SelectedColor` starts from: the menu index of the selected
      colour, or 2 when that colour is not in the menu. */
  function StartOffset(m: ColorMenu): (offset: int)
    ensures offset == 2 <==> m.selColor !in m.colors
    ensures offset != 2 ==>
      FIRST_COLOR_ITEM <= offset < |m.colors| + FIRST_COLOR_ITEM && m.colors[offset - FIRST_COLOR_ITEM] == m.selColor
  {
    var offset := IndexOfColor(m.colors, m.selColor);
    if offset < 0 then 2 else offset
  }

  /** The colour taken when every probed colour is in use: the item after
      the selected one, wrapped, or the first colour item. */
  function Fallback(m: ColorMenu, offset: int): (c: Rgb)
    requires |m.colors| >= 1
    requires offset == 2 || FIRST_COLOR_ITEM <= offset < |m.colors| + FIRST_COLOR_ITEM
    ensures c in m.colors
    ensures offset == 2 ==> c == m.colors[0]
  {
    var index := offset + 1;
    var wrapped := if index >= ItemCount(m) then index - |m.colors| else index;
    m.colors[wrapped - FIRST_COLOR_ITEM]
  }

  /** `SelectedColor` as written: with "Automatic" chosen, the colours after
      the selected one are tried in menu order, wrapping around, and the first
      one no counter uses becomes the selected colour, so the next call starts
      from it. The probes run from 1 to one less than the number of colours,
      so without a selected colour in the menu the last colour item is never
      tried. The source asserts that every probed menu item is a colour item,
      which needs at least one colour item. The chosen colour is `r.selColor`. */
  function SelectedColorAsWritten(m: ColorMenu, used: seq<Rgb>): (r: ColorMenu)
    requires |m.colors| >= 1
    ensures r == m.(selColor := r.selColor)
    ensures !m.autoSelect ==> r == m
    ensures m.autoSelect ==> r.selColor in m.colors
  {
    if !m.autoSelect then m
    else
      var offset := StartOffset(m);
      match Probe(m.colors, used, offset, 1, |m.colors|)
      case Some(c) => m.(selColor := c)
      case None => m.(selColor := Fallback(m, offset))
  }

  /** `SelectedColor` with the probes covering every colour item when no
      colour item is selected. */
  function SelectedColor(m: ColorMenu, used: seq<Rgb>): (r: ColorMenu)
    requires |m.colors| >= 1
    ensures r == m.(selColor := r.selColor)
    ensures !m.autoSelect ==> r == m
    ensures m.autoSelect ==> r.selColor in m.colors
  {
    if !m.autoSelect then m
    else
      var offset := StartOffset(m);
      var bound := if offset == 2 then |m.colors| + 1 else |m.colors|;
      match Probe(m.colors, used, offset, 1, bound)
      case Some(c) => m.(selColor := c)
      case None => m.(selColor := Fallback(m, offset))
  }

  /** The probes cover every colour item except the selected one. */
  lemma {:induction false} ProbesCoverColors(colors: seq<Rgb>, offset: int, k: nat)
    requires |colors| >= 1 && k < |colors|
    requires offset == 2 || (FIRST_COLOR_ITEM <= offset < |colors| + FIRST_COLOR_ITEM && k != offset - FIRST_COLOR_ITEM)
    ensures exists j | 1 <= j < |colors| + (if offset == 2 then 1 else 0) :: ProbeIndex(|colors|, offset, j) == k
  {
    var n := |colors|;
    if offset == 2 {
      assert ProbeIndex(n, offset, k + 1) == k;
    } else {
      var s := offset - FIRST_COLOR_ITEM;
      var j := if k > s then k - s else k + n - s;
      if k > s {
        ModSmall(s + j, n);
      } else {
        ModWrap(s + j, n);
      }
      assert ProbeIndex(n, offset, j) == k;
    }
  }

  /** With "Automatic" chosen, an unused colour is picked whenever the menu
      has one, unless that colour is the selected one. */
  lemma {:induction false} SelectedColorPrefersUnused(m: ColorMenu, used: seq<Rgb>, free: Rgb)
    requires |m.colors| >= 1 && m.autoSelect
    requires free in m.colors && free !in used && free != m.selColor
    ensures SelectedColor(m, used).selColor !in used
  {
    var offset := StartOffset(m);
    var bound := if offset == 2 then |m.colors| + 1 else |m.colors|;
    var k :| 0 <= k < |m.colors| && m.colors[k] == free;
    ProbesCoverColors(m.colors, offset, k);
  }

  /** The search starts after the selected colour: when the colour item after
      the first item showing the selected colour (wrapping) is free, it becomes the selected colour, so
      repeated calls walk the menu. */
  lemma {:induction false} SelectedColorStartsAfterSelected(m: ColorMenu, used: seq<Rgb>, s: nat)
    requires |m.colors| >= 2 && m.autoSelect
    requires s < |m.colors| && m.colors[s] == m.selColor
    requires forall j | 0 <= j < s :: m.colors[j] != m.selColor
    requires m.colors[(s + 1) % |m.colors|] !in used
    ensures SelectedColor(m, used).selColor == m.colors[(s + 1) % |m.colors|]
    ensures SelectedColorAsWritten(m, used).selColor == m.colors[(s + 1) % |m.colors|]
  {
    var offset := StartOffset(m);
    var n := |m.colors|;
    var s0 := offset - FIRST_COLOR_ITEM;
    assert s0 == s;
    assert ProbeIndex(n, offset, 1) == (s0 + 1) % n;
    if s0 + 1 < n {
      ModSmall(s0 + 1, n);
    } else {
      ModWrap(s0 + 1, n);
    }
    if s + 1 < n {
      ModSmall(s + 1, n);
    } else {
      ModWrap(s + 1, n);
    }
  }

  /** As written, with palette [A, B], A in use and no colour selected, the
      free colour B is not found and A is picked. */
  lemma {:induction false} SelectedColorAsWrittenMissesLastColor()
    ensures var a, b := Rgb(255, 0, 0, 255), Rgb(0, 0, 255, 255);
      var m := ColorMenu([a, b], [], BLACK, true, 0);
      SelectedColorAsWritten(m, [a]).selColor == a && SelectedColor(m, [a]).selColor == b
  {
    var a, b := Rgb(255, 0, 0, 255), Rgb(0, 0, 255, 255);
    var m := ColorMenu([a, b], [], BLACK, true, 0);
    assert StartOffset(m) == 2;
    assert ProbeIndex(2, 2, 1) == 0 && ProbeIndex(2, 2, 2) == 1;
    assert Probe(m.colors, [a], 2, 1, 2) == None;
    assert Probe(m.colors, [a], 2, 1, 3) == Some(b);
  }

  /** `AddToUserdefinedColors`: the new colour goes to the head and the list
      keeps at most five colours. */
  function AddToUserdefinedColors(userColors: seq<Rgb>, c: Rgb): (r: seq<Rgb>)
    ensures |r| >= 1 && r[0] == c
    ensures |userColors| < MAX_USERDEFINED_COLORS ==> r == [c] + userColors
    ensures |userColors| >= MAX_USERDEFINED_COLORS ==> r == [c] + userColors[..|userColors| - 1]
  {
    var added := [c] + userColors;
    if |added| > MAX_USERDEFINED_COLORS then added[..|added| - 1] else added
  }

  /** The user-defined colours never exceed five once within that bound. */
  lemma {:induction false} UserdefinedColorsBounded(userColors: seq<Rgb>, c: Rgb)
    requires |userColors| <= MAX_USERDEFINED_COLORS
    ensures |AddToUserdefinedColors(userColors, c)| == Min(|userColors| + 1, MAX_USERDEFINED_COLORS)
  {
  }

  /** `SelectColor`: marks the menu item of `c`; a colour not in the menu is
      added to the user-defined colours and to the menu when `addColor` is
      set. Either way `c` becomes the selected colour and "Automatic" is off. */
  function SelectColor(m: ColorMenu, c: Rgb, addColor: bool): (r: ColorMenu)
    ensures r.selColor == c && !r.autoSelect
    ensures c in m.colors ==>
      r.colors == m.colors && r.userColors == m.userColors && r.marked == IndexOfColor(m.colors, c)
    ensures c !in m.colors && addColor ==>
      r.colors == m.colors + [c] && r.userColors == AddToUserdefinedColors(m.userColors, c)
      && r.marked == ItemCount(m)
    ensures c !in m.colors && !addColor ==>
      r.colors == m.colors && r.userColors == m.userColors && r.marked == m.marked
  {
    var index := IndexOfColor(m.colors, c);
    if index < 0 then
      if addColor then
        m.(colors := m.colors + [c], userColors := AddToUserdefinedColors(m.userColors, c),
           marked := ItemCount(m), selColor := c, autoSelect := false)
      else m.(selColor := c, autoSelect := false)
    else m.(marked := index, selColor := c, autoSelect := false)
  }

  /** `SelectAutomatic`: the first menu item is marked and colours are chosen automatically. */
  function SelectAutomatic(m: ColorMenu): (r: ColorMenu)
    ensures r.autoSelect && r.marked == 0
    ensures r.colors == m.colors && r.userColors == m.userColors && r.selColor == m.selColor
  {
    m.(autoSelect := true, marked := 0)
  }

  /** After choosing a colour, that colour is the dialog's colour, and with
      `addColor` it is also in the menu, marked. */
  lemma {:induction false} SelectColorThenSelected(m: ColorMenu, c: Rgb, addColor: bool, used: seq<Rgb>)
    requires |m.colors| >= 1
    ensures SelectedColor(SelectColor(m, c, addColor), used).selColor == c
    ensures addColor ==> c in SelectColor(m, c, addColor).colors
    ensures addColor ==> var r := SelectColor(m, c, addColor);
      r.colors[r.marked - FIRST_COLOR_ITEM] == c
  {
  }
}

=== FILE: plugin.dfy ===
/** `CPerformanceCounter`: a node of the performance counter namespace.
    Its path is its parent's path and its own name; its children are asked
    of the namespace the first time they are needed. The namespace's
    enumeration is a parameter here. */
module Plugin {
  import opened Common

  /** The path of a counter named `name` under a parent at `parentPath`:
      the two joined by a single '/', unless the parent's path already ends
      in one (as the root's path "/" does). The parent path is read at its
      last character, so it must not be empty. */
  function CounterPath(parentPath: string, name: string): (path: string)
    requires |parentPath| > 0
    ensures parentPath[|parentPath| - 1] == '/' ==> path == parentPath + name
    ensures parentPath[|parentPath| - 1] != '/' ==> path == parentPath + "/" + name
    ensures IsPrefix(parentPath, path) && path[|path| - |name|..] == name
    ensures path[|path| - |name| - 1] == '/'
  {
    var base := if parentPath[|parentPath| - 1] != '/' then parentPath + "/" else parentPath;
    base + name
  }

  /** The path of the counter reached from the root by the names
      `names`, each counter's path built from its parent's. */
  function JoinPath(names: seq<string>): (path: string)
    ensures |path| > 0 && path[0] == '/'
  {
    if names == [] then "/"
    else CounterPath(JoinPath(names[..|names| - 1]), names[|names| - 1])
  }

  /** A counter name that can stand as one path component. */
  predicate IsComponent(name: string) {
    |name| > 0 && '/' !in name
  }

  predicate AllComponents(names: seq<string>) {
    forall i | 0 <= i < |names| :: IsComponent(names[i])
  }

  /** Each name preceded by a '/'. */
  function Slashed(names: seq<string>): string {
    if names == [] then "" else "/" + names[0] + Slashed(names[1..])
  }

  lemma {:induction false} SlashedAppend(names: seq<string>, name: string)
    ensures Slashed(names + [name]) == Slashed(names) + "/" + name
  {
    if names != [] {
      assert (names + [name])[1..] == names[1..] + [name];
      SlashedAppend(names[1..], name);
    }
  }

  /** Below the root, a counter's path is its names each preceded by a '/'. */
  lemma {:induction false} JoinPathIsSlashed(names: seq<string>)
    requires names != [] && AllComponents(names)
    ensures JoinPath(names) == Slashed(names)
  {
    var front, last := names[..|names| - 1], names[|names| - 1];
    assert names == front + [last];
    SlashedAppend(front, last);
    if front != [] {
      JoinPathIsSlashed(front);
      SlashedEndsInName(front);
    }
  }

  /** Names each preceded by a '/' end in the last name's last character,
      which is not a '/'. */
  lemma {:induction false} SlashedEndsInName(names: seq<string>)
    requires names != [] && AllComponents(names)
    ensures |Slashed(names)| > 0 && Slashed(names)[|Slashed(names)| - 1] != '/'
  {
    var front, last := names[..|names| - 1], names[|names| - 1];
    assert names == front + [last];
    SlashedAppend(front, last);
    assert IsComponent(last);
    assert Slashed(names)[|Slashed(names)| - 1] == last[|last| - 1];
    assert last[|last| - 1] in last;
  }

  /** A counter: the namespace it asks for children, reduced to its path,
      its internal name and its data provider (`None` for a counter that
      only groups others), plus the children once they are known. */
  datatype Counter = Counter(path: string, internalName: string, provider: Option<nat>, children: Option<seq<Counter>>)

  /** The constructor: the path is built from the parent's and the
      children are not yet asked for. */
  function NewCounter(parentPath: string, name: string, provider: Option<nat>): (c: Counter)
    requires |parentPath| > 0
    ensures c.internalName == name && c.provider == provider && c.children.None?
    ensures c.path == CounterPath(parentPath, name)
  {
    Counter(CounterPath(parentPath, name), name, provider, None)
  }

  /** `Name`: a counter shows its internal name. */
  function Name(c: Counter): (name: string)
    ensures name == c.internalName
  {
    c.internalName
  }

  /** `InitChildren`: the first call asks the namespace for the children of
      the counter's path; later calls change nothing. */
  function InitChildren(c: Counter, enumerate: string -> seq<Counter>): (r: Counter)
    ensures r.children.Some?
    ensures c.children.None? ==> r.children == Some(enumerate(c.path))
    ensures c.children.Some? ==> r == c
    ensures r.(children := c.children) == c
  {
    if c.children.None? then c.(children := Some(enumerate(c.path))) else c
  }

  /** `CountChildren` and `ChildAt`: the children after `InitChildren`;
      `ChildAt` out of range is `None`, as `BList::ItemAt` gives NULL. */
  function ChildAt(c: Counter, enumerate: string -> seq<Counter>, i: int): (r: (Counter, Option<Counter>))
    ensures r.0 == InitChildren(c, enumerate)
    ensures r.1.Some? <==> 0 <= i < |r.0.children.value|
    ensures r.1.Some? ==> r.1.value == r.0.children.value[i]
  {
    var c' := InitChildren(c, enumerate);
    var kids := c'.children.value;
    (c', if 0 <= i < |kids| then Some(kids[i]) else None)
  }

  /** The namespace is asked at most once: once the children are known, a
      later enumeration, whatever it would answer, is never consulted. */
  lemma {:induction false} InitChildrenOnce(c: Counter, first: string -> seq<Counter>, later: string -> seq<Counter>)
    ensures InitChildren(InitChildren(c, first), later) == InitChildren(c, first)
    ensures ChildAt(InitChildren(c, first), later, 0).0.children == InitChildren(c, first).children
  {
  }
}

=== FILE: process.dfy ===
/** `CTeam`: BeOS cannot set the priority of a team, only of its threads, so
    a team's "base priority" is the mean priority of its threads, and setting
    it shifts every timesharing thread by the same amount. A team is modelled
    by the priorities of its threads, in the order the kernel lists them. */
module Process {
  import opened Common

  /** Threads at or above this priority are realtime threads. */
  const REALTIME_PRIORITY: int := 100

  /** The highest priority of a timesharing thread. */
  const MAX_TIMESHARING_PRIORITY: int := 99

  function Sum(prios: seq<int>): int
  {
    if prios == [] then 0 else Sum(prios[..|prios| - 1]) + prios[|prios| - 1]
  }

  function Clamp(p: int): (r: int)
    ensures 0 <= r <= MAX_TIMESHARING_PRIORITY
    ensures 0 <= p <= MAX_TIMESHARING_PRIORITY ==> r == p
    ensures p < 0 ==> r == 0
    ensures p > MAX_TIMESHARING_PRIORITY ==> r == MAX_TIMESHARING_PRIORITY
  {
    if p < 0 then 0 else if p > MAX_TIMESHARING_PRIORITY then MAX_TIMESHARING_PRIORITY else p
  }

  /** `GetBasePriority`: the mean of the thread priorities, truncated as C
      integer division does; a team without threads gives 0 and B_BAD_VALUE. */
  function GetBasePriority(prios: seq<int>): (r: (Status, int))
    ensures prios == [] <==> r.0 == BadValue
    ensures prios == [] ==> r.1 == 0
    ensures prios != [] ==> r.0 == Ok && r.1 == TruncDiv(Sum(prios), |prios|)
  {
    if |prios| <= 0 then (BadValue, 0) else (Ok, TruncDiv(Sum(prios), |prios|))
  }

  /** The new priority of one thread when the base moves from `oldBase` to `newBase`. */
  function Rebase(p: int, oldBase: int, newBase: int): (q: int)
    ensures p >= REALTIME_PRIORITY ==> q == p
    ensures p < REALTIME_PRIORITY ==> 0 <= q <= MAX_TIMESHARING_PRIORITY
    ensures p < REALTIME_PRIORITY && 0 <= newBase + (p - oldBase) <= MAX_TIMESHARING_PRIORITY ==>
      q - newBase == p - oldBase
  {
    if p < REALTIME_PRIORITY then Clamp(newBase + (p - oldBase)) else p
  }

  /** `SetBasePriority`: every timesharing thread keeps its distance from
      the base, clamped to 0..99; realtime threads are left alone. It fails,
      changing nothing, when the team has no threads. Failures of
      `set_thread_priority` are not modelled. */
  function SetBasePriority(prios: seq<int>, newBase: int): (r: (Status, seq<int>))
    ensures r.0 == GetBasePriority(prios).0
    ensures r.0 != Ok ==> r.1 == prios
    ensures |r.1| == |prios|
    ensures r.0 == Ok ==> forall i | 0 <= i < |prios| ::
      r.1[i] == Rebase(prios[i], GetBasePriority(prios).1, newBase)
  {
    var (status, oldBase) := GetBasePriority(prios);
    if status != Ok then (status, prios)
    else (Ok, seq(|prios|, i requires 0 <= i < |prios| => Rebase(prios[i], oldBase, newBase)))
  }

  /** Realtime threads keep their priority and every other thread ends in 0..99. */
  lemma {:induction false} SetBasePriorityRanges(prios: seq<int>, newBase: int, i: nat)
    requires i < |prios|
    ensures prios[i] >= REALTIME_PRIORITY ==> SetBasePriority(prios, newBase).1[i] == prios[i]
    ensures prios[i] < REALTIME_PRIORITY ==> 0 <= SetBasePriority(prios, newBase).1[i] <= MAX_TIMESHARING_PRIORITY
  {
  }

  /** The relative order of the timesharing threads is kept (ties may appear
      where clamping cuts). */
  lemma {:induction false} SetBasePriorityKeepsOrder(prios: seq<int>, newBase: int, i: nat, j: nat)
    requires i < |prios| && j < |prios|
    requires prios[i] < REALTIME_PRIORITY && prios[j] < REALTIME_PRIORITY
    requires prios[i] <= prios[j]
    ensures SetBasePriority(prios, newBase).1[i] <= SetBasePriority(prios, newBase).1[j]
  {
  }

  /** Shifting every element by `d` shifts the sum by `|prios| * d`. */
  lemma {:induction false} SumShifted(prios: seq<int>, shifted: seq<int>, d: int)
    requires |shifted| == |prios|
    requires forall i | 0 <= i < |prios| :: shifted[i] == prios[i] + d
    ensures Sum(shifted) == Sum(prios) + |prios| * d
  {
    if prios != [] {
      var n := |prios| - 1;
      SumShifted(prios[..n], shifted[..n], d);
      assert Sum(shifted) == Sum(shifted[..n]) + shifted[n];
    }
  }

  lemma {:induction false} SumNonNegative(prios: seq<int>)
    requires forall i | 0 <= i < |prios| :: prios[i] >= 0
    ensures Sum(prios) >= 0
  {
    if prios != [] {
      SumNonNegative(prios[..|prios| - 1]);
    }
  }

  /** Setting the base priority of a team of timesharing threads and reading
      it back gives the base that was set, as long as no thread is clamped. */
  lemma {:induction false} SetThenGetBasePriority(prios: seq<int>, newBase: int)
    requires prios != []
    requires forall i | 0 <= i < |prios| :: 0 <= prios[i] < REALTIME_PRIORITY
    requires newBase >= 0
    requires forall i | 0 <= i < |prios| ::
      0 <= newBase + (prios[i] - GetBasePriority(prios).1) <= MAX_TIMESHARING_PRIORITY
    ensures GetBasePriority(SetBasePriority(prios, newBase).1) == (Ok, newBase)
  {
    var n := |prios|;
    var oldBase := GetBasePriority(prios).1;
    var shifted := SetBasePriority(prios, newBase).1;
    SumNonNegative(prios);
    assert oldBase == Sum(prios) / n;
    var m := Sum(prios) % n;
    assert Sum(prios) == n * oldBase + m;
    SumShifted(prios, shifted, newBase - oldBase);
    assert Sum(shifted) == n * newBase + m;
    DivOfMultiplePlusRemainder(n, newBase, m);
  }
}

=== FILE: process_view.dfy ===
/** `CProcessView` and `CProcessItem`: the team list's priority menu, the
    ordering of its rows, the filter that hides system teams, and what a
    closed kill or quit alert does. */
module ProcessView {
  import opened Common

  // ---- the priority submenu ----

  /** The priorities the five items of the priority submenu set: low,
      normal, display, urgent display and realtime. */
  const MENU_PRIORITIES: seq<int> := [5, 10, 15, 20, 100]

  /** The realtime item, which the user can never choose. */
  const REALTIME_ITEM: nat := 4

  /** The state of the priority submenu: which item is marked, and whether
      the submenu can be used at all. */
  datatype PriorityMenu = PriorityMenu(marked: Option<nat>, enabled: bool)

  /** The highest base priority each item of the submenu is marked for. */
  const BUCKET_TOPS: seq<int> := [5, 10, 15, 99, 120]

  /** The item marked for a base priority: 0-5, 6-10, 11-15, 16-99 and
      100-120 mark the items in order; other values mark none. */
  function PriorityItem(basePrio: int): (r: Option<nat>)
    ensures r.Some? ==> r.value < |MENU_PRIORITIES|
    ensures r.None? <==> basePrio < 0 || basePrio > 120
    ensures r.Some? ==>
      (r.value == 0 || BUCKET_TOPS[r.value - 1] < basePrio) && basePrio <= BUCKET_TOPS[r.value]
    ensures r == Some(REALTIME_ITEM) <==> 100 <= basePrio <= 120
  {
    if 0 <= basePrio <= 5 then Some(0)
    else if 6 <= basePrio <= 10 then Some(1)
    else if 11 <= basePrio <= 15 then Some(2)
    else if 16 <= basePrio <= 99 then Some(3)
    else if 100 <= basePrio <= 120 then Some(4)
    else None
  }

  /** The submenu for a team whose `GetBasePriority` gave `status` and
      `basePrio`: it is disabled for realtime teams and when the team cannot
      be queried. */
  function PriorityMenuFor(status: Status, basePrio: int): (r: PriorityMenu)
    ensures status != Ok ==> r == PriorityMenu(None, false)
    ensures status == Ok ==> r.marked == PriorityItem(basePrio)
    ensures r.enabled <==> status == Ok && !(100 <= basePrio <= 120)
  {
    if status != Ok then PriorityMenu(None, false)
    else
      var item := PriorityItem(basePrio);
      PriorityMenu(item, item != Some(REALTIME_ITEM))
  }

  /** A team whose base priority is one the submenu sets shows that item
      marked, and the buckets grow with the priority. */
  lemma {:induction false} PriorityItemRoundTrip(i: nat, p: int, q: int)
    requires i < |MENU_PRIORITIES|
    requires 0 <= p <= q <= 120
    ensures PriorityItem(MENU_PRIORITIES[i]) == Some(i)
    ensures PriorityItem(p).value <= PriorityItem(q).value
  {
  }

  // ---- ordering the rows ----

  /** The columns of the team list that `Compare` distinguishes. */
  datatype Column =
    | DirectoryColumn | NameColumn | TeamIdColumn
    | ThreadCountColumn | AreaCountColumn | ImageCountColumn
    | CpuUsageColumn | MemUsageColumn | MemUsageAbsColumn
    | OtherColumn(key: int)

  /** What a row shows: its texts (`None` for a NULL text), the counts the
      count columns display, and the CPU and memory usage fractions. */
  datatype ProcessItem = ProcessItem(
    teamId: int,
    name: Option<string>,
    directory: Option<string>,
    threadCount: int,
    areaCount: int,
    imageCount: int,
    cpuUsage: real,
    memUsage: real)

  /** `strcasecmp`: the difference of the first pair of characters that
      differ after lowering, with the end of a string reading as 0. */
  function StrCaseCmp(a: string, b: string): (r: int)
  {
    if a == [] && b == [] then 0
    else if a == [] then 0 - ToLower(b[0]) as int
    else if b == [] then ToLower(a[0]) as int
    else if ToLower(a[0]) != ToLower(b[0]) then ToLower(a[0]) as int - ToLower(b[0]) as int
    else StrCaseCmp(a[1..], b[1..])
  }

  predicate SameIgnoringCase(a: string, b: string) {
    |a| == |b| && forall k | 0 <= k < |a| :: ToLower(a[k]) == ToLower(b[k])
  }

  /** `strcasecmp` is antisymmetric, and it is 0 exactly for strings that
      agree after lowering (for text without NUL characters). */
  lemma {:induction false} StrCaseCmpLaws(a: string, b: string)
    requires forall k | 0 <= k < |a| :: a[k] != 0 as char
    requires forall k | 0 <= k < |b| :: b[k] != 0 as char
    ensures StrCaseCmp(a, b) == -StrCaseCmp(b, a)
    ensures StrCaseCmp(a, b) == 0 <==> SameIgnoringCase(a, b)
  {
    if a != [] && b != [] && ToLower(a[0]) == ToLower(b[0]) {
      StrCaseCmpLaws(a[1..], b[1..]);
      if SameIgnoringCase(a[1..], b[1..]) {
        assert SameIgnoringCase(a, b) by {
          forall k | 0 <= k < |a| ensures ToLower(a[k]) == ToLower(b[k]) {
            if k > 0 { assert a[k] == a[1..][k - 1] && b[k] == b[1..][k - 1]; }
          }
        }
      }
    } else if a != [] && b == [] {
      assert ToLower(a[0]) != 0 as char;
    } else if a == [] && b != [] {
      assert ToLower(b[0]) != 0 as char;
    } else if a != [] && b != [] {
      assert !SameIgnoringCase(a, b);
    }
  }

  /** The text a text column shows. */
  function TextOf(item: ProcessItem, key: Column): Option<string>
    requires key == DirectoryColumn || key == NameColumn
  {
    if key == DirectoryColumn then item.directory else item.name
  }

  /** `CProcessItem::Compare`: text columns compare without case, a NULL
      text sorting last; numeric columns compare by difference; usage
      columns by the difference in percent, truncated; other keys give 0. */
  function Compare(a: ProcessItem, b: ProcessItem, key: Column): (r: int)
    ensures key.OtherColumn? ==> r == 0
    ensures key == TeamIdColumn ==> (r < 0 <==> a.teamId < b.teamId) && (r == 0 <==> a.teamId == b.teamId)
    ensures (key == DirectoryColumn || key == NameColumn) && TextOf(a, key).None? ==> r == 1
    ensures (key == DirectoryColumn || key == NameColumn) && TextOf(a, key).Some? && TextOf(b, key).None? ==> r == -1
  {
    match key
    case DirectoryColumn | NameColumn =>
      var mine, other := TextOf(a, key), TextOf(b, key);
      if mine.None? then 1
      else if other.None? then -1
      else StrCaseCmp(mine.value, other.value)
    case TeamIdColumn => a.teamId - b.teamId
    case ThreadCountColumn => a.threadCount - b.threadCount
    case AreaCountColumn => a.areaCount - b.areaCount
    case ImageCountColumn => a.imageCount - b.imageCount
    case CpuUsageColumn => TruncReal((a.cpuUsage - b.cpuUsage) * 100.0)
    case MemUsageColumn | MemUsageAbsColumn => TruncReal((a.memUsage - b.memUsage) * 100.0)
    case OtherColumn(_) => 0
  }

  /** Every numeric column is an antisymmetric comparison; a text column is
      too while both rows have text, and a row with a NULL text sorts after
      one with text. */
  lemma {:induction false} CompareAntisymmetric(a: ProcessItem, b: ProcessItem, key: Column)
    requires key == DirectoryColumn || key == NameColumn ==>
      TextOf(a, key).Some? && TextOf(b, key).Some?
      && (forall k | 0 <= k < |TextOf(a, key).value| :: TextOf(a, key).value[k] != 0 as char)
      && (forall k | 0 <= k < |TextOf(b, key).value| :: TextOf(b, key).value[k] != 0 as char)
    ensures Compare(a, b, key) == -Compare(b, a, key)
  {
    match key
    case DirectoryColumn | NameColumn =>
      StrCaseCmpLaws(TextOf(a, key).value, TextOf(b, key).value);
    case CpuUsageColumn =>
      TruncRealNegates((a.cpuUsage - b.cpuUsage) * 100.0);
      assert (b.cpuUsage - a.cpuUsage) * 100.0 == -((a.cpuUsage - b.cpuUsage) * 100.0);
    case MemUsageColumn | MemUsageAbsColumn =>
      TruncRealNegates((a.memUsage - b.memUsage) * 100.0);
      assert (b.memUsage - a.memUsage) * 100.0 == -((a.memUsage - b.memUsage) * 100.0);
    case _ =>
  }

  lemma {:induction false} TruncRealNegates(x: real)
    ensures TruncReal(-x) == -TruncReal(x)
  {
    if x > 0.0 {
      assert (-x) < 0.0;
    }
  }

  /** Two rows that both lack a text compare as greater than each other, so
      the text order is not a consistent comparison once a text is NULL. */
  lemma {:induction false} CompareTwoNullTexts(a: ProcessItem, b: ProcessItem)
    requires a.name.None? && b.name.None?
    ensures Compare(a, b, NameColumn) == 1 && Compare(b, a, NameColumn) == 1
  {
  }

  // ---- hiding system teams ----

  /** A team entry as the view sees it: its id and whether it is a system team. */
  datatype TeamRow = TeamRow(teamId: int, systemTeam: bool)

  /** The rows shown for the team model's `entries`. */
  function Shown(entries: seq<TeamRow>, hideSystem: bool): (r: seq<TeamRow>)
    ensures |r| <= |entries|
    ensures forall i | 0 <= i < |r| :: r[i] in entries && !(hideSystem && r[i].systemTeam)
    ensures forall e | e in entries && !(hideSystem && e.systemTeam) :: e in r
    ensures !hideSystem ==> r == entries
  {
    if entries == [] then []
    else
      var rest := Shown(entries[1..], hideSystem);
      if hideSystem && entries[0].systemTeam then rest else [entries[0]] + rest
  }

  /** The rows keep the team model's order: listing two runs of entries one
      after the other shows the rows of the first run, then those of the
      second. With `Shown([e])` being `[e]` or `[]`, this makes `Shown` the
      order-preserving filter of the entries. */
  lemma {:induction false} ShownConcat(a: seq<TeamRow>, b: seq<TeamRow>, hideSystem: bool)
    ensures Shown(a + b, hideSystem) == Shown(a, hideSystem) + Shown(b, hideSystem)
    decreases |a|
  {
    if a != [] {
      assert (a + b)[1..] == a[1..] + b;
      ShownConcat(a[1..], b, hideSystem);
    } else {
      assert a + b == b;
    }
  }

  /** One entry is shown exactly when it is not a hidden system team. */
  lemma {:induction false} ShownSingle(e: TeamRow, hideSystem: bool)
    ensures Shown([e], hideSystem) == if hideSystem && e.systemTeam then [] else [e]
  {
    assert [e][1..] == [];
  }

  /** The view's state: whether system teams are hidden and the rows listed. */
  datatype ViewState = ViewState(hideSystem: bool, rows: seq<TeamRow>)

  /** `SetHideSystemTeams`: an unchanged setting does nothing; otherwise the
      list is rebuilt from the team model. The sort that follows is left out. */
  function SetHideSystemTeams(v: ViewState, entries: seq<TeamRow>, newValue: bool): (r: ViewState)
    ensures r.hideSystem == newValue
    ensures v.hideSystem == newValue ==> r == v
    ensures v.hideSystem != newValue ==> r.rows == Shown(entries, newValue)
  {
    if v.hideSystem == newValue then v else ViewState(newValue, Shown(entries, newValue))
  }

  /** Hiding then showing again lists every entry of the team model. */
  lemma {:induction false} HideThenShowListsAll(v: ViewState, entries: seq<TeamRow>)
    requires !v.hideSystem
    ensures SetHideSystemTeams(SetHideSystemTeams(v, entries, true), entries, false).rows == entries
    ensures forall i | 0 <= i < |SetHideSystemTeams(v, entries, true).rows| ::
      !SetHideSystemTeams(v, entries, true).rows[i].systemTeam
  {
  }

  // ---- the alert-closed message ----

  datatype TeamAction = KillAction | QuitAction | OtherAction

  /** What the view does once an alert is closed. `InvalidButton` stands
      for the debug assertion on a kill alert's unknown button. */
  datatype Outcome = KillTeam(id: int) | QuitTeam(id: int) | NoAction | InvalidButton

  /** `MSG_ALERT_CLOSED`: the kill alert has the buttons Kill and Cancel,
      the quit alert Retry, Kill and Cancel. A message missing any of its
      three fields is ignored. */
  function AlertClosed(button: Option<int>, action: Option<TeamAction>, id: Option<int>): (r: Outcome)
    ensures button.None? || action.None? || id.None? ==> r == NoAction
    ensures r.KillTeam? || r.QuitTeam? ==> id == Some(r.id)
    ensures r == InvalidButton ==> action == Some(KillAction) && button.value != 0 && button.value != 1
  {
    if button.None? || action.None? || id.None? then NoAction
    else match action.value
      case KillAction =>
        if button.value == 0 then KillTeam(id.value)
        else if button.value == 1 then NoAction
        else InvalidButton
      case QuitAction =>
        if button.value == 0 then QuitTeam(id.value)
        else if button.value == 1 then KillTeam(id.value)
        else NoAction
      case OtherAction => NoAction
  }

  /** A team is killed exactly on "Kill" in either alert, and asked to quit
      exactly on "Retry" in the quit alert. */
  lemma {:induction false} AlertClosedKillsOnlyOnKill(button: int, action: TeamAction, id: int)
    ensures AlertClosed(Some(button), Some(action), Some(id)) == KillTeam(id) <==>
      (action == KillAction && button == 0) || (action == QuitAction && button == 1)
    ensures AlertClosed(Some(button), Some(action), Some(id)) == QuitTeam(id) <==>
      action == QuitAction && button == 0
  {
  }
}

=== FILE: singleton.dfy ===
/** `CSingleton`: a registry of the one live instance of each singleton
    class, identified by a class name chosen by the class itself. An
    instance is reduced to its registered name, the C++ class it was built
    as (which `dynamic_cast` checks) and an identity. */
module Singleton {
  import opened Common

  datatype Instance = Instance(className: string, kind: string, id: nat)

  function ClassNames(list: seq<Instance>): (r: seq<string>)
    ensures |r| == |list| && forall i | 0 <= i < |list| :: r[i] == list[i].className
  {
    seq(|list|, i requires 0 <= i < |list| => list[i].className)
  }

  /** Where an instance registered under `className` is first listed. */
  function Position(list: seq<Instance>, className: string): (r: Option<nat>)
    ensures r.Some? ==> r.value < |list| && list[r.value].className == className
    ensures r.Some? ==> forall j | 0 <= j < r.value :: list[j].className != className
    ensures r.None? <==> forall j | 0 <= j < |list| :: list[j].className != className
  {
    IndexOf(ClassNames(list), className)
  }

  /** `AddToList`: the instance is registered last. */
  function AddToList(list: seq<Instance>, instance: Instance): (r: seq<Instance>)
    ensures |r| == |list| + 1 && r[|list|] == instance && r[..|list|] == list
  {
    list + [instance]
  }

  /** `Find`: the first instance registered under `className`, if any. */
  function Find(list: seq<Instance>, className: string): (r: Option<Instance>)
    ensures r.None? <==> forall j | 0 <= j < |list| :: list[j].className != className
    ensures r.Some? ==> exists k | 0 <= k < |list| ::
      r.value == list[k] && r.value.className == className
      && forall j | 0 <= j < k :: list[j].className != className
  {
    match Position(list, className)
    case None => None
    case Some(k) => Some(list[k])
  }

  /** `RemoveFromList`: the first instance registered under `className` is
      taken out and returned; without one, the list is unchanged. */
  function RemoveFromList(list: seq<Instance>, className: string): (r: (Option<Instance>, seq<Instance>))
    ensures r.0 == Find(list, className)
    ensures r.0.None? ==> r.1 == list
    ensures r.0.Some? ==> exists k | 0 <= k < |list| ::
      list[k] == r.0.value && r.1 == list[..k] + list[k + 1..]
      && forall j | 0 <= j < k :: list[j].className != className
  {
    match Position(list, className)
    case None => (None, list)
    case Some(k) => (Some(list[k]), RemoveAt(list, k))
  }

  /** What `CreateSingleton` did: the instance it hands back, the registry
      after it, and whether the instance was an existing one reactivated. */
  datatype Creation = Creation(instance: Instance, list: seq<Instance>, reactivated: bool)

  /** `CreateSingleton`: an instance registered under `className` and built
      as `kind` is reactivated and returned; otherwise a new instance of
      `kind` (with the identity `newId`) is registered and returned.
      The cast fails, and a second instance is registered, when the first
      one under that name is of another class. The model compares `kind`
      for equality, so it reads the `dynamic_cast` as an exact class test;
      the cast also accepts an instance of a subclass of the requested one,
      which the model does not represent. */
  function CreateSingleton(list: seq<Instance>, kind: string, className: string, newId: nat): (r: Creation)
    ensures r.instance.className == className && r.instance.kind == kind
    ensures r.reactivated <==> Find(list, className).Some? && Find(list, className).value.kind == kind
    ensures r.reactivated ==> r.list == list && Some(r.instance) == Find(list, className)
    ensures !r.reactivated ==> r.list == AddToList(list, r.instance) && r.instance.id == newId
  {
    match Find(list, className)
    case Some(found) =>
      if found.kind == kind then Creation(found, list, true)
      else var made := Instance(className, kind, newId); Creation(made, AddToList(list, made), false)
    case None =>
      var made := Instance(className, kind, newId);
      Creation(made, AddToList(list, made), false)
  }

  /** A second creation of a singleton that was created without a clash
      reactivates the first instance and leaves the registry as it was. */
  lemma {:induction false} CreateSingletonTwice(list: seq<Instance>, kind: string, className: string, newId: nat, later: nat)
    requires Find(list, className).None? || Find(list, className).value.kind == kind
    ensures var first := CreateSingleton(list, kind, className, newId);
      var second := CreateSingleton(first.list, kind, className, later);
      second.reactivated && second.instance == first.instance && second.list == first.list
  {
    var first := CreateSingleton(list, kind, className, newId);
    if Find(list, className).None? {
      assert first.list[|list|] == first.instance;
      assert Position(first.list, className) == Some(|list|);
    }
  }

  /** The destructor's `RemoveFromList` undoes a creation that registered a
      new instance. */
  lemma {:induction false} RemoveUndoesCreate(list: seq<Instance>, kind: string, className: string, newId: nat)
    requires Find(list, className).None?
    ensures var created := CreateSingleton(list, kind, className, newId);
      RemoveFromList(created.list, className) == (Some(created.instance), list)
  {
    var created := CreateSingleton(list, kind, className, newId);
    assert Position(created.list, className) == Some(|list|);
    assert RemoveAt(created.list, |list|) == list;
  }
}

=== FILE: stylesheet.dfy ===
/** The help pages' stylesheet script: a hand-written substring search and the
    choice of one of three stylesheets from the browser's name and user agent. */
module Stylesheet {
  import opened Common

  /** One step of `search`'s single pass: `i` is the position in `str`,
      `patpos` the number of pattern characters matched so far. A mismatch
      resets `patpos` without comparing the current character again. */
  function SearchFrom(str: string, pat: string, i: nat, patpos: nat): (r: int)
    requires i <= |str|
    requires patpos <= i
    requires patpos < |pat| || patpos == 0
    requires str[i - patpos..i] == pat[..patpos]
    ensures r == -1 || (r >= 0 && OccursAt(str, pat, r))
    ensures r >= 0 ==> r >= i - patpos
    decreases |str| - i
  {
    if i == |str| then -1
    else if patpos < |pat| && str[i] == pat[patpos] then
      if patpos + 1 >= |pat| then
        assert str[i - patpos..i + 1] == str[i - patpos..i] + [str[i]];
        i - |pat| + 1
      else
        assert str[i - patpos..i + 1] == str[i - patpos..i] + [str[i]];
        assert pat[..patpos + 1] == pat[..patpos] + [pat[patpos]];
        SearchFrom(str, pat, i + 1, patpos + 1)
    else SearchFrom(str, pat, i + 1, 0)
  }

  /** `search(str, pat)`: an index at which `pat` occurs in `str`, or -1.
      An empty pattern is never found, because no character equals the
      empty string that `charAt` yields past the end of the pattern. */
  function Search(str: string, pat: string): (r: int)
    ensures r == -1 || (r >= 0 && OccursAt(str, pat, r))
    ensures |str| == 0 ==> r == -1
    ensures |pat| == 0 ==> r == -1
  {
    var r := SearchFrom(str, pat, 0, 0);
    assert |pat| == 0 ==> r == -1 by {
      if |pat| == 0 { EmptyPatternNeverMatches(str, 0); }
    }
    r
  }

  lemma {:induction false} EmptyPatternNeverMatches(str: string, i: nat)
    requires i <= |str|
    ensures SearchFrom(str, [], i, 0) == -1
    decreases |str| - i
  {
    if i < |str| {
      EmptyPatternNeverMatches(str, i + 1);
    }
  }

  /** A result of `search` other than -1 is a genuine occurrence. */
  lemma {:induction false} SearchFindsOccurrence(str: string, pat: string)
    ensures Search(str, pat) != -1 ==> Contains(str, pat)
  {
    var r := Search(str, pat);
    if r != -1 {
      assert OccursAt(str, pat, r);
    }
  }

  /** `search` as its comment describes it: the index of the first
      occurrence of a non-empty pattern, or -1. */
  function SearchFirst(str: string, pat: string): (r: int)
    ensures r == -1 <==> |pat| == 0 || !Contains(str, pat)
    ensures r != -1 ==> r >= 0 && OccursAt(str, pat, r)
    ensures r != -1 ==> forall j | 0 <= j < r :: !OccursAt(str, pat, j)
  {
    if |pat| == 0 then -1
    else match FindFrom(str, pat, 0)
      case None => -1
      case Some(k) => k
  }

  /** Whatever `search` finds, the first-occurrence search finds too, at
      the same index or before it. */
  lemma {:induction false} SearchAgrees(str: string, pat: string)
    ensures Search(str, pat) != -1 ==>
      SearchFirst(str, pat) != -1 && SearchFirst(str, pat) <= Search(str, pat)
  {
    var r := Search(str, pat);
    if r != -1 {
      assert OccursAt(str, pat, r);
      assert Contains(str, pat);
    }
  }

  /** `search` is not the "first occurrence" its comment promises: after a
      partial match it never looks at the mismatching character again, so
      "ab" is missed in "aab" although it occurs at index 1. */
  lemma {:induction false} SearchMissesOverlappingStart()
    ensures OccursAt("aab", "ab", 1)
    ensures Search("aab", "ab") == -1
    ensures SearchFirst("aab", "ab") == 1
  {
    assert SearchFrom("aab", "ab", 3, 0) == -1;
    assert SearchFrom("aab", "ab", 2, 0) == -1;
    assert SearchFrom("aab", "ab", 1, 1) == -1;
    assert SearchFrom("aab", "ab", 0, 0) == -1;
    assert !OccursAt("aab", "ab", 0) by { assert "aab"[0..2] != "ab"; }
    assert OccursAt("aab", "ab", 1) by { assert "aab"[1..3] == "ab"; }
  }

  const IE_NAME := "Microsoft Internet Explorer"
  const NETSCAPE_NAME := "Netscape"

  /** `set_stylesheet` as written: the stylesheet chosen for the given
      `navigator.appName` and `navigator.userAgent`, with the markers looked
      for by `search`. */
  function SelectStylesheetAsWritten(appName: string, userAgent: string): (css: string)
    ensures css in {"ie.css", "netscape.css", "opera.css"}
    ensures css == "ie.css" <==> appName == IE_NAME
    ensures appName == NETSCAPE_NAME && css == "opera.css" ==>
      Contains(userAgent, "Opera") && Contains(userAgent, "BeOS")
    ensures appName != IE_NAME && appName != NETSCAPE_NAME ==> css == "opera.css"
  {
    SearchFindsOccurrence(userAgent, "Opera");
    SearchFindsOccurrence(userAgent, "BeOS");
    var css := "opera.css";
    if appName == IE_NAME then "ie.css"
    else if appName == NETSCAPE_NAME then
      if Search(userAgent, "Opera") != -1 && Search(userAgent, "BeOS") != -1 then "opera.css"
      else "netscape.css"
    else css
  }

  /** `set_stylesheet` with the markers looked for by the first-occurrence
      search its comment documents. */
  function SelectStylesheet(appName: string, userAgent: string): (css: string)
    ensures css in {"ie.css", "netscape.css", "opera.css"}
    ensures css == "ie.css" <==> appName == IE_NAME
    ensures appName == NETSCAPE_NAME ==>
      (css == "opera.css" <==> Contains(userAgent, "Opera") && Contains(userAgent, "BeOS"))
    ensures appName != IE_NAME && appName != NETSCAPE_NAME ==> css == "opera.css"
  {
    var css := "opera.css";
    if appName == IE_NAME then "ie.css"
    else if appName == NETSCAPE_NAME then
      if SearchFirst(userAgent, "Opera") != -1 && SearchFirst(userAgent, "BeOS") != -1 then "opera.css"
      else "netscape.css"
    else css
  }

  /** The script and its documented decision differ only where `search`
      misses a marker that is there: the script then chooses the Netscape
      stylesheet for the BeOS version of Opera. */
  lemma {:induction false} SelectStylesheetAgrees(appName: string, userAgent: string)
    ensures SelectStylesheetAsWritten(appName, userAgent) != SelectStylesheet(appName, userAgent) ==>
      appName == NETSCAPE_NAME
      && SelectStylesheetAsWritten(appName, userAgent) == "netscape.css"
      && SelectStylesheet(appName, userAgent) == "opera.css"
  {
    SearchAgrees(userAgent, "Opera");
    SearchAgrees(userAgent, "BeOS");
  }

  /** As written, a user agent in which "Opera" follows a partial match of
      it ("OOpera BeOS") has no "Opera" for `search`, so the script writes
      the Netscape stylesheet; the documented decision is the Opera one. */
  lemma {:induction false} SelectStylesheetAsWrittenMissesOpera()
    ensures Search("OOpera BeOS", "Opera") == -1
    ensures SelectStylesheetAsWritten(NETSCAPE_NAME, "OOpera BeOS") == "netscape.css"
    ensures SelectStylesheet(NETSCAPE_NAME, "OOpera BeOS") == "opera.css"
  {
    var ua := "OOpera BeOS";
    assert OccursAt(ua, "Opera", 1) by { assert ua[1..6] == "Opera"; }
    assert OccursAt(ua, "BeOS", 7) by { assert ua[7..11] == "BeOS"; }
    assert SearchFrom(ua, "Opera", 11, 0) == -1;
    assert SearchFrom(ua, "Opera", 10, 0) == -1;
    assert SearchFrom(ua, "Opera", 9, 0) == -1;
    assert SearchFrom(ua, "Opera", 8, 0) == -1;
    assert SearchFrom(ua, "Opera", 7, 0) == -1;
    assert SearchFrom(ua, "Opera", 6, 0) == -1;
    assert SearchFrom(ua, "Opera", 5, 0) == -1;
    assert SearchFrom(ua, "Opera", 4, 0) == -1;
    assert SearchFrom(ua, "Opera", 3, 0) == -1;
    assert SearchFrom(ua, "Opera", 2, 0) == -1;
    assert SearchFrom(ua, "Opera", 1, 1) == -1;
    assert SearchFrom(ua, "Opera", 0, 0) == -1;
  }

  /** The text `set_stylesheet` writes into the document. `writeln` also
      ends the line with a newline, which this model leaves out. */
  function StylesheetLink(css: string): (line: string)
    ensures IsPrefix("<LINK REL=\"stylesheet\" HREF=\"common/", line)
    ensures |line| == |css| + 38
    ensures line[|line| - 2..] == "\">"
    ensures line[36..|line| - 2] == css
  {
    "<LINK REL=\"stylesheet\" HREF=\"common/" + css + "\">"
  }
}

=== FILE: task_manager.dfy ===
/** `CTaskManagerApplication`: the command-line options the application
    understands when it is started. Printing the help text and building
    the windows are left out; the messages the application posts to itself
    are the result. */
module TaskManager {

  /** `argv[i]` names `option`: it starts with "--" and the rest is the
      option's name, compared as `strncmp` and `strcmp` compare strings
      without NUL characters. */
  predicate NamesOption(arg: string, option: string) {
    |arg| >= 2 && arg[..2] == "--" && arg[2..] == option
  }

  lemma {:induction false} NamesOptionMeans(arg: string, option: string)
    ensures NamesOption(arg, option) <==> arg == "--" + option
  {
    if arg == "--" + option {
      assert arg[..2] == "--" && arg[2..] == option;
    }
  }

  /** `IncludesOption`: some argument after the program name is
      "--" followed by the option's name. */
  method IncludesOption(argv: seq<string>, option: string) returns (found: bool)
    ensures found <==> exists i | 1 <= i < |argv| :: argv[i] == "--" + option
  {
    var i := 1;
    while i < |argv|
      invariant forall j | 1 <= j < i && j < |argv| :: argv[j] != "--" + option
    {
      NamesOptionMeans(argv[i], option);
      if |argv[i]| >= 2 && argv[i][..2] == "--" {
        if argv[i][2..] == option {
          return true;
        }
      }
      i := i + 1;
    }
    return false;
  }

  /** The functional reading of `IncludesOption`. */
  predicate Includes(argv: seq<string>, option: string) {
    exists i | 1 <= i < |argv| :: argv[i] == "--" + option
  }

  /** The messages `ArgvReceived` posts to the application. */
  datatype Message = ShowReplicant(show: bool) | TweakDeskbar | QuitRequested

  /** The place of each message in the order `ArgvReceived` posts them:
      show, hide, tweak, and the quit request last. */
  function Rank(m: Message): (n: nat)
    ensures n < 4 && (n == 3 <==> m == QuitRequested)
  {
    match m
    case ShowReplicant(show) => if show then 0 else 1
    case TweakDeskbar => 2
    case QuitRequested => 3
  }

  /** Every message comes after the ones ranked before it, and none is posted twice. */
  predicate InPostingOrder(posted: seq<Message>) {
    forall i, j | 0 <= i < j < |posted| :: Rank(posted[i]) < Rank(posted[j])
  }

  /** Every message of `posted` ranks below `n`. */
  predicate RanksBelow(posted: seq<Message>, n: nat) {
    forall i | 0 <= i < |posted| :: Rank(posted[i]) < n
  }

  /** Posting a message that ranks above every message posted so far keeps the order. */
  lemma {:induction false} PostInOrder(posted: seq<Message>, m: Message)
    requires InPostingOrder(posted) && RanksBelow(posted, Rank(m))
    ensures InPostingOrder(posted + [m]) && RanksBelow(posted + [m], Rank(m) + 1)
  {
    var p := posted + [m];
    forall i, j | 0 <= i < j < |p| ensures Rank(p[i]) < Rank(p[j]) {
      assert p[i] == posted[i];
      if j < |posted| { assert p[j] == posted[j]; }
    }
  }

  /** `m` alone when `post` holds, and nothing otherwise. */
  function PostIf(post: bool, m: Message): (r: seq<Message>)
    ensures |r| <= 1 && (m in r <==> post)
    ensures forall x | x in r :: x == m
  {
    if post then [m] else []
  }

  /** The show and hide messages posted, in rank order, are in posting order. */
  lemma {:induction false} ShowHideInOrder(a: bool, b: bool)
    ensures var p := PostIf(a, ShowReplicant(true)) + PostIf(b, ShowReplicant(false));
      InPostingOrder(p) && RanksBelow(p, 2)
  {
    PostIfStep([], a, ShowReplicant(true));
    assert [] + PostIf(a, ShowReplicant(true)) == PostIf(a, ShowReplicant(true));
    PostIfStep(PostIf(a, ShowReplicant(true)), b, ShowReplicant(false));
  }

  /** Posting, in rank order, each message whose flag holds keeps the
      posting order. */
  lemma {:induction false} PostIfInOrder(a: bool, b: bool, c: bool, d: bool)
    ensures InPostingOrder(PostIf(a, ShowReplicant(true)) + PostIf(b, ShowReplicant(false))
      + PostIf(c, TweakDeskbar) + PostIf(d, QuitRequested))
  {
    var p2 := PostIf(a, ShowReplicant(true)) + PostIf(b, ShowReplicant(false));
    ShowHideInOrder(a, b);
    PostIfStep(p2, c, TweakDeskbar);
    PostIfStep(p2 + PostIf(c, TweakDeskbar), d, QuitRequested);
  }

  /** One step of `PostIfInOrder`: posting a message that ranks above the
      ones posted so far, or posting nothing, keeps the order. */
  lemma {:induction false} PostIfStep(posted: seq<Message>, post: bool, m: Message)
    requires InPostingOrder(posted) && RanksBelow(posted, Rank(m))
    ensures InPostingOrder(posted + PostIf(post, m)) && RanksBelow(posted + PostIf(post, m), Rank(m) + 1)
  {
    if post {
      PostInOrder(posted, m);
    } else {
      assert posted + PostIf(post, m) == posted;
    }
  }

  /** The messages posted for the options given: each requested deskbar
      change in the fixed order, then a quit request during launch when
      there was any. */
  function Posted(showing: bool, hiding: bool, tweaking: bool, launching: bool): (posted: seq<Message>)
    ensures ShowReplicant(true) in posted <==> showing
    ensures ShowReplicant(false) in posted <==> hiding
    ensures TweakDeskbar in posted <==> tweaking
    ensures QuitRequested in posted <==> launching && (showing || hiding || tweaking)
    ensures QuitRequested in posted ==> posted[|posted| - 1] == QuitRequested
    ensures InPostingOrder(posted)
  {
    var quit := launching && (showing || hiding || tweaking);
    PostIfInOrder(showing, hiding, tweaking, quit);
    PostIf(showing, ShowReplicant(true)) + PostIf(hiding, ShowReplicant(false))
      + PostIf(tweaking, TweakDeskbar) + PostIf(quit, QuitRequested)
  }

  /** The deskbar options, each of which makes a launching application quit. */
  predicate AnyDeskbarOption(argv: seq<string>) {
    Includes(argv, "show_deskbar_rep") || Includes(argv, "hide_deskbar_rep") || Includes(argv, "tweak_deskbar")
  }

  /** What `ArgvReceived` leaves behind: the posted messages in order,
      whether the help text was printed, whether the installation dialog
      was opened, and whether the main window is still to be shown. */
  datatype Startup = Startup(posted: seq<Message>, help: bool, install: bool, showMainWindow: bool)

  /** `ArgvReceived`: "--help" prints the help text, quits when the
      application is launching, and overrides every other option.
      Otherwise the deskbar options post their messages in a fixed order,
      followed by a quit request when one of them was given during launch;
      "--install" opens the installation dialog instead of the main window. */
  function ArgvReceived(argv: seq<string>, launching: bool): (r: Startup)
    ensures r.help <==> Includes(argv, "help")
    ensures r.help ==> !r.install && r.showMainWindow && r.posted == (if launching then [QuitRequested] else [])
    ensures !r.help ==> (r.install <==> Includes(argv, "install")) && r.showMainWindow == !r.install
    ensures !r.help ==> (ShowReplicant(true) in r.posted <==> Includes(argv, "show_deskbar_rep"))
    ensures !r.help ==> (ShowReplicant(false) in r.posted <==> Includes(argv, "hide_deskbar_rep"))
    ensures !r.help ==> (TweakDeskbar in r.posted <==> Includes(argv, "tweak_deskbar"))
    ensures !r.help ==> (QuitRequested in r.posted <==> launching && AnyDeskbarOption(argv))
    ensures QuitRequested in r.posted ==> launching && r.posted[|r.posted| - 1] == QuitRequested
    ensures InPostingOrder(r.posted)
  {
    if Includes(argv, "help") then
      Startup(if launching then [QuitRequested] else [], true, false, true)
    else
      var posted := Posted(Includes(argv, "show_deskbar_rep"), Includes(argv, "hide_deskbar_rep"),
                           Includes(argv, "tweak_deskbar"), launching);
      var install := Includes(argv, "install");
      Startup(posted, false, install, !install)
  }

  /** With "--help" anywhere after the program name, the other arguments
      make no difference. */
  lemma {:induction false} HelpOverridesAll(argv: seq<string>, other: seq<string>, launching: bool)
    requires Includes(argv, "help") && Includes(other, "help")
    ensures ArgvReceived(argv, launching) == ArgvReceived(other, launching)
  {
  }

  /** Any deskbar option given while the application is already running
      posts its message but does not quit it; given during launch, the
      application quits after the last message. */
  lemma {:induction false} DeskbarOptionQuitsOnlyWhileLaunching(argv: seq<string>, launching: bool)
    requires !Includes(argv, "help") && AnyDeskbarOption(argv)
    ensures Includes(argv, "show_deskbar_rep") ==> ShowReplicant(true) in ArgvReceived(argv, launching).posted
    ensures Includes(argv, "hide_deskbar_rep") ==> ShowReplicant(false) in ArgvReceived(argv, launching).posted
    ensures Includes(argv, "tweak_deskbar") ==> TweakDeskbar in ArgvReceived(argv, launching).posted
    ensures (QuitRequested in ArgvReceived(argv, launching).posted) <==> launching
    ensures launching ==> (var posted := ArgvReceived(argv, launching).posted;
      posted[|posted| - 1] == QuitRequested)
  {
  }

  /** The program name is never read as an option. */
  lemma {:induction false} ProgramNameIgnored(name: string, option: string)
    ensures !Includes([name], option)
    ensures Includes([name, "--" + option], option)
  {
    assert [name, "--" + option][1] == "--" + option;
  }
}

=== FILE: team_model.dfy ===
/** `CTeamModel`: the list of running teams behind the process view. Each
    pulse the list is reconciled against a fresh snapshot of the kernel's
    team table; listeners hear of every entry added or removed, with its
    index. */
module TeamModel {
  import opened Common
  import Process

  /** The kernel marks a snapshot item as consumed by setting its team id to this. */
  const INT_MAX: int := 0x7fff_ffff

  /** A `team_info` from the kernel's team table. `valid` stands for the
      `InitCheck()` of an entry built from it: the team has an image path or
      is still known to the kernel, which the model cannot query. */
  datatype TeamInfo = TeamInfo(team: int, name: string, valid: bool, threadCount: int)

  /** A `CTeamModelEntry`: the team id and name fixed when it was created,
      and the `team_info` it was last updated from. */
  datatype Entry = Entry(teamId: int, name: string, info: TeamInfo)

  /** The notices `SendNotices` and the listeners receive. */
  datatype Notice = ItemAdded(index: nat, teamId: int) | ItemRemoved(index: nat, teamId: int)

  function NewEntry(info: TeamInfo): (e: Entry)
    ensures e.teamId == info.team && e.info == info
  {
    Entry(info.team, info.name, info)
  }

  function Ids(es: seq<Entry>): (r: seq<int>)
    ensures |r| == |es|
    ensures forall i | 0 <= i < |es| :: r[i] == es[i].teamId
  {
    seq(|es|, i requires 0 <= i < |es| => es[i].teamId)
  }

  function Names(es: seq<Entry>): (r: seq<string>)
    ensures |r| == |es|
    ensures forall i | 0 <= i < |es| :: r[i] == es[i].name
  {
    seq(|es|, i requires 0 <= i < |es| => es[i].name)
  }

  function SnapIds(snap: seq<TeamInfo>): (r: seq<int>)
    ensures |r| == |snap|
    ensures forall i | 0 <= i < |snap| :: r[i] == snap[i].team
  {
    seq(|snap|, i requires 0 <= i < |snap| => snap[i].team)
  }

  predicate DistinctIds(es: seq<Entry>) {
    forall a, b | 0 <= a < b < |es| :: es[a].teamId != es[b].teamId
  }

  /** No team id occurs twice, apart from consumed items. */
  predicate DistinctTeams(snap: seq<TeamInfo>) {
    forall a, b | 0 <= a < b < |snap| :: snap[a].team == snap[b].team ==> snap[a].team == INT_MAX
  }

  /** The first entry of the list with team id `id`. */
  function FindEntry(es: seq<Entry>, id: int): (r: Option<nat>)
    ensures r.Some? ==> r.value < |es| && es[r.value].teamId == id
    ensures r.Some? ==> forall j | 0 <= j < r.value :: es[j].teamId != id
    ensures r.None? <==> id !in Ids(es)
  {
    IndexOf(Ids(es), id)
  }

  /** The first entry of the list named `name`. */
  function FindName(es: seq<Entry>, name: string): (r: Option<nat>)
    ensures r.Some? ==> r.value < |es| && es[r.value].name == name
    ensures r.Some? ==> forall j | 0 <= j < r.value :: es[j].name != name
    ensures r.None? ==> forall j | 0 <= j < |es| :: es[j].name != name
  {
    IndexOf(Names(es), name)
  }

  /** The first snapshot item with team id `id`. */
  function FindTeam(snap: seq<TeamInfo>, id: int): (r: Option<nat>)
    ensures r.Some? ==> r.value < |snap| && snap[r.value].team == id
    ensures r.Some? ==> forall j | 0 <= j < r.value :: snap[j].team != id
    ensures r.None? <==> id !in SnapIds(snap)
  {
    IndexOf(SnapIds(snap), id)
  }

  // ---- adding and removing ----

  /** `AddTeam(team_info *)`: an entry whose `InitCheck` succeeds is appended
      and announced with its index, the last one; any other is dropped. */
  function AddTeam(es: seq<Entry>, info: TeamInfo): (r: (seq<Entry>, seq<Notice>))
    ensures info.valid ==> |r.0| == |es| + 1 && r.0[..|es|] == es && r.0[|es|] == NewEntry(info)
    ensures info.valid ==> r.1 == [ItemAdded(|r.0| - 1, info.team)]
    ensures !info.valid ==> r.0 == es && r.1 == []
  {
    if info.valid then (es + [NewEntry(info)], [ItemAdded(|es|, info.team)]) else (es, [])
  }

  /** `RemoveEntryAt`: the entry at `index` leaves the list and is announced
      with that index. */
  function RemoveEntryAt(es: seq<Entry>, index: nat): (r: (seq<Entry>, seq<Notice>))
    requires index < |es|
    ensures r.0 == es[..index] + es[index + 1..]
    ensures r.1 == [ItemRemoved(index, es[index].teamId)]
  {
    (RemoveAt(es, index), [ItemRemoved(index, es[index].teamId)])
  }

  /** `RemoveTeam`: the first entry with team id `id` is removed; the
      others keep their order. Without such an entry nothing happens. */
  function RemoveTeam(es: seq<Entry>, id: int): (r: (seq<Entry>, seq<Notice>))
    ensures id !in Ids(es) ==> r == (es, [])
    ensures id in Ids(es) ==> exists k | 0 <= k < |es| ::
      es[k].teamId == id && (forall j | 0 <= j < k :: es[j].teamId != id)
      && r.0 == es[..k] + es[k + 1..] && r.1 == [ItemRemoved(k, id)]
  {
    match FindEntry(es, id)
    case None => (es, [])
    case Some(k) => RemoveEntryAt(es, k)
  }

  /** Adding a team the list does not hold and removing it again restores the list. */
  lemma {:induction false} RemoveTeamUndoesAddTeam(es: seq<Entry>, info: TeamInfo)
    requires info.valid && info.team !in Ids(es)
    ensures RemoveTeam(AddTeam(es, info).0, info.team).0 == es
    ensures RemoveTeam(AddTeam(es, info).0, info.team).1 == [ItemRemoved(|es|, info.team)]
  {
    var added := AddTeam(es, info).0;
    assert FindEntry(added, info.team) == Some(|es|) by {
      assert Ids(added) == Ids(es) + [info.team];
    }
    assert added[..|es|] == es;
  }

  // ---- reconciliation ----

  /** The first loop of `Update`: walking the list, an entry whose team is
      still in the snapshot is updated from it and the snapshot item is
      consumed; any other entry is removed, announced with its current
      index (`index`, the count of entries kept so far). */
  function Reconcile(es: seq<Entry>, snap: seq<TeamInfo>, index: nat): (r: (seq<Entry>, seq<TeamInfo>, seq<Notice>))
    ensures |r.1| == |snap|
    ensures |r.0| <= |es|
  {
    if es == [] then ([], snap, [])
    else
      var e := es[0];
      match FindTeam(snap, e.teamId)
      case Some(k) =>
        var rest := Reconcile(es[1..], snap[k := snap[k].(team := INT_MAX)], index + 1);
        ([e.(info := snap[k])] + rest.0, rest.1, rest.2)
      case None =>
        var rest := Reconcile(es[1..], snap, index);
        (rest.0, rest.1, [ItemRemoved(index, e.teamId)] + rest.2)
  }

  /** The second loop of `Update`: every snapshot item not consumed is added. */
  function AddNew(es: seq<Entry>, snap: seq<TeamInfo>): (r: (seq<Entry>, seq<Notice>))
    decreases |snap|
  {
    if snap == [] then (es, [])
    else
      var first := if snap[0].team != INT_MAX then AddTeam(es, snap[0]) else (es, []);
      var rest := AddNew(first.0, snap[1..]);
      (rest.0, first.1 + rest.1)
  }

  /** `CTeamModel::Update` against the snapshot `snap` of the team table. */
  function Update(es: seq<Entry>, snap: seq<TeamInfo>): (r: (seq<Entry>, seq<Notice>))
  {
    var (kept, left, removed) := Reconcile(es, snap, 0);
    var (result, added) := AddNew(kept, left);
    (result, removed + added)
  }

  // ---- reference definitions of the outcome ----

  /** The entries whose team is in the snapshot, in list order, each updated
      from its snapshot item. */
  function Kept(es: seq<Entry>, snap: seq<TeamInfo>): seq<Entry>
  {
    if es == [] then []
    else match FindTeam(snap, es[0].teamId)
      case Some(k) => [es[0].(info := snap[k])] + Kept(es[1..], snap)
      case None => Kept(es[1..], snap)
  }

  /** The snapshot with every item whose team is listed in `ids` consumed. */
  function Consumed(snap: seq<TeamInfo>, ids: seq<int>): (r: seq<TeamInfo>)
    ensures |r| == |snap|
  {
    seq(|snap|, j requires 0 <= j < |snap| => if snap[j].team in ids then snap[j].(team := INT_MAX) else snap[j])
  }

  /** Entries for the valid snapshot items not consumed, in snapshot order. */
  function Fresh(snap: seq<TeamInfo>): seq<Entry>
  {
    if snap == [] then []
    else (if snap[0].team != INT_MAX && snap[0].valid then [NewEntry(snap[0])] else []) + Fresh(snap[1..])
  }

  lemma {:induction false} AddNewAppendsFresh(es: seq<Entry>, snap: seq<TeamInfo>)
    ensures AddNew(es, snap).0 == es + Fresh(snap)
    decreases |snap|
  {
    if snap != [] {
      var first := if snap[0].team != INT_MAX then AddTeam(es, snap[0]) else (es, []);
      AddNewAppendsFresh(first.0, snap[1..]);
    }
  }

  /** Consuming item `k`, whose team is `id`, changes no lookup of another team. */
  lemma {:induction false} KeptIgnoresConsumedItem(es: seq<Entry>, snap: seq<TeamInfo>, k: nat, id: int)
    requires k < |snap| && snap[k].team == id
    requires id !in Ids(es) && INT_MAX !in Ids(es)
    ensures Kept(es, snap[k := snap[k].(team := INT_MAX)]) == Kept(es, snap)
  {
    if es != [] {
      var snap2 := snap[k := snap[k].(team := INT_MAX)];
      assert Ids(es[1..]) == Ids(es)[1..];
      KeptIgnoresConsumedItem(es[1..], snap, k, id);
      var x := es[0].teamId;
      assert x != id && x != INT_MAX by { assert Ids(es)[0] == x; }
      match FindTeam(snap, x)
      case None =>
        assert x !in SnapIds(snap2) by {
          forall j | 0 <= j < |snap2| ensures SnapIds(snap2)[j] != x {
            assert j != k ==> SnapIds(snap)[j] == snap2[j].team;
          }
        }
      case Some(m) =>
        assert m != k;
        assert FindTeam(snap2, x) == Some(m) by {
          assert SnapIds(snap2)[m] == x;
          forall j | 0 <= j < m ensures SnapIds(snap2)[j] != x {
            assert j != k ==> SnapIds(snap)[j] == snap2[j].team;
          }
        }
    }
  }

  /** The first loop of `Update` leaves the entries `Kept` describes and the
      snapshot with the listed teams consumed. */
  lemma {:induction false} ReconcileMeaning(es: seq<Entry>, snap: seq<TeamInfo>, index: nat)
    requires DistinctIds(es) && INT_MAX !in Ids(es)
    requires DistinctTeams(snap)
    ensures Reconcile(es, snap, index).0 == Kept(es, snap)
    ensures Reconcile(es, snap, index).1 == Consumed(snap, Ids(es))
  {
    if es != [] {
      var e := es[0];
      var rest := es[1..];
      assert Ids(es) == [e.teamId] + Ids(rest);
      assert e.teamId != INT_MAX;
      assert DistinctIds(rest);
      assert e.teamId !in Ids(rest);
      match FindTeam(snap, e.teamId)
      case Some(k) =>
        var snap2 := snap[k := snap[k].(team := INT_MAX)];
        assert DistinctTeams(snap2);
        ReconcileMeaning(rest, snap2, index + 1);
        KeptIgnoresConsumedItem(rest, snap, k, e.teamId);
        forall j | 0 <= j < |snap| ensures Consumed(snap2, Ids(rest))[j] == Consumed(snap, Ids(es))[j] {
          if j != k {
            assert snap[j].team != e.teamId;
          }
        }
      case None =>
        ReconcileMeaning(rest, snap, index);
        forall j | 0 <= j < |snap| ensures Consumed(snap, Ids(rest))[j] == Consumed(snap, Ids(es))[j] {
          assert SnapIds(snap)[j] == snap[j].team;
        }
    }
  }

  /** After `Update` the list is the old entries still in the snapshot, in
      their order and updated, followed by entries for the valid new teams
      in snapshot order. Team ids are unique in the kernel's table and below
      `INT_MAX`. */
  lemma {:induction false} UpdateMatchesReference(es: seq<Entry>, snap: seq<TeamInfo>)
    requires DistinctIds(es) && INT_MAX !in Ids(es)
    requires DistinctTeams(snap) && INT_MAX !in SnapIds(snap)
    ensures Update(es, snap).0 == Kept(es, snap) + Fresh(Consumed(snap, Ids(es)))
  {
    ReconcileMeaning(es, snap, 0);
    var r := Reconcile(es, snap, 0);
    AddNewAppendsFresh(r.0, r.1);
  }

  lemma {:induction false} KeptMembers(es: seq<Entry>, snap: seq<TeamInfo>, id: int)
    ensures id in Ids(Kept(es, snap)) <==> id in Ids(es) && id in SnapIds(snap)
  {
    if es != [] {
      KeptMembers(es[1..], snap, id);
      assert Ids(es) == [es[0].teamId] + Ids(es[1..]);
      match FindTeam(snap, es[0].teamId)
      case Some(k) =>
        assert Ids(Kept(es, snap)) == [es[0].teamId] + Ids(Kept(es[1..], snap));
      case None =>
    }
  }

  lemma {:induction false} FreshMembers(snap: seq<TeamInfo>, id: int)
    requires id != INT_MAX
    ensures id in Ids(Fresh(snap)) <==> exists j | 0 <= j < |snap| :: snap[j].team == id && snap[j].valid
  {
    if snap != [] {
      FreshMembers(snap[1..], id);
      var head := if snap[0].team != INT_MAX && snap[0].valid then [NewEntry(snap[0])] else [];
      assert Ids(Fresh(snap)) == Ids(head) + Ids(Fresh(snap[1..]));
      if exists j | 0 <= j < |snap| :: snap[j].team == id && snap[j].valid {
        var j :| 0 <= j < |snap| && snap[j].team == id && snap[j].valid;
        if j > 0 {
          assert snap[1..][j - 1] == snap[j];
        }
      }
      if exists j | 0 <= j < |snap[1..]| :: snap[1..][j].team == id && snap[1..][j].valid {
        var j :| 0 <= j < |snap[1..]| && snap[1..][j].team == id && snap[1..][j].valid;
        assert snap[j + 1] == snap[1..][j];
      }
    }
  }

  /** A team is listed after `Update` exactly when it is in the snapshot and
      was either listed before or is valid. In particular no entry survives
      whose team has left the snapshot. */
  lemma {:induction false} UpdateMembers(es: seq<Entry>, snap: seq<TeamInfo>, id: int)
    requires DistinctIds(es) && INT_MAX !in Ids(es)
    requires DistinctTeams(snap) && INT_MAX !in SnapIds(snap)
    ensures id in Ids(Update(es, snap).0) <==>
      id in SnapIds(snap) && (id in Ids(es) || exists j | 0 <= j < |snap| :: snap[j].team == id && snap[j].valid)
  {
    UpdateMatchesReference(es, snap);
    var consumed := Consumed(snap, Ids(es));
    assert Ids(Update(es, snap).0) == Ids(Kept(es, snap)) + Ids(Fresh(consumed));
    KeptMembers(es, snap, id);
    if id != INT_MAX {
      FreshMembers(consumed, id);
      if exists j | 0 <= j < |snap| :: snap[j].team == id && snap[j].valid {
        var j :| 0 <= j < |snap| && snap[j].team == id && snap[j].valid;
        assert SnapIds(snap)[j] == id;
        if id !in Ids(es) {
          assert consumed[j].team == id && consumed[j].valid;
        }
      }
      if exists j | 0 <= j < |consumed| :: consumed[j].team == id && consumed[j].valid {
        var j :| 0 <= j < |consumed| && consumed[j].team == id && consumed[j].valid;
        assert snap[j].team !in Ids(es);
        assert SnapIds(snap)[j] == id;
      }
    } else {
      assert id !in SnapIds(snap);
      forall j | 0 <= j < |Ids(Fresh(consumed))| ensures Ids(Fresh(consumed))[j] != INT_MAX {
        FreshNoConsumed(consumed, j);
      }
    }
  }

  lemma {:induction false} FreshNoConsumed(snap: seq<TeamInfo>, j: nat)
    requires j < |Fresh(snap)|
    ensures Fresh(snap)[j].teamId != INT_MAX
  {
    var head := if snap[0].team != INT_MAX && snap[0].valid then [NewEntry(snap[0])] else [];
    if j >= |head| {
      FreshNoConsumed(snap[1..], j - |head|);
    }
  }

  // ---- scripting ----

  /** The team specifiers `ResolveSpecifier` understands, each with the
      message field it reads (`None` when the field is missing). */
  datatype TeamSpecifier =
    | NameSpecifier(name: Option<string>)
    | IdSpecifier(id: Option<int>)
    | IndexSpecifier(index: Option<int>)
    | ReverseIndexSpecifier(index: Option<int>)

  datatype Resolution = Resolved(entry: nat) | Failed(status: Status)

  /** `ResolveSpecifier` for the "Team" property: the first entry with the
      name or team id; an index in [0, count), counted from the front or the
      back. A missing field or an unknown name or id gives B_BAD_VALUE, an
      index out of range B_BAD_INDEX. */
  function ResolveTeam(es: seq<Entry>, spec: TeamSpecifier): (r: Resolution)
    ensures r.Resolved? ==> r.entry < |es|
    ensures r.Failed? ==> r.status == BadValue || r.status == BadIndex
    ensures spec.NameSpecifier? && r.Resolved? ==>
      spec.name == Some(es[r.entry].name) && forall j | 0 <= j < r.entry :: es[j].name != es[r.entry].name
    ensures spec.NameSpecifier? && r.Failed? ==>
      r.status == BadValue && (spec.name.None? || forall j | 0 <= j < |es| :: es[j].name != spec.name.value)
    ensures spec.IdSpecifier? && r.Resolved? ==>
      spec.id == Some(es[r.entry].teamId) && forall j | 0 <= j < r.entry :: es[j].teamId != es[r.entry].teamId
    ensures spec.IdSpecifier? && r.Failed? ==>
      r.status == BadValue && (spec.id.None? || spec.id.value !in Ids(es))
    ensures (spec.IndexSpecifier? || spec.ReverseIndexSpecifier?) ==>
      (r == Failed(BadValue) <==> spec.index.None?)
    ensures (spec.IndexSpecifier? || spec.ReverseIndexSpecifier?) && spec.index.Some? ==>
      (r.Resolved? <==> 0 <= spec.index.value < |es|)
    ensures spec.IndexSpecifier? && r.Resolved? ==> r.entry == spec.index.value
    ensures spec.ReverseIndexSpecifier? && r.Resolved? ==> r.entry == |es| - spec.index.value - 1
  {
    match spec
    case NameSpecifier(name) =>
      if name.None? then Failed(BadValue)
      else (match FindName(es, name.value)
        case Some(i) => Resolved(i)
        case None => Failed(BadValue))
    case IdSpecifier(id) =>
      if id.None? then Failed(BadValue)
      else (match FindEntry(es, id.value)
        case Some(i) => Resolved(i)
        case None => Failed(BadValue))
    case IndexSpecifier(index) =>
      if index.None? then Failed(BadValue)
      else if 0 <= index.value < |es| then Resolved(index.value)
      else Failed(BadIndex)
    case ReverseIndexSpecifier(index) =>
      if index.None? then Failed(BadValue)
      else if 0 <= index.value < |es| then Resolved(|es| - index.value - 1)
      else Failed(BadIndex)
  }

  /** Resolving by id finds the entry an id was listed with, and counting
      from the back addresses the same entries as counting from the front. */
  lemma {:induction false} ResolveTeamConsistent(es: seq<Entry>, i: nat)
    requires i < |es| && DistinctIds(es)
    ensures ResolveTeam(es, IdSpecifier(Some(es[i].teamId))) == Resolved(i)
    ensures ResolveTeam(es, ReverseIndexSpecifier(Some(i))) == ResolveTeam(es, IndexSpecifier(Some(|es| - 1 - i)))
  {
    assert es[i].teamId in Ids(es) by { assert Ids(es)[i] == es[i].teamId; }
  }

  // ---- the "Priority" property ----

  /** Setting a team entry's "Priority": the value comes from the "data"
      field and must lie in 0..120; otherwise B_BAD_VALUE and nothing
      changes. A missing field gives the lookup's error. `prios` are the
      thread priorities of the team. */
  function SetPriorityProperty(data: Option<int>, prios: seq<int>): (r: (Status, seq<int>))
    ensures data.None? ==> r == (NameNotFound, prios)
    ensures data.Some? && !(0 <= data.value <= 120) ==> r == (BadValue, prios)
    ensures data.Some? && 0 <= data.value <= 120 ==> r == Process.SetBasePriority(prios, data.value)
  {
    match data
    case None => (NameNotFound, prios)
    case Some(prio) =>
      if 0 <= prio <= 120 then Process.SetBasePriority(prios, prio) else (BadValue, prios)
  }

  /** A priority the property accepts is the team's new base priority, as long as no thread is clamped. */
  lemma {:induction false} SetPriorityPropertySetsBase(p: int, prios: seq<int>)
    requires 0 <= p <= 120 && prios != []
    requires forall i | 0 <= i < |prios| :: 0 <= prios[i] < Process.REALTIME_PRIORITY
    requires forall i | 0 <= i < |prios| ::
      0 <= p + (prios[i] - Process.GetBasePriority(prios).1) <= Process.MAX_TIMESHARING_PRIORITY
    ensures SetPriorityProperty(Some(p), prios).0 == Ok
    ensures Process.GetBasePriority(SetPriorityProperty(Some(p), prios).1) == (Ok, p)
  {
    Process.SetThenGetBasePriority(prios, p);
  }
}

=== FILE: url_text.dfy ===
/** `CURLTextView`: the text view that finds URLs in inserted text, marks
    them with their own text runs and remembers where each one is. */
module UrlText {
  import opened Common

  /** `enumUrlType`. */
  datatype UrlType = NoUrl | Mail | Http | File

  /** The recognised prefixes, in the order they are tried, with the type each gives. */
  const PREFIXES: seq<string> := ["http://", "file://", "mailto:"]
  const PREFIX_TYPES: seq<UrlType> := [Http, File, Mail]

  /** Characters besides letters and digits that a URL may contain. */
  predicate IsUrlPunctuation(c: char) {
    c == '/' || c == '_' || c == '-' || c == '.' || c == '%' || c == '@' || c == '?' || c == '=' || c == ':'
  }

  predicate IsUrlChar(c: char) { IsAlnum(c) || IsUrlPunctuation(c) }

  predicate AllUrlChars(w: string) { forall k | 0 <= k < |w| :: IsUrlChar(w[k]) }

  /** A word is a candidate for prefix `n` when it is longer than the prefix and starts with it. */
  predicate Candidate(w: string, n: nat)
    requires n < |PREFIXES|
  {
    |PREFIXES[n]| < |w| && IsPrefix(PREFIXES[n], w)
  }

  /** The loop over the prefix list from prefix number `n` on: the first
      candidate prefix decides, and a character outside the URL alphabet
      makes the word no URL at all. */
  function UrlTypeFrom(w: string, n: nat): UrlType
    requires n <= |PREFIXES|
    decreases |PREFIXES| - n
  {
    if n == |PREFIXES| then NoUrl
    else if Candidate(w, n) then
      if AllUrlChars(w) then PREFIX_TYPES[n] else NoUrl
    else UrlTypeFrom(w, n + 1)
  }

  /** `CURLInfo::URLType` on the word `text[start..end]`. */
  function UrlTypeOf(w: string): UrlType
  {
    UrlTypeFrom(w, 0)
  }

  /** A word is a URL exactly when it is longer than one of the prefixes,
      starts with it and holds only URL characters; the prefix gives the type. */
  lemma {:induction false} UrlTypeOfMeaning(w: string)
    ensures UrlTypeOf(w) == Http <==> AllUrlChars(w) && |w| > 7 && IsPrefix("http://", w)
    ensures UrlTypeOf(w) == File <==> AllUrlChars(w) && |w| > 7 && IsPrefix("file://", w)
    ensures UrlTypeOf(w) == Mail <==> AllUrlChars(w) && |w| > 7 && IsPrefix("mailto:", w)
  {
    assert IsPrefix("http://", w) ==> !IsPrefix("file://", w) && !IsPrefix("mailto:", w) by {
      if IsPrefix("http://", w) { assert w[0] == 'h'; }
    }
    assert IsPrefix("file://", w) ==> !IsPrefix("mailto:", w) by {
      if IsPrefix("file://", w) { assert w[0] == 'f'; }
    }
  }

  /** The characters that end a word. */
  predicate IsBoundary(c: char) {
    c == ' ' || c == '\t' || c == '\r' || c == '\n' || c == ')' || c == '('
  }

  /** A URL found in the text: its range `[start, end)` and its type. */
  datatype UrlInfo = UrlInfo(start: int, end: int, kind: UrlType)

  /** The URL the word `text[start..end]` forms, if any. */
  function Emit(text: string, start: nat, end: nat): (r: seq<UrlInfo>)
    requires start <= end <= |text|
    ensures |r| <= 1
    ensures |r| == 1 ==> r[0] == UrlInfo(start, end, UrlTypeOf(text[start..end])) && start < end
    ensures |r| == 0 <==> start == end || UrlTypeOf(text[start..end]) == NoUrl
  {
    if end - start >= 1 && UrlTypeOf(text[start..end]) != NoUrl then
      [UrlInfo(start, end, UrlTypeOf(text[start..end]))]
    else []
  }

  /** Whether a reported URL is a genuine one: a non-empty range of the text
      without a boundary character, of the type its word has. */
  predicate WellFormed(text: string, u: UrlInfo) {
    0 <= u.start < u.end <= |text|
    && u.kind != NoUrl && u.kind == UrlTypeOf(text[u.start..u.end])
    && forall k | u.start <= k < u.end :: !IsBoundary(text[k])
  }

  /** Every URL in `us` is genuine and starts at `from` or later. */
  predicate AllWellFormed(text: string, us: seq<UrlInfo>, from: int) {
    forall j | 0 <= j < |us| :: WellFormed(text, us[j]) && from <= us[j].start
  }

  /** Each URL ends before the next one starts. */
  predicate Ordered(us: seq<UrlInfo>) {
    forall j | 0 <= j < |us| - 1 :: us[j].end < us[j + 1].start
  }

  /** The loop of `InsertText` from position `i`, with the current word
      starting at `wordStart`. A word ends at a boundary character or at the
      last character. With `includeLast` false the word ending at the last
      character is taken as `[wordStart, i)`, as the source does, so that
      character is left out; with `includeLast` true it is included. */
  function ScanFrom(text: string, i: nat, wordStart: nat, includeLast: bool): (r: seq<UrlInfo>)
    requires wordStart <= i <= |text|
    requires forall k | wordStart <= k < i :: !IsBoundary(text[k])
    decreases |text| - i
  {
    if i == |text| then []
    else if IsBoundary(text[i]) || i == |text| - 1 then
      var end := if includeLast && !IsBoundary(text[i]) then i + 1 else i;
      var found := Emit(text, wordStart, end);
      var rest := ScanFrom(text, i + 1, i + 1, includeLast);
      found + rest
    else ScanFrom(text, i + 1, wordStart, includeLast)
  }

  /** A word without a boundary character forms a genuine URL, if any. */
  lemma {:induction false} EmitWellFormed(text: string, start: nat, end: nat)
    requires start <= end <= |text|
    requires forall k | start <= k < end :: !IsBoundary(text[k])
    ensures AllWellFormed(text, Emit(text, start, end), start)
  {
  }

  lemma {:induction false} AllWellFormedConcat(text: string, a: seq<UrlInfo>, b: seq<UrlInfo>, from: int, later: int)
    requires from <= later
    requires AllWellFormed(text, a, from) && AllWellFormed(text, b, later)
    ensures AllWellFormed(text, a + b, from)
  {
    forall j | 0 <= j < |a + b| ensures WellFormed(text, (a + b)[j]) && from <= (a + b)[j].start {
      if j >= |a| { assert (a + b)[j] == b[j - |a|]; }
    }
  }

  /** Everything the scan reports is a URL word of the text at or after
      `wordStart`. */
  lemma {:induction false} ScanFromWellFormed(text: string, i: nat, wordStart: nat, includeLast: bool)
    requires wordStart <= i <= |text|
    requires forall k | wordStart <= k < i :: !IsBoundary(text[k])
    ensures AllWellFormed(text, ScanFrom(text, i, wordStart, includeLast), wordStart)
    decreases |text| - i
  {
    if i == |text| {
    } else if IsBoundary(text[i]) || i == |text| - 1 {
      var end := if includeLast && !IsBoundary(text[i]) then i + 1 else i;
      var found := Emit(text, wordStart, end);
      var rest := ScanFrom(text, i + 1, i + 1, includeLast);
      ScanFromWellFormed(text, i + 1, i + 1, includeLast);
      EmitWellFormed(text, wordStart, end);
      AllWellFormedConcat(text, found, rest, wordStart, i + 1);
      assert ScanFrom(text, i, wordStart, includeLast) == found + rest;
    } else {
      ScanFromWellFormed(text, i + 1, wordStart, includeLast);
    }
  }

  /** A URL ending before an ordered list starts keeps it ordered when put in front. */
  lemma {:induction false} OrderedCons(u: UrlInfo, rest: seq<UrlInfo>)
    requires Ordered(rest)
    requires rest != [] ==> u.end < rest[0].start
    ensures Ordered([u] + rest)
  {
    var r := [u] + rest;
    forall j | 0 <= j < |r| - 1 ensures r[j].end < r[j + 1].start {
      if j > 0 { assert r[j] == rest[j - 1] && r[j + 1] == rest[j]; }
      else { assert r[1] == rest[0]; }
    }
  }

  /** The scan reports URLs in text order. */
  lemma {:induction false} ScanFromOrdered(text: string, i: nat, wordStart: nat, includeLast: bool)
    requires wordStart <= i <= |text|
    requires forall k | wordStart <= k < i :: !IsBoundary(text[k])
    ensures Ordered(ScanFrom(text, i, wordStart, includeLast))
    decreases |text| - i
  {
    if i == |text| {
    } else if IsBoundary(text[i]) || i == |text| - 1 {
      ScanFromOrdered(text, i + 1, i + 1, includeLast);
      WordEndOrdered(text, i, wordStart, includeLast);
    } else {
      ScanFromOrdered(text, i + 1, wordStart, includeLast);
    }
  }

  /** Where a word ends, the URL it forms comes before those the rest of
      the scan reports. */
  lemma {:induction false} WordEndOrdered(text: string, i: nat, wordStart: nat, includeLast: bool)
    requires wordStart <= i < |text| && (IsBoundary(text[i]) || i == |text| - 1)
    requires forall k | wordStart <= k < i :: !IsBoundary(text[k])
    requires Ordered(ScanFrom(text, i + 1, i + 1, includeLast))
    ensures Ordered(ScanFrom(text, i, wordStart, includeLast))
  {
    var end := if includeLast && !IsBoundary(text[i]) then i + 1 else i;
    var found := Emit(text, wordStart, end);
    var rest := ScanFrom(text, i + 1, i + 1, includeLast);
    var r := found + rest;
    assert ScanFrom(text, i, wordStart, includeLast) == r;
    if |found| == 1 && |rest| > 0 {
      ScanFromWellFormed(text, i + 1, i + 1, includeLast);
      assert i + 1 <= rest[0].start;
      assert found == [found[0]];
      OrderedCons(found[0], rest);
    } else if |found| == 1 {
      assert r == found;
    } else if |found| == 0 {
      assert r == rest;
    }
  }

  /** The URLs `InsertText` finds, as written. */
  function FindUrlsAsWritten(text: string): (r: seq<UrlInfo>)
    ensures forall j {:trigger WellFormed(text, r[j])} | 0 <= j < |r| :: WellFormed(text, r[j])
    ensures Ordered(r)
  {
    ScanFromWellFormed(text, 0, 0, false);
    ScanFromOrdered(text, 0, 0, false);
    ScanFrom(text, 0, 0, false)
  }

  /** The URLs `InsertText` finds when the last word runs to the end of the text. */
  function FindUrls(text: string): (r: seq<UrlInfo>)
    ensures forall j {:trigger WellFormed(text, r[j])} | 0 <= j < |r| :: WellFormed(text, r[j])
    ensures Ordered(r)
  {
    ScanFromWellFormed(text, 0, 0, true);
    ScanFromOrdered(text, 0, 0, true);
    ScanFrom(text, 0, 0, true)
  }

  /** A word of the text: a maximal range without boundary characters. */
  predicate IsWord(text: string, s: nat, e: nat) {
    s < e <= |text|
    && (s == 0 || IsBoundary(text[s - 1]))
    && (e == |text| || IsBoundary(text[e]))
    && forall k | s <= k < e :: !IsBoundary(text[k])
  }

  /** Scanning from before a word start reaches that word start with a fresh word. */
  lemma {:induction false} ScanReaches(text: string, i: nat, ws: nat, s: nat, inc: bool)
    requires ws <= i < s < |text|
    requires forall k | ws <= k < i :: !IsBoundary(text[k])
    requires IsBoundary(text[s - 1])
    ensures exists pre :: ScanFrom(text, i, ws, inc) == pre + ScanFrom(text, s, s, inc)
    decreases s - i, 1
  {
    if IsBoundary(text[i]) {
      ScanReachesFromBoundary(text, i, ws, s, inc);
    } else {
      assert i + 1 < s;
      assert ScanFrom(text, i, ws, inc) == ScanFrom(text, i + 1, ws, inc);
      ScanReaches(text, i + 1, ws, s, inc);
    }
  }

  /** The case of `ScanReaches` at a boundary character: the word ends there
      and the scan starts afresh after it. */
  lemma {:induction false} ScanReachesFromBoundary(text: string, i: nat, ws: nat, s: nat, inc: bool)
    requires ws <= i < s < |text| && IsBoundary(text[i])
    requires forall k | ws <= k < i :: !IsBoundary(text[k])
    requires IsBoundary(text[s - 1])
    ensures exists pre :: ScanFrom(text, i, ws, inc) == pre + ScanFrom(text, s, s, inc)
    decreases s - i, 0
  {
    var e := Emit(text, ws, i);
    var next := ScanFrom(text, i + 1, i + 1, inc);
    ScanFromAtBoundary(text, i, ws, inc);
    if i + 1 == s {
      assert ScanFrom(text, i, ws, inc) == e + ScanFrom(text, s, s, inc);
    } else {
      ScanReaches(text, i + 1, i + 1, s, inc);
      var pre :| next == pre + ScanFrom(text, s, s, inc);
      assert e + next == (e + pre) + ScanFrom(text, s, s, inc);
    }
  }

  /** At a boundary character the scan emits the word before it and starts
      a fresh word after it. */
  lemma {:induction false} ScanFromAtBoundary(text: string, i: nat, ws: nat, inc: bool)
    requires ws <= i < |text| && IsBoundary(text[i])
    requires forall k | ws <= k < i :: !IsBoundary(text[k])
    ensures ScanFrom(text, i, ws, inc) == Emit(text, ws, i) + ScanFrom(text, i + 1, i + 1, inc)
  {
  }

  /** Before the last character, a character inside a word moves the scan on. */
  lemma {:induction false} ScanFromInWord(text: string, i: nat, ws: nat, inc: bool)
    requires ws <= i < |text| - 1 && !IsBoundary(text[i])
    requires forall k | ws <= k < i :: !IsBoundary(text[k])
    ensures ScanFrom(text, i, ws, inc) == ScanFrom(text, i + 1, ws, inc)
  {
  }

  /** With the last character kept, a word ending the text is emitted whole. */
  lemma {:induction false} ScanFromAtLast(text: string, i: nat, ws: nat)
    requires ws <= i == |text| - 1 && !IsBoundary(text[i])
    requires forall k | ws <= k < i :: !IsBoundary(text[k])
    ensures ScanFrom(text, i, ws, true) == Emit(text, ws, |text|)
  {
    assert ScanFrom(text, i + 1, i + 1, true) == [];
    assert Emit(text, ws, |text|) + [] == Emit(text, ws, |text|);
  }

  /** Inside a word the scan only moves on, until the word ends. */
  lemma {:induction false} ScanThroughWord(text: string, s: nat, i: nat, e: nat)
    requires IsWord(text, s, e) && s <= i < e
    ensures e < |text| ==> ScanFrom(text, i, s, true) == Emit(text, s, e) + ScanFrom(text, e + 1, e + 1, true)
    ensures e == |text| ==> ScanFrom(text, i, s, true) == Emit(text, s, e)
    decreases e - i
  {
    if i == e - 1 && e == |text| {
      ScanFromAtLast(text, i, s);
    } else if i == e - 1 {
      ScanFromInWord(text, i, s, true);
      ScanFromAtBoundary(text, e, s, true);
    } else {
      ScanFromInWord(text, i, s, true);
      ScanThroughWord(text, s, i + 1, e);
    }
  }

  /** Every word of the text that is a URL is found, with its full range. */
  lemma {:induction false} FindUrlsFindsEveryUrlWord(text: string, s: nat, e: nat)
    requires IsWord(text, s, e)
    requires UrlTypeOf(text[s..e]) != NoUrl
    ensures UrlInfo(s, e, UrlTypeOf(text[s..e])) in FindUrls(text)
  {
    var u := UrlInfo(s, e, UrlTypeOf(text[s..e]));
    ScanThroughWord(text, s, s, e);
    assert u in ScanFrom(text, s, s, true) by {
      assert Emit(text, s, e) == [u];
    }
    if s > 0 {
      ScanReaches(text, 0, 0, s, true);
    }
  }

  /** As written, a URL that ends the text loses its last character, and a
      URL one character longer than its prefix is not found at all. */
  lemma {:induction false} FindUrlsAsWrittenDropsLastChar()
    ensures FindUrlsAsWritten("http://ab") == [UrlInfo(0, 8, Http)]
    ensures FindUrls("http://ab") == [UrlInfo(0, 9, Http)]
    ensures FindUrlsAsWritten("http://a") == []
    ensures FindUrls("http://a") == [UrlInfo(0, 8, Http)]
  {
    var t := "http://ab";
    assert IsWord(t, 0, 9);
    assert UrlTypeOf(t[0..9]) == Http by { assert IsPrefix("http://", t); }
    assert UrlTypeOf(t[0..8]) == Http by { assert t[0..8][..7] == "http://"; }
    ScanThroughWord(t, 0, 0, 9);
    var a := "http://a";
    assert UrlTypeOf(a[0..8]) == Http by { assert IsPrefix("http://", a); }
    ScanThroughWord(a, 0, 0, 8);
    AsWrittenSingleWord(t);
    AsWrittenSingleWord(a);
  }

  /** As written, a text without boundary characters is scanned as the word
      `text[..|text| - 1]`. */
  lemma {:induction false} AsWrittenSingleWord(t: string)
    requires |t| > 0 && forall k | 0 <= k < |t| :: !IsBoundary(t[k])
    ensures FindUrlsAsWritten(t) == Emit(t, 0, |t| - 1)
  {
    AsWrittenSingleWordFrom(t, 0);
  }

  lemma {:induction false} AsWrittenSingleWordFrom(t: string, i: nat)
    requires i < |t| && forall k | 0 <= k < |t| :: !IsBoundary(t[k])
    ensures ScanFrom(t, i, 0, false) == Emit(t, 0, |t| - 1)
    decreases |t| - i
  {
    if i == |t| - 1 {
      assert ScanFrom(t, i + 1, i + 1, false) == [];
      assert Emit(t, 0, |t| - 1) + [] == Emit(t, 0, |t| - 1);
    } else {
      AsWrittenSingleWordFrom(t, i + 1);
    }
  }

  // ---- text runs ----

  /** A `text_run`: from `offset` on, either the URL font and colour or the
      plain font in black. */
  datatype TextRun = TextRun(offset: int, isUrl: bool)

  /** The runs for the found URLs: the URL style from its start, the plain
      style again from its end. */
  function UrlRuns(us: seq<UrlInfo>): (runs: seq<TextRun>)
    ensures |runs| == 2 * |us|
    ensures forall j | 0 <= j < |us| ::
      runs[2 * j] == TextRun(us[j].start, true) && runs[2 * j + 1] == TextRun(us[j].end, false)
  {
    if |us| == 0 then []
    else [TextRun(us[0].start, true), TextRun(us[0].end, false)] + UrlRuns(us[1..])
  }

  /** The runs and shifted URL infos for the URLs `us` found in the
      inserted text. The first run is the caller's first run when it starts
      at 0, none when it does not, and the plain style when the caller gave
      no runs. */
  function RunsAndInfos(us: seq<UrlInfo>, offset: int, callerFirstRun: Option<TextRun>)
    : (r: (seq<TextRun>, seq<UrlInfo>))
    ensures ShiftedBy(r.1, us, offset)
    ensures callerFirstRun.None? ==> |r.0| >= 1 && r.0[0] == TextRun(0, false)
    ensures callerFirstRun.Some? && callerFirstRun.value.offset != 0 ==> r.0 == UrlRuns(us)
    ensures RunsFor(r.0, FirstRun(callerFirstRun), us)
  {
    var first := FirstRun(callerFirstRun);
    (first + UrlRuns(us), seq(|us|, j requires 0 <= j < |us| => UrlInfo(offset + us[j].start, offset + us[j].end, us[j].kind)))
  }

  /** The run that precedes the URL runs: the caller's first run when it
      starts at 0, none when it does not, and the plain style from 0 when
      the caller gave no runs. */
  function FirstRun(callerFirstRun: Option<TextRun>): (first: seq<TextRun>)
    ensures |first| <= 1
    ensures callerFirstRun.None? ==> first == [TextRun(0, false)]
    ensures callerFirstRun.Some? ==> first == (if callerFirstRun.value.offset == 0 then [callerFirstRun.value] else [])
  {
    match callerFirstRun
    case None => [TextRun(0, false)]
    case Some(run) => if run.offset == 0 then [run] else []
  }

  /** `runs` opens with `first` and then, for each URL of `us` in order,
      switches to the URL style at its start and back at its end. */
  predicate RunsFor(runs: seq<TextRun>, first: seq<TextRun>, us: seq<UrlInfo>) {
    |runs| == |first| + 2 * |us| && runs[..|first|] == first &&
    forall j | 0 <= j < |us| ::
      runs[|first| + 2 * j] == TextRun(us[j].start, true) && runs[|first| + 2 * j + 1] == TextRun(us[j].end, false)
  }

  /** `infos` are the URLs `us` of the inserted text, in order, with their
      ranges moved by `offset` into the document. */
  predicate ShiftedBy(infos: seq<UrlInfo>, us: seq<UrlInfo>, offset: int) {
    |infos| == |us| && forall j | 0 <= j < |us| ::
      infos[j] == UrlInfo(offset + us[j].start, offset + us[j].end, us[j].kind)
  }

  /** The URL `u` of the document lies, `offset` back, on a genuine URL word
      of the inserted text. */
  predicate GenuineAt(text: string, offset: int, u: UrlInfo) {
    WellFormed(text, UrlInfo(u.start - offset, u.end - offset, u.kind))
  }

  /** Shifting genuine URLs of the inserted text by the offset gives URLs
      that are genuine at that offset. */
  lemma {:induction false} ShiftedInfosGenuine(text: string, offset: int, us: seq<UrlInfo>, infos: seq<UrlInfo>)
    requires forall j | 0 <= j < |us| :: WellFormed(text, us[j])
    requires ShiftedBy(infos, us, offset)
    ensures forall j | 0 <= j < |infos| :: GenuineAt(text, offset, infos[j])
  {
    forall j | 0 <= j < |infos| ensures GenuineAt(text, offset, infos[j]) {
      assert UrlInfo(infos[j].start - offset, infos[j].end - offset, infos[j].kind) == us[j];
    }
  }

  /** What `InsertText` hands to `BTextView::InsertText` as written: the text
      runs and the URL infos of the as-written scan, whose ranges are
      shifted by the insertion offset. */
  function InsertText(text: string, offset: int, callerFirstRun: Option<TextRun>)
    : (r: (seq<TextRun>, seq<UrlInfo>))
    ensures ShiftedBy(r.1, FindUrlsAsWritten(text), offset)
    ensures forall j {:trigger GenuineAt(text, offset, r.1[j])} | 0 <= j < |r.1| :: GenuineAt(text, offset, r.1[j])
    ensures callerFirstRun.None? ==> |r.0| >= 1 && r.0[0] == TextRun(0, false)
    ensures callerFirstRun.Some? && callerFirstRun.value.offset != 0 ==> |r.0| == 2 * |r.1|
    ensures RunsFor(r.0, FirstRun(callerFirstRun), FindUrlsAsWritten(text))
  {
    var us := FindUrlsAsWritten(text);
    var r := RunsAndInfos(us, offset, callerFirstRun);
    ShiftedInfosGenuine(text, offset, us, r.1);
    r
  }

  /** `InsertText` with the corrected scan, which keeps the last character
      of a URL that ends the text. */
  function InsertTextFixed(text: string, offset: int, callerFirstRun: Option<TextRun>)
    : (r: (seq<TextRun>, seq<UrlInfo>))
    ensures ShiftedBy(r.1, FindUrls(text), offset)
    ensures forall j {:trigger GenuineAt(text, offset, r.1[j])} | 0 <= j < |r.1| :: GenuineAt(text, offset, r.1[j])
    ensures callerFirstRun.None? ==> |r.0| >= 1 && r.0[0] == TextRun(0, false)
    ensures callerFirstRun.Some? && callerFirstRun.value.offset != 0 ==> |r.0| == 2 * |r.1|
    ensures RunsFor(r.0, FirstRun(callerFirstRun), FindUrls(text))
  {
    var us := FindUrls(text);
    var r := RunsAndInfos(us, offset, callerFirstRun);
    ShiftedInfosGenuine(text, offset, us, r.1);
    r
  }

  /** Every URL word of the inserted text reaches the document through the
      corrected `InsertText`, at its place shifted by the offset. */
  lemma {:induction false} InsertTextFixedRecordsEveryUrlWord(text: string, offset: int, callerFirstRun: Option<TextRun>, s: nat, e: nat)
    requires IsWord(text, s, e) && UrlTypeOf(text[s..e]) != NoUrl
    ensures UrlInfo(offset + s, offset + e, UrlTypeOf(text[s..e])) in InsertTextFixed(text, offset, callerFirstRun).1
  {
    var u := UrlInfo(s, e, UrlTypeOf(text[s..e]));
    FindUrlsFindsEveryUrlWord(text, s, e);
    ShiftedInfoIn(FindUrls(text), InsertTextFixed(text, offset, callerFirstRun).1, offset, u);
  }

  /** A URL of `us` appears, shifted by the offset, among the shifted infos. */
  lemma {:induction false} ShiftedInfoIn(us: seq<UrlInfo>, infos: seq<UrlInfo>, offset: int, u: UrlInfo)
    requires u in us
    requires ShiftedBy(infos, us, offset)
    ensures UrlInfo(offset + u.start, offset + u.end, u.kind) in infos
  {
    var j :| 0 <= j < |us| && us[j] == u;
    assert infos[j] == UrlInfo(offset + u.start, offset + u.end, u.kind);
  }

  /** As written, "http://ab" inserted at 10 is shown as a link over
      [10, 18) only; the corrected scan links [10, 19). */
  lemma {:induction false} InsertTextDropsLastChar()
    ensures InsertText("http://ab", 10, None).1 == [UrlInfo(10, 18, Http)]
    ensures InsertTextFixed("http://ab", 10, None).1 == [UrlInfo(10, 19, Http)]
  {
    FindUrlsAsWrittenDropsLastChar();
    InsertTextSingleUrl("http://ab", 10, None, UrlInfo(0, 8, Http));
    InsertTextFixedSingleUrl("http://ab", 10, None, UrlInfo(0, 9, Http));
  }

  /** As written, a text in which the scan finds a single URL is recorded
      as that URL, moved by the offset. */
  lemma {:induction false} InsertTextSingleUrl(text: string, offset: int, callerFirstRun: Option<TextRun>, u: UrlInfo)
    requires FindUrlsAsWritten(text) == [u]
    ensures InsertText(text, offset, callerFirstRun).1 == [UrlInfo(offset + u.start, offset + u.end, u.kind)]
  {
    ShiftedSingle(InsertText(text, offset, callerFirstRun).1, FindUrlsAsWritten(text), offset);
  }

  /** The corrected counterpart of `InsertTextSingleUrl`. */
  lemma {:induction false} InsertTextFixedSingleUrl(text: string, offset: int, callerFirstRun: Option<TextRun>, u: UrlInfo)
    requires FindUrls(text) == [u]
    ensures InsertTextFixed(text, offset, callerFirstRun).1 == [UrlInfo(offset + u.start, offset + u.end, u.kind)]
  {
    ShiftedSingle(InsertTextFixed(text, offset, callerFirstRun).1, FindUrls(text), offset);
  }

  /** Shifting a single URL gives that URL moved by the offset. */
  lemma {:induction false} ShiftedSingle(infos: seq<UrlInfo>, us: seq<UrlInfo>, offset: int)
    requires ShiftedBy(infos, us, offset) && |us| == 1
    ensures infos == [UrlInfo(offset + us[0].start, offset + us[0].end, us[0].kind)]
  {
    assert infos[0] == UrlInfo(offset + us[0].start, offset + us[0].end, us[0].kind);
  }

  /** The URL runs alternate between the URL style and the plain style,
      starting with the URL style. */
  lemma {:induction false} UrlRunsAlternate(us: seq<UrlInfo>)
    ensures var runs := UrlRuns(us);
      forall j | 0 <= j < |runs| :: runs[j].isUrl <==> j % 2 == 0
  {
    var runs := UrlRuns(us);
    forall j | 0 <= j < |runs| ensures runs[j].isUrl <==> j % 2 == 0 {
      var q := j / 2;
      assert runs[2 * q] == TextRun(us[q].start, true);
      assert runs[2 * q + 1] == TextRun(us[q].end, false);
      if j % 2 == 0 { assert j == 2 * q; } else { assert j == 2 * q + 1; }
    }
  }

  /** The runs of URLs found in a text (by either scan) start at strictly
      increasing offsets: each URL is non-empty and ends before the next
      one starts. */
  lemma {:induction false} UrlRunsIncrease(text: string, us: seq<UrlInfo>)
    requires forall j | 0 <= j < |us| :: WellFormed(text, us[j])
    requires Ordered(us)
    ensures var runs := UrlRuns(us);
      forall j | 0 <= j < |runs| - 1 :: runs[j].offset < runs[j + 1].offset
  {
    var runs := UrlRuns(us);
    forall j | 0 <= j < |runs| - 1 ensures runs[j].offset < runs[j + 1].offset {
      var q := j / 2;
      if j % 2 == 0 {
        assert j == 2 * q && j + 1 == 2 * q + 1;
        assert runs[j] == TextRun(us[q].start, true);
        assert runs[j + 1] == TextRun(us[q].end, false);
        assert WellFormed(text, us[q]);
      } else {
        assert j == 2 * q + 1 && j + 1 == 2 * (q + 1);
        assert runs[j] == TextRun(us[q].end, false);
        assert runs[j + 1] == TextRun(us[q + 1].start, true);
      }
    }
  }
}
